=== FILE: README.md ===
# SwiftChat core in Dafny

SwiftChat is a Telegram-style chat application. Its Node back end is an
Express REST API plus a socket.io server, and its React front end renders
chat lists and chat windows. This project models the parts of it that decide
who is online, where a message goes, what the stores hold, and what the user
sees. Each part is a pure function over immutable data, proved against a
contract.

- **Presence directory** (`OnlineUsers`). It maps a user id to a socket id
  with JavaScript `Map` semantics, including insertion order
  (`OrderedMap`).
- **socket.io rooms** (`Sockets`). This covers connecting, joining, leaving
  and disconnecting, plus the recipients of `io.emit`, `io.to(room)`,
  `socket.to(room)` and acknowledgements.
- **The live socket dispatcher** (`Dispatcher`,
  `controllers/socketHandler.js`). It is the `setupSocket` that
  `server.js` (lines 8 and 17) attaches to the HTTP server. It uses its own
  `Map` and per-user fan-out.
- **The modular socket handlers** (`Handlers`), wired by the other
  `setupSocket` in `socket/socketServer.js`, which `server.js` never calls.
  These are register, online and offline, disconnect, join and leave,
  typing, private and group messages, and the seen receipt. Each one maps a
  state plus an event to a new state, the emissions and the
  acknowledgement. They are modelled because the client speaks their event
  names and payloads.
- **Stores and schemas**:
  - The chat store (`ChatStore`): private-chat lookup, find-or-create, and
    sorting by recency.
  - The message store (`MessageStore`): persisting a message and adding a
    user to `seenBy` as `$addToSet` does.
  - The Mongoose schemas (`Models`): enum casting, required fields and
    defaults.
- **REST controllers**:
  - Chats (`ChatController`) and the user profile (`UserController`).
  - `AppError` and the global error handler (`Errors`).
  - The multipart upload helper (`FileUpload`).
- **Client side**:
  - The chat-window hooks' state reducers (`ChatWindowHooks`, both hook
    versions).
  - The chat list (`ChatListView`, both list versions).
  - The chat window's rendering decisions (`ChatWindowView`).
  - The intersection-observer seen tracker (`SeenObserver`).
  - The message input form (`MessageInputForm`).

Several things are parameters rather than computed:
- The environment: fresh database ids, the clock, and whether the database
  write fails (`Events.Env`).
- The file-upload service.
- The intersection observer's batches of entries.

JavaScript values that the source compares loosely or strictly are modelled
by `Js.Val`, `Js.ToStr` (`String(v)`) and `Js.Truthy`.

## Model

| member | source | states |
|---|---|---|
| OnlineUsers.GetSocketId | telegram-backend/socket/utils/onlineUsers.js:19-21 | The lookup of `String(userId)` is absent exactly when no entry has that key; a missing user is not an error. |
| OnlineUsers.AddOnlineUser | telegram-backend/socket/utils/onlineUsers.js:4-7 | A falsy user id leaves the directory unchanged. Otherwise the user's string id now maps to the new socket, replacing any older binding. Every other user's lookup is unchanged, and distinct non-empty keys stay so. |
| OnlineUsers.RemoveOnlineUserBySocket | telegram-backend/socket/utils/onlineUsers.js:9-17 | Returns null and leaves the directory unchanged exactly when no entry holds the socket. Otherwise it deletes the first entry in insertion order that holds the socket and returns that entry's user id. |
| OnlineUsers.GetAllOnlineUserIds | telegram-backend/socket/utils/onlineUsers.js:23-25 | Lists one id per entry, and an id is listed exactly when looking it up finds a socket. |
| OnlineUsers.OnlineIdsDistinct | telegram-backend/socket/utils/onlineUsers.js:23-25 | The online list never names a user twice. |
| OnlineUsers.RemoveUnbindsOnlyThatUser | telegram-backend/socket/utils/onlineUsers.js:9-21 | After a disconnect the reported user was bound to that socket and is no longer found, while every other user keeps their socket. |
| OnlineUsers.AddThenRemoveUnbinds | telegram-backend/socket/utils/onlineUsers.js:4-17 | Registering a user on a fresh socket and then dropping that socket reports that user and forgets them. |
| Handlers.RegisterUser | telegram-backend/socket/handlers/registerHandler.js:5-12 | `registerUser`: a falsy id does nothing. Otherwise the user is bound to this socket, the socket joins the room `String(userId)` and no other room changes, and exactly one event goes to everyone: `onlineUsersUpdate` with the bulk list `getAllOnlineUserIds()` of the updated directory, in insertion order. A user is in that list exactly when registered. Other users' bindings and the stores are untouched. |
| Handlers.UserOnline | telegram-backend/socket/handlers/statusHandler.js:5-9 | `userOnline`: the socket joins the room `String(userId)` and no other room changes. Exactly one event goes to everyone: `onlineUsersUpdate` with the bulk list `getAllOnlineUserIds()` of the unchanged directory. Presence and the stores are not updated. |
| Handlers.UserOffline | telegram-backend/socket/handlers/statusHandler.js:11-13 | `userOffline`: no state changes; exactly one event goes to everyone: `onlineUsersUpdate` of type `remove` naming the given user id. |
| Handlers.OnDisconnect | telegram-backend/socket/handlers/statusHandler.js:15-20 | `disconnect`: the socket leaves every room and the directory drops the first entry bound to it, as `removeOnlineUserBySocket` does. In a well-formed directory, an `onlineUsersUpdate` of type `remove` is broadcast exactly when such an entry existed, and it names that entry's user. |
| Handlers.JoinChat | telegram-backend/socket/handlers/joinHandler.js:3-7 | `joinChat`: a falsy chat id does nothing. Otherwise the socket joins the room `String(chatId)`, no other room changes, and only this socket receives `joinedChat` with the chat id. |
| Handlers.LeaveChat | telegram-backend/socket/handlers/joinHandler.js:9-13 | `leaveChat`: a falsy chat id does nothing. Otherwise the socket leaves the room `String(chatId)`, no other room changes, and only this socket receives `leftChat` with the chat id. |
| Handlers.RelayTyping | telegram-backend/socket/handlers/typingHandler.js:3-12 | `typing` and `stopTyping` (as `userTyping` and `userStoppedTyping`): no state changes. A falsy chat id emits nothing; otherwise one event carrying `{chatId, userId}` reaches exactly the members of the room `String(chatId)` other than the sending socket. |
| Handlers.PrivateMessage | telegram-backend/socket/handlers/privateMessageHandler.js:7-41 | `privateMessage`: the pair's private chat is reused if one exists and appended otherwise. On success the stored message has a fresh id, that chat, the sender, the text ("" when absent), the cast media and no viewers. It is sent to the receiver's room and then the sender's room, a `messageDelivered` follows to the sender exactly when the receiver has a socket, and the acknowledgement carries the message. A store fault or an invalid media item gives a failed acknowledgement, no emission and no new message. |
| Handlers.ResolvedChatIsFirstMatch | telegram-backend/socket/handlers/privateMessageHandler.js:12-18 | The chat the find-or-create step of `privateMessage` settles on is the first private chat of the pair in the resulting store, so a later lookup finds the same chat. |
| Handlers.GroupMessage | telegram-backend/socket/handlers/groupMessageHandler.js:7-30 | `groupMessage`: an unknown chat id acknowledges "Group not found" and changes nothing. Otherwise, exactly when the store does not fault and every media item is valid, the stored message has a fresh id, the chat, the sender, the text ("" when absent), the cast media and no viewers. It goes to the room `String(groupId)` as `newGroupMessage`, then `messageDelivered` goes to the sender's room, and the acknowledgement carries the message. On failure nothing is stored or sent. |
| Handlers.MarkMessageSeen | telegram-backend/socket/handlers/seenHandler.js:6-16 | `markMessageSeen`: on success the first message with the id gets `$addToSet` of the user on its `seenBy`, so the user appears once. Every other message is unchanged. The receipt `{messageId, userId}` goes to the room `String(chatId)` and the acknowledgement is `{ok: true}`. A store fault changes nothing and fails the acknowledgement. |
| Handlers.SeenRepeatBroadcastsAgain | telegram-backend/socket/handlers/seenHandler.js:8-10 | Repeating a seen receipt leaves the store as after the first one, but the receipt is broadcast again. |
| Handlers.HandlePreservesValid | telegram-backend/socket/socketServer.js:19-29 | Every listener registered per connection (register, join and leave, private and group message, seen, typing, status and disconnect) preserves the server invariant. That is: distinct non-empty presence keys, rooms that are non-empty and hold only connected sockets, unique chat and message ids, and at most one chat per private pair. |
| Handlers.HandleNeverForgetsSeen | telegram-backend/socket/socketServer.js:19-29 | No listener registered per connection removes a stored message, changes its id, or removes a `seenBy` entry. |
| Handlers.PrivateSendsShareChat | telegram-backend/socket/handlers/privateMessageHandler.js:12-21 | A `privateMessage` from one user and a reply from the other find or create the same chat, so both messages land in it and at most one chat is created. |
| Dispatcher.RegisterUser | telegram-backend/controllers/socketHandler.js:20-23 | The id maps to this socket with no falsy-id guard; other ids keep their socket, and nothing is emitted. |
| Dispatcher.JoinChat | telegram-backend/controllers/socketHandler.js:26-29 | A null or undefined chat id raises the `toString` error; otherwise only that room gains the socket. |
| Dispatcher.LeaveChat | telegram-backend/controllers/socketHandler.js:31-34 | A null or undefined chat id raises the `toString` error; otherwise only that room loses the socket. |
| Dispatcher.DeliverPrivate | telegram-backend/controllers/socketHandler.js:47-52 | The receiver's socket gets the message first and then the sender's, each only when it is online. |
| Dispatcher.PrivateMessage | telegram-backend/controllers/socketHandler.js:37-56 | The pair's chat is found or created. The message is stored unless the store faults or media is invalid. It carries the sender, the text ("" when absent), the cast media and no viewers, and lands in a private chat of the pair. Only when it is stored is it delivered to the online parties, receiver first. |
| Dispatcher.FanOutReachesOnlineMembers | telegram-backend/controllers/socketHandler.js:66-69 | The group message reaches a socket exactly when some participant is online on it. |
| Dispatcher.DuplicateParticipantGetsTwo | telegram-backend/controllers/socketHandler.js:66-69 | A participant listed twice receives the group message twice. |
| Dispatcher.GroupMessage | telegram-backend/controllers/socketHandler.js:59-73 | An unknown group is silently ignored. Otherwise the message is stored exactly when the store does not fault and every media item is valid. It carries the chat, the sender, the text ("" when absent), the cast media and no viewers, and is sent to each online participant's socket. |
| Dispatcher.MarkMessageSeen | telegram-backend/controllers/socketHandler.js:76-83 | The `$addToSet` runs first: the first message with the id gains the user once on its `seenBy`, and every other message is unchanged. A null or undefined chat id then raises the `toString` error with no emission; otherwise the receipt goes to the chat room. |
| Dispatcher.SeenRepeatKeepsMessages | telegram-backend/controllers/socketHandler.js:76-83 | Repeating a seen mark leaves the messages as after the first one and emits the same events again. |
| Dispatcher.OnDisconnect | telegram-backend/controllers/socketHandler.js:85-93 | The socket leaves every room, and only the first entry bound to it is deleted. |
| Dispatcher.DisconnectKeepsSecondRegistration | telegram-backend/controllers/socketHandler.js:85-93 | When two users registered on the same socket, disconnecting it forgets only the first of them. |
| Dispatcher.HandlePreservesValid | telegram-backend/controllers/socketHandler.js:17-94 | Every event of the dispatcher preserves distinct presence keys, non-empty rooms of connected sockets, unique chat and message ids, and at most one chat per private pair. |
| ChatStore.FindPrivate | telegram-backend/socket/handlers/privateMessageHandler.js:12-15 | Finds the first private chat whose participants include both users, and reports none exactly when no chat matches. |
| ChatStore.FindPrivateSymmetric | telegram-backend/socket/handlers/privateMessageHandler.js:14 | Looking up a pair gives the same chat in either order. |
| ChatStore.FindAllPrivate | telegram-backend/controllers/chatController.js:84 | Lists exactly the private chats containing both users, and is empty exactly when the single lookup finds none. |
| ChatStore.FindById | telegram-backend/socket/handlers/groupMessageHandler.js:10 | Finds a chat with the id, or reports that none has it. |
| ChatStore.NewPrivateChatIsSchemaValid | telegram-backend/socket/handlers/privateMessageHandler.js:17 | A new private chat of two present users passes the chat schema unchanged. |
| ChatStore.FindOrCreatePrivate | telegram-backend/socket/handlers/privateMessageHandler.js:12-18 | Returns a stored chat of the pair. It is the existing first match if there is one; otherwise it is a fresh chat appended to the store. |
| ChatStore.ResolveTwiceSameChat | telegram-backend/socket/handlers/privateMessageHandler.js:12-18 | A second find-or-create for the same pair returns the same chat and adds nothing. |
| ChatStore.FindOrCreateKeepsPairsUnique | telegram-backend/socket/handlers/privateMessageHandler.js:12-18 | When handled one after another, find-or-create never yields two two-party private chats with the same members. |
| ChatStore.SortByRecency | telegram-backend/controllers/chatController.js:14 | The result is a permutation of the chats, ordered newest `updatedAt` first. |
| ChatStore.UserChats | telegram-backend/controllers/chatController.js:11-14 | Returns exactly the chats the user participates in, newest first. |
| MessageStore.FindMessage | telegram-backend/socket/handlers/seenHandler.js:8 | Finds the first message with the id, or reports that none has it. |
| MessageStore.AddToSet | telegram-backend/socket/handlers/seenHandler.js:8 | The user is added at the end if absent. Existing entries are kept in order, and an already-present user changes nothing. |
| MessageStore.AddToSetKeepsDistinct | telegram-backend/socket/handlers/seenHandler.js:8 | A duplicate-free `seenBy` stays duplicate-free. |
| MessageStore.MarkSeen | telegram-backend/socket/handlers/seenHandler.js:8 | Only the addressed message's `seenBy` changes. It gains the user, loses no one, and nothing else changes. An unknown id leaves the store unchanged. |
| MessageStore.MarkSeenIdempotent | telegram-backend/socket/handlers/seenHandler.js:8 | Marking seen twice is the same as once. |
| MessageStore.Persist | telegram-backend/socket/handlers/privateMessageHandler.js:21 | Storing succeeds exactly when every media item is valid. It appends one message with the given id, chat and sender, the text ("" when absent), exactly the cast media items, and empty `deliveredTo` and `seenBy`. It keeps message ids unique. |
| Models.ParseChatKind | telegram-backend/models/chatModel.js:5 | Accepts exactly the enum names `private` and `group`. |
| Models.ParseMediaKind | telegram-backend/models/messageModel.js:18 | Accepts exactly the enum names `image`, `video`, `audio` and `document`. |
| Models.CreateChatDoc | telegram-backend/models/chatModel.js:3-11 | Validation passes exactly when the type is present and in the enum and every participant is present. The document copies the fields, and both timestamps are set to the creation time. |
| Models.CastMedia | telegram-backend/models/messageModel.js:15-22 | A media item casts exactly when its url is present and non-empty (a required string rejects "") and its type is in the enum. The cast keeps the url, the type, the name and the size. |
| Models.EmptyUrlIsRequired | telegram-backend/models/messageModel.js:17 | A media item with an empty url fails the required-url check, whatever its type. |
| Models.CastMediaList | telegram-backend/models/messageModel.js:15-22 | The list casts exactly when every item casts, item by item. |
| Models.CreateMessageDoc | telegram-backend/models/messageModel.js:10-27 | Validation passes exactly when chat, sender and all media are valid. Text defaults to the empty string, and `media` is the item-by-item cast of the input. `deliveredTo` and `seenBy` start empty. |
| Models.EmptyMessageIsSchemaValid | telegram-backend/models/messageModel.js:14 | A message with neither text nor media is accepted and stored with empty text. |
| ChatController.GetUserChats | telegram-backend/controllers/chatController.js:7-22 | A missing user id gives 401 "fail". Otherwise the response is success, with the user's chats newest first and their count. |
| ChatController.GetUserChatsNeverNotFound | telegram-backend/controllers/chatController.js:15-16 | The 404 branch is unreachable, because an empty list is still an array. |
| ChatController.AccessPrivateChat | telegram-backend/controllers/chatController.js:80-92 | Returns the existing private chat of the pair if one exists; otherwise it creates and returns a new one. |
| ChatController.AccessAgainFindsCreated | telegram-backend/controllers/chatController.js:84-90 | Accessing the pair again returns the chat the first access created. |
| ChatController.SelfAccessMatchesEveryPrivateChat | telegram-backend/controllers/chatController.js:84 | Accessing a chat with oneself finds any private chat one is in. |
| ChatController.CreateGroup | telegram-backend/controllers/chatController.js:95-97 | Missing participants fail on the spread, and a missing admin fails validation. Otherwise a group chat of the participants plus the admin is stored. |
| ChatController.CreateGroupChatAsWritten | telegram-backend/controllers/chatController.js:94-99 | When the request carries no `userId`, group creation fails and the store is unchanged. |
| ChatController.GroupCreationAlwaysFails | telegram-backend/controllers/chatController.js:96 | Behind the login guard, which sets `req.user` but never `req.userId`, no group can be created. |
| ChatController.CreateGroupChat | telegram-backend/controllers/chatController.js:94-99 | With the admin read from the logged-in user, the group is created. |
| ChatController.CreatorJoinsOwnGroup | telegram-backend/controllers/chatController.js:94-99 | With the corrected admin, the created group includes its creator and every named participant. |
| ChatController.DeleteChat | telegram-backend/controllers/chatController.js:101-103 | The handler is empty: the store is unchanged and no response is sent. |
| Errors.NewAppError | telegram-backend/utils/AppError.js:7-14 | An operational error whose status is "fail" exactly when the code's decimal text starts with "4"; otherwise the status is "error". |
| Errors.ClientErrorsFail | telegram-backend/utils/AppError.js:10 | Every code from 400 to 499 gives status "fail". |
| Errors.ServerErrorsAreErrors | telegram-backend/utils/AppError.js:10 | Every code from 500 to 599 gives status "error". |
| Errors.TextualStatusTest | telegram-backend/utils/AppError.js:10 | The test is textual: 4000 and 40 count as "fail", and -400 counts as "error". |
| Errors.CodeOrDefault | telegram-backend/controllers/errorController.js:7 | A missing or zero code becomes 500. |
| Errors.StatusOrDefault | telegram-backend/controllers/errorController.js:8 | A missing or empty status becomes "error". |
| Errors.HandleError | telegram-backend/controllers/errorController.js:6-25 | The response code is the error's non-zero code, else 500, and the body's status is the error's non-empty status, else "error". Development mode returns the message and the error with both defaults filled in. Production returns the message only for operational errors and a generic text otherwise. |
| Errors.AppErrorReachesClient | telegram-backend/controllers/errorController.js:6-25 | An `AppError` reaches the client with its own code, status and message in either mode. |
| Errors.ProductionHidesInternalErrors | telegram-backend/controllers/errorController.js:18-23 | In production a non-operational error shows only the generic message. |
| UserController.FilterObj | telegram-backend/controllers/userController.js:7-13 | Keeps exactly the allowed keys with their values, dropping the rest. |
| UserController.UpdateMe | telegram-backend/controllers/userController.js:22-29 | A truthy password gives 400 "fail" with the fixed message. Otherwise only `fullName`, `email` and the uploaded photo reach the update. |
| UserController.WithPhoto | telegram-backend/controllers/userController.js:29 | An uploaded file name becomes `profilePic`; nothing else changes. |
| UserController.GetMe | telegram-backend/controllers/userController.js:16-19 | The route parameter `id` becomes the logged-in user's id; other parameters are untouched. |
| FileUpload.HandleFileUpload | telegram-backend/utils/handleFileUpload.js:5-14 | No files gives an empty list without calling the uploader. Otherwise the upload succeeds exactly when every file uploads, and the results come back in file order. The uploader is never called past the first failure. |
| ChatWindowHooks.WithIsMine | telegram-frontend/src/features/chats/useChatWindow2.js:37-40 | Tags a message as mine exactly when its sender id equals the user's id, leaving all else unchanged. |
| ChatWindowHooks.LoadMessages | telegram-frontend/src/features/chats/useChatWindow.js:25-28 | The loaded history keeps every message in order, each tagged by sender. |
| ChatWindowHooks.AddMessage | telegram-frontend/src/features/chats/useChatWindow2.js:59-65 | Appends the tagged message and keeps the earlier ones. |
| ChatWindowHooks.OnPrivate | telegram-frontend/src/features/chats/useChatWindow2.js:71-73 | Appends the incoming message exactly when its chat id equals the open chat's id as strings. |
| ChatWindowHooks.OnGroup | telegram-frontend/src/features/chats/useChatWindow2.js:75-77 | Appends exactly when the group id equals the open chat's id as strings. |
| ChatWindowHooks.OnPrivateStrict | telegram-frontend/src/features/chats/useChatWindow.js:46-54 | Appends exactly when the chat ids are strictly equal. |
| ChatWindowHooks.OnGroupStrict | telegram-frontend/src/features/chats/useChatWindow.js:57-68 | Appends exactly when the group ids are strictly equal. |
| ChatWindowHooks.StrictAcceptanceImpliesLoose | telegram-frontend/src/features/chats/useChatWindow.js:47 | Whatever the strict hook accepts, the string-comparing hook accepts the same way. |
| ChatWindowHooks.LooseAcceptsRenderedId | telegram-frontend/src/features/chats/useChatWindow2.js:72 | A numeric chat id matches its decimal string in the second hook but not in the first. |
| ChatWindowHooks.Dedup | telegram-frontend/src/features/chats/useChatWindow.js:82 | `[...new Set(s)]`: the same members, each once, in the order of their first occurrence in the input; already-distinct lists are unchanged. |
| ChatWindowHooks.AddSeen | telegram-frontend/src/features/chats/useChatWindow2.js:82 | `seenBy` becomes the old viewers plus the new one, without duplicates, and the rest of the message is unchanged. |
| ChatWindowHooks.OnSeen | telegram-frontend/src/features/chats/useChatWindow2.js:79-85 | Only messages with the id gain the viewer; all others are untouched. |
| ChatWindowHooks.OnSeenIdempotent | telegram-frontend/src/features/chats/useChatWindow2.js:79-85 | A repeated seen receipt changes nothing further. |
| ChatWindowHooks.OnDelivered | telegram-frontend/src/features/chats/useChatWindow2.js:87-91 | Exactly the messages with the id become delivered, and delivered ones stay so. |
| ChatWindowHooks.OnTyping | telegram-frontend/src/features/chats/useChatWindow2.js:93-96 | Adds a truthy typist other than me once and keeps the rest in order. |
| ChatWindowHooks.Without | telegram-frontend/src/features/chats/useChatWindow2.js:99 | Removes every occurrence of the user and keeps the others. |
| ChatWindowHooks.WithoutConcat | telegram-frontend/src/features/chats/useChatWindow2.js:99 | Filtering a concatenation is filtering each part, in order; with `WithoutSingleton` this fixes the result of `filter`, order included. |
| ChatWindowHooks.WithoutSingleton | telegram-frontend/src/features/chats/useChatWindow2.js:99 | A one-id list keeps its id exactly when it is not the removed one. |
| ChatWindowHooks.OnStopTyping | telegram-frontend/src/features/chats/useChatWindow2.js:98-100 | The user is no longer typing, and everyone else's status is unchanged. The remaining typists keep their order: the result is the filtered list without its last entry, followed by that entry unless it is the user. |
| ChatWindowHooks.TypingThenStopRestores | telegram-frontend/src/features/chats/useChatWindow2.js:93-100 | Starting then stopping typing restores the previous typist list. |
| ChatWindowHooks.OnOnline | telegram-frontend/src/features/chats/useChatWindow2.js:102-107 | A bulk update replaces the list, `remove` drops one user, and an array replaces the list. Any other object replaces the list with its `users` or with itself, and no payload keeps the list. |
| ChatWindowHooks.BulkThenRemove | telegram-frontend/src/features/chats/useChatWindow2.js:104-105 | A bulk list followed by a removal gives the list without that user. |
| ChatWindowHooks.ReceiverOf | telegram-frontend/src/features/chats/useChatWindow2.js:154 | The receiver is a participant other than me, and it is never me when such a participant exists. |
| ChatWindowHooks.HandleSend | telegram-frontend/src/features/chats/useChatWindow2.js:129-164 | Nothing is sent without a chat, without text and files, or when an upload fails. A group chat sends a group message from me to the chat. Any other chat sends a private message from me to the first participant whose id is not mine, or nothing when its participants are missing (the `find` throws). The text is unchanged, and the media are the uploaded files when files were attached, none otherwise. |
| ChatListView.AllChats | telegram-frontend/src/features/chats/ChatList2.jsx:26 | Local chats come first, then the server's, and nothing is dropped. |
| ChatListView.OnOnline | telegram-frontend/src/features/chats/ChatList2.jsx:40-51 | The list's online-update reducer, case by case. |
| ChatListView.OnlineAgreesWithHook | telegram-frontend/src/features/chats/ChatList2.jsx:40-51 | The list and the chat-window hook agree on every payload, except an unknown object without `users`: the window stores the object, while the list keeps its list. |
| ChatListView.TypingAdd | telegram-frontend/src/features/chats/ChatList2.jsx:54-63 | With truthy ids, the chat's typist set gains the user; other chats are unchanged. |
| ChatListView.TypingStop | telegram-frontend/src/features/chats/ChatList2.jsx:65-75 | With truthy ids, the user leaves the chat's set, and other chats are unchanged. The chat keeps its entry exactly when it had one with some other typist, so an emptied chat is dropped. |
| ChatListView.TypingAddKeepsWellFormed | telegram-frontend/src/features/chats/ChatList2.jsx:54-63 | Starting to type keeps every stored set non-empty and duplicate-free. |
| ChatListView.TypingStopKeepsWellFormed | telegram-frontend/src/features/chats/ChatList2.jsx:65-75 | Stopping keeps every stored set non-empty and duplicate-free. |
| ChatListView.TypingStartThenStop | telegram-frontend/src/features/chats/ChatList2.jsx:54-75 | Typing then stopping in a chat no one was typing in restores the map. |
| ChatListView.TypingPreview | telegram-frontend/src/features/chats/ChatList2.jsx:133-148 | A typing line is shown exactly when the chat's first typist is not me. It names the first participant whose id is that typist's (full name, then name, then "Someone"), "Someone" when no participant matches, and "typing..." when participants are missing, each followed by " is typing…". |
| ChatListView.TypistName | telegram-frontend/src/features/chats/ChatList2.jsx:139-145 | Missing participants give an empty name. Otherwise the name is that of the first participant whose id is the typist's (full name, then name, then "Someone"), and "Someone" when none matches. |
| ChatListView.OwnTypingNotPreviewed | telegram-frontend/src/features/chats/ChatList2.jsx:147 | My own typing never shows in my list. |
| ChatListView.OtherTypingPreviewed | telegram-frontend/src/features/chats/ChatList2.jsx:136-148 | Another participant's typing shows their name followed by " is typing…". |
| ChatListView.MediaLabel | telegram-frontend/src/features/chats/ChatList2.jsx:124-126 | Image types are labelled as photos and video types as videos; everything else is a file. |
| ChatListView.Preview2 | telegram-frontend/src/features/chats/ChatList2.jsx:120-130 | No message gives "No messages yet". A message with media gives the label of its first item's type (`image`, `video`, anything else), with a missing type treated as ""; otherwise the preview is the text. |
| ChatListView.Preview1 | telegram-frontend/src/features/chats/ChatList.jsx:54-64 | The first list crashes exactly on media without a type. |
| ChatListView.PreviewsAgree | telegram-frontend/src/features/chats/ChatList.jsx:54-64 | Where the first list renders a preview at all, it is the second list's preview. |
| ChatListView.RenderPreview | telegram-frontend/src/features/chats/ChatList2.jsx:190-210 | Typing wins. Otherwise an icon is shown only for previews starting with a media emoji, and plain text is shown verbatim. |
| ChatListView.MediaRendersIcon | telegram-frontend/src/features/chats/ChatList2.jsx:193-207 | A typed media item always renders as its icon. |
| ChatListView.CameraTextLooksLikePhoto | telegram-frontend/src/features/chats/ChatList2.jsx:193 | A text message starting with the camera emoji is shown as a photo. |
| ChatListView.OnlineDot | telegram-frontend/src/features/chats/ChatList2.jsx:160-169 | A private chat is online when someone other than me is listed online. Otherwise it is online when any participant is listed. |
| ChatListView.GroupDotCountsSelf | telegram-frontend/src/features/chats/ChatList2.jsx:167 | A group shows online when only I am online. |
| ChatListView.PrivateDotIgnoresSelf | telegram-frontend/src/features/chats/ChatList2.jsx:162-164 | A private chat ignores my own presence and shows the other's. |
| ClientTypes.ChatTitle | telegram-frontend/src/features/chats/ChatList2.jsx:107 | A row or window title is the chat's own name when it has one, otherwise the fallback ("Unknown" in the list, "Chat" in the window, ChatWindow2.jsx:111); with a non-empty fallback it is never empty. |
| ChatListView.OtherParticipant1 | telegram-frontend/src/features/chats/ChatList.jsx:46-48 | Finds a participant differing from me in `_id` or in `id`, as the first list's `||` test does. |
| ChatListView.DisplayName1 | telegram-frontend/src/features/chats/ChatList.jsx:42-51 | Unless the chat is private with participants and a user, the row shows the chat's name or "Unknown". A private chat shows the full name of the first participant whose `_id` or whose `id` differs from mine, or "Unknown" when that name is empty or every participant matches me; the title is never empty. |
| ChatListView.DisplayName1ShowsSelf | telegram-frontend/src/features/chats/ChatList.jsx:47 | With a user object carrying `id` and participants without it, the private row is titled with my own name. |
| ChatListView.OtherParticipant2 | telegram-frontend/src/features/chats/ChatList2.jsx:112-114 | Finds the first participant that is not me by either id. |
| ChatListView.DisplayName2 | telegram-frontend/src/features/chats/ChatList2.jsx:107-117 | A private chat shows the other participant's name; it is never empty. |
| ChatListView.DisplayName2NeverSelf | telegram-frontend/src/features/chats/ChatList2.jsx:112-115 | In the same situation, the second list titles the row with the other person's name. |
| ChatListView.Avatar | telegram-frontend/src/features/chats/ChatList2.jsx:108 | The first character of the name, upper-cased; empty only for an empty name. |
| ChatListView.UnreadBadge | telegram-frontend/src/features/chats/ChatList2.jsx:158-213 | A badge appears exactly for a positive unread count, showing that count. |
| ChatListView.RenderRow | telegram-frontend/src/features/chats/ChatList2.jsx:105-217 | A row has a non-empty title and a one-letter avatar. Its typing line, online dot and badge follow the rules above. The badge shows the unread count. A typing preview replaces the last-message preview, and a plain-text preview is the second list's preview text. |
| ChatWindowView.StripUploads | telegram-frontend/src/features/chats/ChatWindow2.jsx:51 | Drops a leading `/uploads` and keeps the `/` after it; other urls are unchanged. |
| ChatWindowView.ResolveUrl | telegram-frontend/src/features/chats/ChatWindow2.jsx:49-51 | Absolute URLs pass through; others are prefixed by the server address. The result is always absolute. |
| ChatWindowView.ResolveUrlIdempotent | telegram-frontend/src/features/chats/ChatWindow.jsx:48-49 | Resolving twice is resolving once. |
| ChatWindowView.UploadPathResolves | telegram-frontend/src/features/chats/ChatWindow2.jsx:51 | An upload path maps to the server address plus the file path. |
| ChatWindowView.RenderMedia | telegram-frontend/src/features/chats/ChatWindow2.jsx:133-145 | Images render as images and everything else as a file link, both with the resolved URL. |
| ChatWindowView.IsOnline | telegram-frontend/src/features/chats/ChatWindow2.jsx:54-70 | A private chat is online when the first participant who is not me is listed; with no list it is offline, and a list that is not an array throws exactly when such a participant exists. A group is online when any participant other than me is listed, and a missing or non-array list throws exactly when such a participant exists. Only a usable list or a throw-free case gives an answer. |
| ChatWindowView.DisplayTyping | telegram-frontend/src/features/chats/ChatWindow2.jsx:73-87 | A typing line exists exactly when there is a chat and the first typist other than me is truthy. It names the first participant with that id (full name, then name, then "Someone"), and "Someone" when participants are missing or none matches, followed by " is typing...". |
| ChatWindowView.FirstWhere | telegram-frontend/src/features/chats/ChatWindow2.jsx:77-79 | The first typist who is not me. |
| ChatWindowView.TypingNamesParticipant | telegram-frontend/src/features/chats/ChatWindow2.jsx:77-86 | A participant typing next to me is named in the typing line. |
| ChatWindowView.RenderHeader | telegram-frontend/src/features/chats/ChatWindow2.jsx:108-114 | The header throws exactly when some participant is not me and the online list is unusable: not an array for a private chat, missing or not an array for any other chat. Otherwise the status is "online" exactly when the online test says so, else "last seen recently", and the typing line is the window's typing text. |
| ChatWindowView.HeaderAsWiredThrowsOnGroups | telegram-frontend/src/features/chats/ChatWindow2.jsx:64-68 | With the first hook wired in, a group chat with another member cannot render its header. |
| ChatWindowView.HeaderWithSecondHook | telegram-frontend/src/features/chats/ChatWindow2.jsx:54-87 | With the second hook, every header renders, and a typist other than me is shown. |
| ChatWindowView.HasOtherSeen2 | telegram-frontend/src/features/chats/ChatWindow2.jsx:93-102 | A message counts as seen by a group when anyone has seen it. In a private chat it needs a viewer who is the other participant, compared as strings. |
| ChatWindowView.HasOtherSeen1 | telegram-frontend/src/features/chats/ChatWindow.jsx:52-59 | The same test, but with the first window's strict comparison and optional chaining. |
| ChatWindowView.UndefinedViewerTicksSoloChat | telegram-frontend/src/features/chats/ChatWindow.jsx:55-56 | In a chat where I am alone, an undefined viewer ticks the first window but not the second. |
| ChatWindowView.SeenTestsAgree | telegram-frontend/src/features/chats/ChatWindow.jsx:52-59 | In an ordinary two-person chat both windows agree on seen. |
| ChatWindowView.SeenMark | telegram-frontend/src/features/chats/ChatWindow2.jsx:159-163 | Only my messages show a mark: a double tick when seen, otherwise a single tick. |
| ChatWindowView.StatusText1 | telegram-frontend/src/features/chats/ChatWindow.jsx:68 | "online" exactly when the chat's flag is truthy, else "last seen recently". |
| SeenObserver.Split | telegram-frontend/src/features/chats/useMessageSeenObserver.js:19 | Splits on commas into comma-free pieces, at least one, and joining the pieces with "," gives the input back. |
| SeenObserver.SplitJoin | telegram-frontend/src/features/chats/useMessageSeenObserver.js:19 | Splitting the `data-seenby` attribute recovers the viewer ids when they are comma-free strings. |
| SeenObserver.BubbleOf | telegram-frontend/src/features/chats/ChatWindow2.jsx:124-129 | A bubble carries the joined viewers and marks whether I sent the message. |
| SeenObserver.ObservedIffUnseenIncoming | telegram-frontend/src/features/chats/useMessageSeenObserver.js:41-48 | A bubble is watched exactly when it is someone else's message that I have not seen. |
| SeenObserver.Setup | telegram-frontend/src/features/chats/useMessageSeenObserver.js:11-48 | Without a chat, user or messages nothing is watched; otherwise exactly the unseen incoming bubbles are watched. |
| SeenObserver.Delivered | telegram-frontend/src/features/chats/useMessageSeenObserver.js:34 | The observer delivers only entries for still-watched bubbles. |
| SeenObserver.OnEntries | telegram-frontend/src/features/chats/useMessageSeenObserver.js:14-35 | Every emitted receipt is for a visible, watched, unseen incoming bubble and names me and the chat. The watch set only shrinks. |
| SeenObserver.OnEntriesStopsOnlyEmitted | telegram-frontend/src/features/chats/useMessageSeenObserver.js:27-34 | A bubble stops being watched only if its receipt was emitted. |
| SeenObserver.OnEntriesComplete | telegram-frontend/src/features/chats/useMessageSeenObserver.js:16-31 | Every visible, watched, unseen incoming entry emits a receipt. |
| SeenObserver.OnEntriesEmitsDistinct | telegram-frontend/src/features/chats/useMessageSeenObserver.js:15-35 | Within one observer, a batch naming each bubble once emits at most one receipt per bubble. |
| SeenObserver.Run | telegram-frontend/src/features/chats/useMessageSeenObserver.js:13-38 | Across the batches of one observer, every receipt is for a bubble that was watched and qualifies. |
| SeenObserver.RunEmitsEachBubbleOnce | telegram-frontend/src/features/chats/useMessageSeenObserver.js:34 | Across the batches of one observer instance, each bubble's receipt is emitted at most once. |
| SeenObserver.VisibleBubbleEmitsOnce | telegram-frontend/src/features/chats/useMessageSeenObserver.js:27-34 | A bubble seen twice in separate batches emits once. |
| SeenObserver.RepeatedEntryEmitsTwice | telegram-frontend/src/features/chats/useMessageSeenObserver.js:15-35 | Within one batch, a bubble listed twice emits twice, because unobserving takes effect only for later batches. |
| MessageInputForm.Trim | telegram-frontend/src/features/chats/MessageInput.jsx:122 | The result is the slice of the input between an all-white-space prefix and an all-white-space suffix, and neither starts nor ends with white space. |
| MessageInputForm.TrimEmptyIffAllSpace | telegram-frontend/src/features/chats/MessageInput.jsx:122 | Trimming gives empty exactly for all-whitespace text. |
| MessageInputForm.TrimIdempotent | telegram-frontend/src/features/chats/MessageInput.jsx:124 | Trimming twice is trimming once. |
| MessageInputForm.HandleSubmit | telegram-frontend/src/features/chats/MessageInput.jsx:120-127 | Blank text with no files does nothing. Otherwise it sends the trimmed text and the files, then clears both. |
| MessageInputForm.SendDisabledIffSubmitIsNoOp | telegram-frontend/src/features/chats/MessageInput.jsx:177 | The send button is disabled exactly when submitting would send nothing. |
| MessageInputForm.SubmitTwiceSendsOnce | telegram-frontend/src/features/chats/MessageInput.jsx:124-126 | An immediate second submit sends nothing. |
| MessageInputForm.KeyDown | telegram-frontend/src/features/chats/MessageInput.jsx:172-174 | Enter without Shift submits; any other key does nothing. |
| MessageInputForm.HandleFileChange | telegram-frontend/src/features/chats/MessageInput.jsx:129-133 | A non-empty selection replaces the files and keeps the text; an empty selection changes nothing. |
| MessageInputForm.Cancel | telegram-frontend/src/features/chats/MessageInput.jsx:150 | Clears the files and keeps the text. |
| MessageInputForm.AttachThenCancel | telegram-frontend/src/features/chats/MessageInput.jsx:129-150 | Attaching enables sending, and cancelling disables it again unless text is present. |
| MessageInputForm.SubmissionPassesSendGuard | telegram-frontend/src/features/chats/MessageInput.jsx:124 | Whatever the form submits passes the chat window's own send guard. |

## Left out

- Transport, reconnection and concurrency are not modelled. Each socket event and request is one atomic step. Two concurrent private messages between a new pair can still create two chats. The find-or-create guarantees above hold for events handled one after another.
- MongoDB and Mongoose are reduced to sequences of documents. ObjectId casting, `populate`, query execution and index behaviour are not modelled, and only the schema checks named above are.
- `uploadFile` is not part of this model, and upload results are a parameter.
- `sendMessageSocket` is imported by name from `controllers/messageController.js` by `controllers/socketHandler.js`, `socket/handlers/privateMessageHandler.js` and `socket/handlers/groupMessageHandler.js`, but that file defines and exports only `sendMessage` and `getMessages`. `server.js` imports `controllers/socketHandler.js` statically (line 8), so as written the module graph does not link and the back end does not start at all: no REST route and no socket listener runs (not executed). The REST models (`ChatController`, `UserController`, `Errors`) and the socket models (`Dispatcher`, `Handlers`) describe the program with that import repaired, assuming the evidently intended store: the schema-checked append `MessageStore.Persist`, with a database failure as the `fault` field of the environment. Every statement that a message with invalid media gets a failed acknowledgement and is not stored rests on that assumed implementation.
- ChatController.AccessPrivateChat: the other user's id is always present. With `req.body.userId` missing, `chatController.js:81` would search and create with `participants: [undefined, me]`; how MongoDB's `$all` and the ObjectId cast treat `undefined` is not modelled.
- Handlers.PrivateMessage and Dispatcher.PrivateMessage: the receiver id is always a present string. The client's `ChatWindowHooks.ReceiverOf` yields `undefined` when no participant differs from me (`useChatWindow2.js:154`), and what the server does with such a payload is not modelled.
- SeenObserver.Run and SeenObserver.RunEmitsEachBubbleOnce: "at most once" holds within one observer instance. The effect (`useMessageSeenObserver.js:51`) disconnects and rebuilds the observer whenever the message list changes, and a bubble still in view and not yet marked seen locally can then be reported again.
- `Chat.lastMessage` and `updatedAt` are never bumped when a message is stored. The visible handlers do not bump them, and the service that might is not part of this model.
- `deliveredTo` is never written by any modelled handler, so it stays empty.
- Fresh ids and the clock are parameters (`Events.Env`), not generated.
- Log lines, stack traces (`Error.captureStackTrace`, `err.stack`) and the `catchAsync` wrapper are not modelled. The handler receives the thrown error's fields directly.
- When the client passes no acknowledgement callback, the modelled acknowledgement is simply not delivered; nothing else depends on it.
- The login guard, the auth controller and the user model are not modelled. The guard's effect appears only as `req.user` being set (`ChatController.AfterProtect`).
- `deleteMe`, `searchUsers` and the admin user CRUD routes in the user controller are not modelled. They are thin database calls, and the profile update is modelled up to the update document it builds.
- Client effects are left out:
  - Emitting `registerUser`, `joinChat`, `leaveChat` and `userOffline` on mount, unmount or `beforeunload`.
  - The 1.5-second typing timers.
  - Scrolling, time formatting, react-query invalidation, `URL.createObjectURL` previews and styling.
  - The `MessageInput2` component.
- Handlers.Typing and Handlers.StopTyping are stated only through `Handlers.RelayTyping`, of which they are one-line instances. `Handlers.Handle` and `Dispatcher.Handle` are the event tables themselves, and their properties are the invariant lemmas.
- ChatListView.Avatar: upper-cases ASCII letters only. JavaScript's full Unicode `toUpperCase` is not modelled.
- ChatStore.SortByRecency: chats with equal `updatedAt` may come out in any order the sort chooses, and MongoDB promises none either. The contract fixes only the ordering and the permutation.
- Js.ToStr: numbers are integers. NaN, infinities, fractions, objects and arrays as ids are not modelled.
- UserController.FilterObj: object keys keep insertion order. JavaScript's hoisting of integer-like keys is not modelled, as the allowed keys are not integers.
- SeenObserver.RunEmitsEachBubbleOnce: assumes each observer batch names each bubble at most once. `SeenObserver.RepeatedEntryEmitsTwice` shows what happens otherwise.
- SeenObserver.SplitJoin: assumes viewer ids are comma-free strings, as database ids are. Other values rendered into `data-seenby` are not recovered.
- ChatController.CreateGroupChatAsWritten: its own contract states only the failure when `req.userId` is missing. The full as-written behaviour is `ChatController.GroupCreationAlwaysFails`.
- ChatController.DeleteChat: the handler never responds, so the request hangs. Only "no change and no response" is stated.

## Findings

| source | as written | input that shows it | evidently intended | confidence | as-written member | corrected member |
|---|---|---|---|---|---|---|
| telegram-backend/controllers/chatController.js:96 | The group's admin is read from `req.userId`, which the login guard never sets (it sets `req.user`). So the admin is undefined, and the chat fails validation on its required participants. | Any logged-in user posting `{name: "g", participants: ["u2"]}` | The admin is `req.user._id`, and the creator joins the group. | not executed | ChatController.GroupCreationAlwaysFails | ChatController.CreatorJoinsOwnGroup |
| telegram-frontend/src/features/chats/ChatList.jsx:47 | The other participant is the first whose `_id` or whose `id` differs from mine (`\|\|`). When my user object has `id` and participants carry only `_id`, the first participant, myself, already differs. | A private chat `[me, other]`, with me as `{_id: "a", id: "a"}` and participants `{_id: "a"}` and `{_id: "b"}` | Skip any participant matching me by either id (`&&`, as in ChatList2.jsx:113), so the row is titled with the other person. | not executed | ChatListView.DisplayName1ShowsSelf | ChatListView.DisplayName2NeverSelf |
| telegram-frontend/src/features/chats/ChatWindow2.jsx:5 | The window imports the first hook, which returns no `typingUsers` or `onlineUsers`. So `onlineUsers.includes` throws for a group with another member, and no typing line ever appears. | A group chat whose participants include anyone other than the viewer | Import the second hook (`useChatWindow2`), which returns both lists. | not executed | ChatWindowView.HeaderAsWiredThrowsOnGroups | ChatWindowView.HeaderWithSecondHook |

=== FILE: chat_controller.dfy ===
/**
 * The REST chat controller (`controllers/chatController.js`), behind the
 * `protect` middleware of `controllers/authController.js`.
 */
module ChatController {
  import opened Wrappers
  import opened Models
  import opened Errors
  import opened ChatStore

  /**
   * The request fields the controller reads. `protect` sets `req.user` to
   * the logged-in user; nothing sets `req.userId`.
   */
  datatype Request = Request(user: Option<UserId>, userId: Option<UserId>)

  /** The request as `protect` hands it on for user `me`. */
  function AfterProtect(me: UserId): Request {
    Request(Some(me), None)
  }

  /** `{ status: "success", quantity, data }`. */
  datatype ChatList = ChatList(quantity: nat, data: seq<Chat>)

  /**
   * `getUserChats`: 401 without a user id; otherwise every chat listing the
   * user, most recently updated first. `Chat.find` always yields an array,
   * so the 404 branch for a missing result cannot be taken.
   */
  function GetUserChats(chats: seq<Chat>, userId: Option<UserId>): (r: Result<ChatList, AppError>)
    ensures r.Err? <==> userId.None?
    ensures r.Err? ==> r.error.statusCode == 401 && r.error.status == "fail"
    ensures r.Ok? ==>
      && r.value.quantity == |r.value.data|
      && NewestFirst(r.value.data)
      && (forall c :: c in r.value.data <==> c in chats && userId.value in c.participants)
      && multiset(r.value.data) == multiset(ChatsWith(chats, userId.value))
  {
    match userId
    case None =>
      ClientErrorsFail("You are not logged in. Please login to get access.", 401);
      Err(NewAppError("You are not logged in. Please login to get access.", 401))
    case Some(u) =>
      var data := UserChats(chats, u);
      Ok(ChatList(|data|, data))
  }

  /** The 404 "No chats found" error is never produced, even for a user with no chats. */
  lemma GetUserChatsNeverNotFound(chats: seq<Chat>, userId: Option<UserId>)
    ensures var r := GetUserChats(chats, userId); r.Err? ==> r.error.statusCode != 404
  {
  }

  /** What `accessPrivateChat` returns: every existing pair chat, or the one it created. */
  datatype Access = Found(matches: seq<Chat>) | Created(chat: Chat)

  /**
   * `accessPrivateChat`: `Chat.find` the pair query; when nothing matches,
   * create `{ type: "private", participants: [userId, me] }`.
   */
  function AccessPrivateChat(chats: seq<Chat>, other: UserId, me: UserId, id: ChatId, now: nat): (r: (seq<Chat>, Access))
    ensures r.1.Found? <==> FindPrivate(chats, other, me).Some?
    ensures r.1.Found? ==>
      && r.0 == chats
      && |r.1.matches| > 0
      && forall c :: c in r.1.matches <==> c in chats && IsPairChat(c, other, me)
    ensures r.1.Created? ==>
      && r.0 == chats + [r.1.chat]
      && r.1.chat.id == id && r.1.chat.kind == Private
      && r.1.chat.participants == [other, me]
      && r.1.chat.createdAt == now
  {
    var found := FindAllPrivate(chats, other, me);
    if |found| == 0 then
      var c := NewPrivateChat(other, me, id, now);
      NewPrivateChatIsSchemaValid(other, me, id, now);
      (chats + [c], Created(c))
    else (chats, Found(found))
  }

  /** Appending a chat extends the pair query's result by that chat when it matches. */
  lemma {:induction false} FindAllPrivateAppend(chats: seq<Chat>, c: Chat, a: UserId, b: UserId)
    ensures FindAllPrivate(chats + [c], a, b) == FindAllPrivate(chats, a, b) + (if IsPairChat(c, a, b) then [c] else [])
    decreases |chats|
  {
    if |chats| > 0 {
      assert (chats + [c])[1..] == chats[1..] + [c];
      FindAllPrivateAppend(chats[1..], c, a, b);
    } else {
      assert [c][1..] == [];
    }
  }

  /** Accessing again, from either side, finds exactly the chat the first access created. */
  lemma AccessAgainFindsCreated(chats: seq<Chat>, a: UserId, b: UserId, id1: ChatId, id2: ChatId, t1: nat, t2: nat)
    requires AccessPrivateChat(chats, a, b, id1, t1).1.Created?
    ensures var (chats1, first) := AccessPrivateChat(chats, a, b, id1, t1);
      && AccessPrivateChat(chats1, a, b, id2, t2) == (chats1, Found([first.chat]))
      && AccessPrivateChat(chats1, b, a, id2, t2) == (chats1, Found([first.chat]))
  {
    var (chats1, first) := AccessPrivateChat(chats, a, b, id1, t1);
    FindAllPrivateAppend(chats, first.chat, a, b);
    FindAllPrivateAppend(chats, first.chat, b, a);
    FindPrivateSymmetric(chats, a, b);
    assert FindAllPrivate(chats, a, b) == [];
    assert FindAllPrivate(chats, b, a) == [];
    assert first.chat.participants == [a, b];
    assert IsPairChat(first.chat, a, b) && IsPairChat(first.chat, b, a);
    assert FindAllPrivate(chats1, a, b) == [first.chat];
  }

  /**
   * Accessing a chat with oneself matches every two-party private chat the
   * user is in, since `$all: [me, me]` only asks for `me`.
   */
  lemma SelfAccessMatchesEveryPrivateChat(chats: seq<Chat>, me: UserId, id: ChatId, now: nat)
    requires exists c :: c in chats && TwoPartyPrivate(c) && me in c.participants
    ensures var r := AccessPrivateChat(chats, me, me, id, now);
      && r.1.Found?
      && forall c :: c in r.1.matches <==> c in chats && TwoPartyPrivate(c) && me in c.participants
  {
    var c :| c in chats && TwoPartyPrivate(c) && me in c.participants;
    assert IsPairChat(c, me, me);
    assert c in FindAllPrivate(chats, me, me);
  }

  /** The body of `POST /api/chats`; `participants` may be missing. */
  datatype GroupRequest = GroupRequest(name: Option<string>, participants: Option<seq<UserId>>)

  /** Why group creation fails: spreading a missing list, or the schema rejecting the document. */
  datatype GroupFailure = SpreadOfUndefined | Rejected(error: SchemaError)

  function Present(ids: seq<UserId>): (r: seq<Option<UserId>>)
    ensures |r| == |ids| && forall i :: 0 <= i < |ids| ==> r[i] == Some(ids[i])
  {
    seq(|ids|, i requires 0 <= i < |ids| => Some(ids[i]))
  }

  /** The group document for creator `admin`: `participants: [...participants, admin]`. */
  function CreateGroup(chats: seq<Chat>, admin: Option<UserId>, body: GroupRequest, id: ChatId, now: nat): (r: (seq<Chat>, Result<Chat, GroupFailure>))
    ensures body.participants.None? ==> r == (chats, Err(SpreadOfUndefined))
    ensures r.1.Err? ==> r.0 == chats
    ensures r.1.Ok? <==> body.participants.Some? && admin.Some?
    ensures r.1.Ok? ==>
      && r.0 == chats + [r.1.value]
      && r.1.value.kind == Group && r.1.value.id == id
      && r.1.value.participants == body.participants.value + [admin.value]
      && r.1.value.admin == admin && r.1.value.name == body.name
  {
    match body.participants
    case None => (chats, Err(SpreadOfUndefined))
    case Some(ps) =>
      match CreateChatDoc(ChatInput(Some("group"), Present(ps) + [admin], body.name, admin), id, now)
      case Err(e) => (chats, Err(Rejected(e)))
      case Ok(c) =>
        assert admin.Some? by {
          assert (Present(ps) + [admin])[|ps|] == admin;
        }
        assert c.participants == ps + [admin.value];
        (chats + [c], Ok(c))
  }

  /** `createGroupChat` as written: the creator is read from `req.userId`. */
  function CreateGroupChatAsWritten(chats: seq<Chat>, req: Request, body: GroupRequest, id: ChatId, now: nat): (r: (seq<Chat>, Result<Chat, GroupFailure>))
    ensures req.userId.None? ==> r.1.Err? && r.0 == chats
  {
    CreateGroup(chats, req.userId, body, id, now)
  }

  /** Behind `protect`, the as-written handler can never create a group. */
  lemma GroupCreationAlwaysFails(chats: seq<Chat>, me: UserId, body: GroupRequest, id: ChatId, now: nat)
    ensures var r := CreateGroupChatAsWritten(chats, AfterProtect(me), body, id, now);
      r.0 == chats && (body.participants.Some? ==> r.1 == Err(Rejected(Required("participants"))))
  {
  }

  /** `createGroupChat` reading the creator from `req.user._id`. */
  function CreateGroupChat(chats: seq<Chat>, req: Request, body: GroupRequest, id: ChatId, now: nat): (r: (seq<Chat>, Result<Chat, GroupFailure>))
    ensures req.user.Some? && body.participants.Some? ==>
      && r.1.Ok?
      && r.0 == chats + [r.1.value]
      && r.1.value.kind == Group
      && r.1.value.admin == req.user
      && req.user.value in r.1.value.participants
      && forall u :: u in body.participants.value ==> u in r.1.value.participants
  {
    CreateGroup(chats, req.user, body, id, now)
  }

  /** Behind `protect`, the corrected handler makes the creator a member and the admin. */
  lemma CreatorJoinsOwnGroup(chats: seq<Chat>, me: UserId, body: GroupRequest, id: ChatId, now: nat)
    requires body.participants.Some?
    ensures var r := CreateGroupChat(chats, AfterProtect(me), body, id, now);
      r.1.Ok? && r.1.value.admin == Some(me) && me in r.1.value.participants
      && |r.1.value.participants| == |body.participants.value| + 1
  {
  }

  /** `deleteChat` only logs: the store is unchanged and no response is sent. */
  function DeleteChat(chats: seq<Chat>, id: ChatId): (r: (seq<Chat>, Option<ChatList>))
    ensures r.0 == chats && r.1.None?
  {
    (chats, None)
  }
}

=== FILE: chat_list.dfy ===
/**
 * The chat list sidebar: `ChatList2.jsx` (presence, typing previews, the
 * corrected display-name rule) and the earlier `ChatList.jsx`.
 */
module ChatListView {
  import opened Wrappers
  import opened Js
  import opened ClientTypes
  import ChatWindowHooks

  /** `[...localChats, ...chats]`: local chats first, then the server's, none dropped. */
  function AllChats(local: seq<ClientChat>, server: seq<ClientChat>): (r: seq<ClientChat>)
    ensures |r| == |local| + |server|
    ensures r[..|local|] == local && r[|local|..] == server
    ensures forall c :: c in r <==> c in local || c in server
  {
    local + server
  }

  // ---------------------------------------------------------------- presence

  /**
   * `handleOnlineUpdate`: `bulk` replaces (with `[]` when there are no
   * users), `remove` filters, a bare array replaces, an object with users
   * replaces, and anything else leaves the list alone.
   */
  function OnOnline(prev: seq<Val>, payload: ChatWindowHooks.OnlinePayload): (r: seq<Val>)
    ensures payload.NoPayload? ==> r == prev
    ensures payload.Arr? ==> r == payload.ids
    ensures payload.Obj? && payload.kind == Str("bulk") ==> r == payload.users.GetOr([])
    ensures payload.Obj? && payload.kind == Str("remove") ==>
      forall x :: x in r <==> x in prev && x != payload.userId
    ensures payload.Obj? && payload.kind != Str("bulk") && payload.kind != Str("remove") ==>
      r == payload.users.GetOr(prev)
  {
    match payload
    case NoPayload => prev
    case Arr(ids) => ids
    case Obj(kind, users, userId) =>
      if kind == Str("bulk") then users.GetOr([])
      else if kind == Str("remove") then ChatWindowHooks.Without(prev, userId)
      else users.GetOr(prev)
  }

  /**
   * The list keeps the same ids as the chat-window hook's online state on
   * every payload except an object without `users` or `type`, where the hook
   * stores the object itself and the list keeps its ids.
   */
  lemma OnlineAgreesWithHook(prev: seq<Val>, payload: ChatWindowHooks.OnlinePayload)
    ensures payload.Obj? && payload.kind != Str("bulk") && payload.kind != Str("remove") && payload.users.None?
      ==> ChatWindowHooks.OnOnline(ChatWindowHooks.Ids(prev), payload) == ChatWindowHooks.NotAList
          && OnOnline(prev, payload) == prev
    ensures !(payload.Obj? && payload.kind != Str("bulk") && payload.kind != Str("remove") && payload.users.None?)
      ==> ChatWindowHooks.OnOnline(ChatWindowHooks.Ids(prev), payload) == ChatWindowHooks.Ids(OnOnline(prev, payload))
  {
  }

  // ---------------------------------------------------------------- typing

  /** `typingByChat`: per `String(chatId)`, the typing `String(userId)`s in insertion order. */
  type TypingByChat = map<string, seq<string>>

  /** No chat keeps an empty set, and no set repeats an id. */
  ghost predicate WellFormed(m: TypingByChat) {
    forall k :: k in m ==> |m[k]| > 0 && Distinct(m[k])
  }

  /** `handleUserTyping`: add `String(userId)` to the chat's set; falsy ids are ignored. */
  function TypingAdd(m: TypingByChat, chatId: Val, userId: Val): (r: TypingByChat)
    ensures !Truthy(chatId) || !Truthy(userId) ==> r == m
    ensures Truthy(chatId) && Truthy(userId) ==>
      && ToStr(chatId) in r && ToStr(userId) in r[ToStr(chatId)]
      && (ToStr(chatId) in m ==> |m[ToStr(chatId)]| <= |r[ToStr(chatId)]| && r[ToStr(chatId)][..|m[ToStr(chatId)]|] == m[ToStr(chatId)])
      && (forall u :: u in r[ToStr(chatId)] ==> u == ToStr(userId) || (ToStr(chatId) in m && u in m[ToStr(chatId)]))
      && r - {ToStr(chatId)} == m - {ToStr(chatId)}
  {
    if !Truthy(chatId) || !Truthy(userId) then m
    else
      var key := ToStr(chatId);
      var cur := if key in m then m[key] else [];
      var u := ToStr(userId);
      m[key := if u in cur then cur else cur + [u]]
  }

  /** `handleUserStoppedTyping`: remove the id, and the chat's entry once its set is empty. */
  function TypingStop(m: TypingByChat, chatId: Val, userId: Val): (r: TypingByChat)
    ensures !Truthy(chatId) || !Truthy(userId) ==> r == m
    ensures Truthy(chatId) && Truthy(userId) ==>
      && (ToStr(chatId) in r ==>
            && ToStr(userId) !in r[ToStr(chatId)]
            && forall u :: u in r[ToStr(chatId)] <==> ToStr(chatId) in m && u in m[ToStr(chatId)] && u != ToStr(userId))
      && r - {ToStr(chatId)} == m - {ToStr(chatId)}
    ensures Truthy(chatId) && Truthy(userId) ==>
      (ToStr(chatId) in r <==> ToStr(chatId) in m && exists u :: u in m[ToStr(chatId)] && u != ToStr(userId))
  {
    if !Truthy(chatId) || !Truthy(userId) then m
    else
      var key := ToStr(chatId);
      var cur := if key in m then m[key] else [];
      var rest := ChatWindowHooks.Without(cur, ToStr(userId));
      assert |rest| > 0 ==> rest[0] in rest;
      if |rest| == 0 then m - {key} else m[key := rest]
  }

  /** Adding a typist keeps the map well formed. */
  lemma TypingAddKeepsWellFormed(m: TypingByChat, chatId: Val, userId: Val)
    requires WellFormed(m)
    ensures WellFormed(TypingAdd(m, chatId, userId))
  {
    if Truthy(chatId) && Truthy(userId) {
      var key := ToStr(chatId);
      var cur := if key in m then m[key] else [];
      var u := ToStr(userId);
      var next := if u in cur then cur else cur + [u];
      if u !in cur {
        DistinctSnoc(cur, u);
      }
      var r := m[key := next];
      assert TypingAdd(m, chatId, userId) == r;
      forall k | k in r ensures |r[k]| > 0 && Distinct(r[k]) {
        if k != key { assert r[k] == m[k]; }
      }
    }
  }

  /** Removing a typist keeps the map well formed: an emptied chat loses its entry. */
  lemma TypingStopKeepsWellFormed(m: TypingByChat, chatId: Val, userId: Val)
    requires WellFormed(m)
    ensures WellFormed(TypingStop(m, chatId, userId))
  {
    if Truthy(chatId) && Truthy(userId) {
      var key := ToStr(chatId);
      var cur := if key in m then m[key] else [];
      assert Distinct(cur);
      var rest := ChatWindowHooks.Without(cur, ToStr(userId));
      var r := if |rest| == 0 then m - {key} else m[key := rest];
      assert TypingStop(m, chatId, userId) == r;
      forall k | k in r ensures |r[k]| > 0 && Distinct(r[k]) {
        if k != key { assert r[k] == m[k]; }
      }
    }
  }

  /** A start and stop of typing in a chat where nobody was typing leaves no trace. */
  lemma TypingStartThenStop(m: TypingByChat, chatId: Val, userId: Val)
    requires ToStr(chatId) !in m
    ensures TypingStop(TypingAdd(m, chatId, userId), chatId, userId) == m
  {
    if Truthy(chatId) && Truthy(userId) {
      var key := ToStr(chatId);
      var added := m[key := [ToStr(userId)]];
      TypingAddToFreshChat(m, chatId, userId);
      TypingStopLastTypist(added, chatId, userId);
      assert added - {key} == m;
    }
  }

  lemma TypingAddToFreshChat(m: TypingByChat, chatId: Val, userId: Val)
    requires ToStr(chatId) !in m && Truthy(chatId) && Truthy(userId)
    ensures TypingAdd(m, chatId, userId) == m[ToStr(chatId) := [ToStr(userId)]]
  {
    var empty: seq<string> := [];
    assert empty + [ToStr(userId)] == [ToStr(userId)];
  }

  lemma TypingStopLastTypist(m: TypingByChat, chatId: Val, userId: Val)
    requires ToStr(chatId) in m && m[ToStr(chatId)] == [ToStr(userId)] && Truthy(chatId) && Truthy(userId)
    ensures TypingStop(m, chatId, userId) == m - {ToStr(chatId)}
  {
    assert ChatWindowHooks.Without([ToStr(userId)], ToStr(userId)) == [];
  }

  /**
   * The typing line for one chat: shown when its set is non-empty and its
   * first id is not the current user's (`String(user?._id)`), naming that
   * participant (or "Someone"), or "typing..." when the chat has no
   * participants.
   */
  function TypingPreview(chat: ClientChat, m: TypingByChat, user: Option<User>): (r: Option<string>)
    ensures r.Some? <==>
      ToStr(chat.id) in m && |m[ToStr(chat.id)]| > 0
      && m[ToStr(chat.id)][0] != ToStr(if user.Some? then user.value.id else Undefined)
    ensures r.Some? && chat.participants.None? ==> r.value == "typing..." + IsTyping
    ensures r.Some? && chat.participants.Some? ==>
      var ps := chat.participants.value;
      var first := m[ToStr(chat.id)][0];
      (forall p :: p in ps ==> ToStr(p.id) != first) ==> r.value == "Someone" + IsTyping
    ensures r.Some? && chat.participants.Some? ==>
      var ps := chat.participants.value;
      var first := m[ToStr(chat.id)][0];
      forall i :: 0 <= i < |ps| && ToStr(ps[i].id) == first && (forall j :: 0 <= j < i ==> ToStr(ps[j].id) != first) ==>
        r.value == NameOr(ps[i], "Someone") + IsTyping
  {
    var key := ToStr(chat.id);
    if key !in m || |m[key]| == 0 then None
    else
      var first := m[key][0];
      var name := TypistName(chat.participants, first);
      if first == ToStr(if user.Some? then user.value.id else Undefined) then None
      else Some((if name != "" then name else "typing...") + IsTyping)
  }

  /** The suffix of the list's typing line, ending in an ellipsis character. */
  const IsTyping := " is typing\U{2026}"

  /** The name of the participant whose `String(id)` is `id`; "Someone" when none is; empty without participants. */
  function TypistName(participants: Option<seq<Participant>>, id: string): (r: string)
    ensures participants.None? <==> r == ""
    ensures participants.Some? && (forall p :: p in participants.value ==> ToStr(p.id) != id) ==> r == "Someone"
    ensures participants.Some? ==>
      var ps := participants.value;
      forall i :: 0 <= i < |ps| && ToStr(ps[i].id) == id && (forall j :: 0 <= j < i ==> ToStr(ps[j].id) != id) ==>
        r == NameOr(ps[i], "Someone")
  {
    match participants
    case None => ""
    case Some(ps) =>
      match FindParticipant(ps, (p: Participant) => ToStr(p.id) == id)
      case None => "Someone"
      case Some(i) => NameOr(ps[i], "Someone")
  }

  /** My own typing signal never produces a preview in a chat where nobody else was typing. */
  lemma OwnTypingNotPreviewed(chat: ClientChat, m: TypingByChat, me: User)
    requires ToStr(chat.id) !in m && Truthy(me.id)
    ensures TypingPreview(chat, TypingAdd(m, chat.id, me.id), Some(me)).None?
  {
  }

  /** Another user's typing signal is previewed, under that participant's name. */
  lemma OtherTypingPreviewed(chat: ClientChat, m: TypingByChat, me: User, other: Participant)
    requires ToStr(chat.id) !in m && Truthy(chat.id) && Truthy(other.id)
    requires ToStr(other.id) != ToStr(me.id)
    requires chat.participants == Some([other])
    ensures TypingPreview(chat, TypingAdd(m, chat.id, other.id), Some(me)) == Some(NameOr(other, "Someone") + IsTyping)
  {
  }

  // ---------------------------------------------------------------- last message

  /** What the sidebar row shows under the chat name. */
  datatype PreviewView = TypingLine(line: string) | PhotoIcon | VideoIcon | FileIcon | PlainText(text: string)

  const NoMessages := "No messages yet"
  const PhotoLabel := "\U{1F4F7} Photo"
  const VideoLabel := "\U{1F3A5} Video"
  const FileLabel := "\U{1F4CE} File"

  /** The label for a media item's type. */
  function MediaLabel(kind: string): (r: string)
    ensures StartsWith(kind, "image") ==> r == PhotoLabel
    ensures !StartsWith(kind, "image") && StartsWith(kind, "video") ==> r == VideoLabel
    ensures !StartsWith(kind, "image") && !StartsWith(kind, "video") ==> r == FileLabel
  {
    if StartsWith(kind, "image") then PhotoLabel
    else if StartsWith(kind, "video") then VideoLabel
    else FileLabel
  }

  predicate HasMedia(lm: LastMessage) {
    lm.media.Some? && |lm.media.value| > 0
  }

  /** The second list's preview text: a missing media type counts as "". */
  function Preview2(last: Option<LastMessage>): (r: string)
    ensures last.None? ==> r == NoMessages
    ensures last.Some? && HasMedia(last.value) ==> r in {PhotoLabel, VideoLabel, FileLabel}
    ensures last.Some? && HasMedia(last.value) && last.value.media.value[0].kind.None? ==> r == FileLabel
    ensures last.Some? && HasMedia(last.value) ==> r == MediaLabel(last.value.media.value[0].kind.GetOr(""))
    ensures last.Some? && !HasMedia(last.value) ==>
      r == if last.value.text.Some? && last.value.text.value != "" then last.value.text.value else NoMessages
  {
    match last
    case None => NoMessages
    case Some(lm) =>
      if HasMedia(lm) then MediaLabel(lm.media.value[0].kind.GetOr(""))
      else if lm.text.Some? && lm.text.value != "" then lm.text.value
      else NoMessages
  }

  /** The first list's preview text: `None` where `media[0].type.startsWith` throws on a missing type. */
  function Preview1(last: Option<LastMessage>): (r: Option<string>)
    ensures r.None? <==> last.Some? && HasMedia(last.value) && last.value.media.value[0].kind.None?
  {
    match last
    case None => Some(NoMessages)
    case Some(lm) =>
      if HasMedia(lm) then
        match lm.media.value[0].kind
        case None => None
        case Some(k) => Some(MediaLabel(k))
      else Some(if lm.text.Some? && lm.text.value != "" then lm.text.value else NoMessages)
  }

  /** Wherever the first list renders, the second renders the same text. */
  lemma PreviewsAgree(last: Option<LastMessage>)
    ensures Preview1(last).Some? ==> Preview1(last).value == Preview2(last)
  {
  }

  /** The icon chosen from the preview text's leading emoji; the typing line takes precedence. */
  function RenderPreview(typing: Option<string>, lastMsg: string): (r: PreviewView)
    ensures typing.Some? ==> r == TypingLine(typing.value)
    ensures typing.None? && r.PlainText? ==> r.text == lastMsg
    ensures typing.None? && !r.PlainText? ==> StartsWith(lastMsg, [PhotoLabel[0]]) || StartsWith(lastMsg, [VideoLabel[0]]) || StartsWith(lastMsg, [FileLabel[0]])
  {
    if typing.Some? then TypingLine(typing.value)
    else if StartsWith(lastMsg, [PhotoLabel[0]]) then PhotoIcon
    else if StartsWith(lastMsg, [VideoLabel[0]]) then VideoIcon
    else if StartsWith(lastMsg, [FileLabel[0]]) then FileIcon
    else PlainText(lastMsg)
  }

  /** A media last message renders as the icon of its type. */
  lemma MediaRendersIcon(kind: string, text: Option<string>, item: MediaItem)
    requires item.kind == Some(kind)
    ensures var v := RenderPreview(None, Preview2(Some(LastMessage(text, Some([item])))));
      && (StartsWith(kind, "image") ==> v == PhotoIcon)
      && (!StartsWith(kind, "image") && StartsWith(kind, "video") ==> v == VideoIcon)
      && (!StartsWith(kind, "image") && !StartsWith(kind, "video") ==> v == FileIcon)
  {
    var lbl := Preview2(Some(LastMessage(text, Some([item]))));
    assert lbl == MediaLabel(kind);
    assert StartsWith(PhotoLabel, [PhotoLabel[0]]);
    assert StartsWith(VideoLabel, [VideoLabel[0]]);
    assert StartsWith(FileLabel, [FileLabel[0]]);
    assert PhotoLabel[0] != VideoLabel[0] && PhotoLabel[0] != FileLabel[0] && VideoLabel[0] != FileLabel[0];
  }

  /** A text message that itself begins with the camera emoji is shown as a photo. */
  lemma CameraTextLooksLikePhoto()
    ensures RenderPreview(None, Preview2(Some(LastMessage(Some("\U{1F4F7} at the beach"), None)))) == PhotoIcon
  {
    assert StartsWith("\U{1F4F7} at the beach", [PhotoLabel[0]]);
  }

  // ---------------------------------------------------------------- online dot

  /** Some participant's `String(_id)` is in the online list. */
  predicate AnyOnline(ps: seq<Participant>, online: seq<Val>) {
    exists p :: p in ps && Str(ToStr(p.id)) in online
  }

  /**
   * The online dot: in a private chat (with participants and a user) it
   * follows the first participant whose id string differs from mine; in
   * every other case it shows when any participant is online.
   */
  function OnlineDot(chat: ClientChat, online: seq<Val>, user: Option<User>): (r: bool)
    ensures chat.kind == Str("private") && chat.participants.Some? && user.Some? ==>
      (r <==> exists i :: 0 <= i < |chat.participants.value|
                && ToStr(chat.participants.value[i].id) != ToStr(user.value.id)
                && (forall j :: 0 <= j < i ==> ToStr(chat.participants.value[j].id) == ToStr(user.value.id))
                && Str(ToStr(chat.participants.value[i].id)) in online)
    ensures !(chat.kind == Str("private") && chat.participants.Some? && user.Some?) ==>
      (r <==> chat.participants.Some? && AnyOnline(chat.participants.value, online))
  {
    if chat.kind == Str("private") && chat.participants.Some? && user.Some? then
      var ps := chat.participants.value;
      match FindParticipant(ps, (p: Participant) => ToStr(p.id) != ToStr(user.value.id))
      case None => false
      case Some(i) => Str(ToStr(ps[i].id)) in online
    else
      chat.participants.Some? && AnyOnline(chat.participants.value, online)
  }

  /** In a group the dot counts the current user too: being online alone lights it. */
  lemma GroupDotCountsSelf(chat: ClientChat, me: User, others: seq<Participant>)
    requires chat.kind == Str("group")
    requires chat.participants == Some([Participant(me.id, Undefined, "", "")] + others)
    ensures OnlineDot(chat, [Str(ToStr(me.id))], Some(me))
  {
    assert Participant(me.id, Undefined, "", "") in chat.participants.value;
  }

  /** In a private chat only the other participant lights the dot. */
  lemma PrivateDotIgnoresSelf(chat: ClientChat, me: User, other: Participant)
    requires chat.kind == Str("private")
    requires chat.participants == Some([Participant(me.id, Undefined, "", ""), other])
    requires ToStr(other.id) != ToStr(me.id)
    ensures OnlineDot(chat, [Str(ToStr(me.id))], Some(me)) <==> ToStr(other.id) == ToStr(me.id)
    ensures OnlineDot(chat, [Str(ToStr(other.id))], Some(me))
  {
    var ps := chat.participants.value;
    assert ps[1] == other;
  }

  // ---------------------------------------------------------------- names and badges

  /** The title of a row before the private-chat partner is looked up. */
  function BaseName(chat: ClientChat): string {
    ChatTitle(chat, "Unknown")
  }

  predicate IsPrivateWithUser(chat: ClientChat, user: Option<User>) {
    chat.kind == Str("private") && chat.participants.Some? && user.Some?
  }

  /** The first list's partner test `p._id !== user._id || p.id !== user.id`. */
  function OtherParticipant1(ps: seq<Participant>, me: User): (r: Option<nat>)
    ensures r.Some? ==> r.value < |ps| && (ps[r.value].id != me.id || ps[r.value].altId != me.altId)
    ensures r.None? ==> forall p :: p in ps ==> p.id == me.id && p.altId == me.altId
  {
    FindParticipant(ps, (p: Participant) => p.id != me.id || p.altId != me.altId)
  }

  /** The first list's name: the partner's `fullName`, else "Unknown". */
  function DisplayName1(chat: ClientChat, user: Option<User>): (r: string)
    ensures r != ""
    ensures !IsPrivateWithUser(chat, user) ==> r == BaseName(chat)
    ensures IsPrivateWithUser(chat, user) ==>
      var ps := chat.participants.value;
      (forall p :: p in ps ==> p.id == user.value.id && p.altId == user.value.altId) ==> r == "Unknown"
    ensures IsPrivateWithUser(chat, user) ==>
      var ps := chat.participants.value;
      forall i ::
        (0 <= i < |ps| && (ps[i].id != user.value.id || ps[i].altId != user.value.altId)
         && forall j :: 0 <= j < i ==> ps[j].id == user.value.id && ps[j].altId == user.value.altId) ==>
        r == if ps[i].fullName != "" then ps[i].fullName else "Unknown"
  {
    if IsPrivateWithUser(chat, user) then
      match OtherParticipant1(chat.participants.value, user.value)
      case None => "Unknown"
      case Some(i) =>
        var p := chat.participants.value[i];
        if p.fullName != "" then p.fullName else "Unknown"
    else BaseName(chat)
  }

  /**
   * When the user object carries an `id` and participants do not, the `||`
   * test accepts the current user, and the row is titled with my own name.
   */
  lemma DisplayName1ShowsSelf()
    ensures
      var me := User(Str("a"), Str("a"));
      var chat := ClientChat(Str("c"), Str("private"), "", Some([Participant(Str("a"), Undefined, "Me", ""), Participant(Str("b"), Undefined, "Bob", "")]), None, None, Undefined);
      DisplayName1(chat, Some(me)) == "Me"
  {
  }

  /** The second list's partner test: `String(p._id) !== String(user._id) && p._id !== user.id`. */
  function OtherParticipant2(ps: seq<Participant>, me: User): (r: Option<nat>)
    ensures r.Some? ==> r.value < |ps| && ToStr(ps[r.value].id) != ToStr(me.id) && ps[r.value].id != me.altId
    ensures r.Some? ==> forall j :: 0 <= j < r.value ==> ToStr(ps[j].id) == ToStr(me.id) || ps[j].id == me.altId
    ensures r.None? ==> forall p :: p in ps ==> ToStr(p.id) == ToStr(me.id) || p.id == me.altId
  {
    FindParticipant(ps, (p: Participant) => ToStr(p.id) != ToStr(me.id) && p.id != me.altId)
  }

  /** The second list's name: the partner's `fullName || name`, else the chat's own name. */
  function DisplayName2(chat: ClientChat, user: Option<User>): (r: string)
    ensures r != ""
    ensures !IsPrivateWithUser(chat, user) ==> r == BaseName(chat)
    ensures IsPrivateWithUser(chat, user) ==>
      var o := OtherParticipant2(chat.participants.value, user.value);
      r == if o.Some? then NameOr(chat.participants.value[o.value], BaseName(chat)) else BaseName(chat)
  {
    if IsPrivateWithUser(chat, user) then
      match OtherParticipant2(chat.participants.value, user.value)
      case None => BaseName(chat)
      case Some(i) => NameOr(chat.participants.value[i], BaseName(chat))
    else BaseName(chat)
  }

  /** With the corrected test a private row never takes its title from a participant carrying my id. */
  lemma DisplayName2NeverSelf(chat: ClientChat, me: User, mine: Participant, other: Participant)
    requires chat.kind == Str("private") && chat.name == ""
    requires chat.participants == Some([mine, other])
    requires mine.id == me.id && other.id != me.altId && ToStr(other.id) != ToStr(me.id)
    requires other.fullName != ""
    ensures DisplayName2(chat, Some(me)) == other.fullName
  {
  }

  /** `s.charAt(0).toUpperCase()` for ASCII letters. */
  function Avatar(name: string): (r: string)
    ensures name == "" <==> r == ""
    ensures name != "" ==> |r| == 1 && (name[0] in "abcdefghijklmnopqrstuvwxyz" ==> r[0] as int == name[0] as int - 32)
    ensures name != "" && name[0] !in "abcdefghijklmnopqrstuvwxyz" ==> r == [name[0]]
  {
    if name == "" then ""
    else if 'a' <= name[0] <= 'z' then [(name[0] as int - 32) as char]
    else [name[0]]
  }

  /** `chat.unreadCount || 0`, shown as a badge when positive. */
  function UnreadBadge(chat: ClientChat): (r: Option<int>)
    ensures r.Some? <==> chat.unreadCount.Some? && chat.unreadCount.value > 0
    ensures r.Some? ==> r.value == chat.unreadCount.value
  {
    var n := chat.unreadCount.GetOr(0);
    if n > 0 then Some(n) else None
  }

  /** One rendered row of the second list. */
  datatype Row = Row(title: string, avatar: string, online: bool, preview: PreviewView, badge: Option<int>)

  /** A row of the second list, from the chat, presence, typing state and user. */
  function RenderRow(chat: ClientChat, online: seq<Val>, typing: TypingByChat, user: Option<User>): (r: Row)
    ensures r.title != "" && |r.avatar| == 1
    ensures r.title == DisplayName2(chat, user)
    ensures r.preview.TypingLine? <==> TypingPreview(chat, typing, user).Some?
    ensures r.online == OnlineDot(chat, online, user)
    ensures r.badge.Some? <==> chat.unreadCount.Some? && chat.unreadCount.value > 0
    ensures r.badge.Some? ==> r.badge.value == chat.unreadCount.value
    ensures TypingPreview(chat, typing, user).Some? ==> r.preview == TypingLine(TypingPreview(chat, typing, user).value)
    ensures r.preview.PlainText? ==> r.preview.text == Preview2(chat.lastMessage)
  {
    var title := DisplayName2(chat, user);
    Row(title, Avatar(title), OnlineDot(chat, online, user),
        RenderPreview(TypingPreview(chat, typing, user), Preview2(chat.lastMessage)),
        UnreadBadge(chat))
  }
}

=== FILE: chat_store.dfy ===
/**
 * The chat collection: the private-pair query
 * `{ type: "private", participants: { $all: [a, b], $size: 2 } }`,
 * find-or-create on it, lookup by id, and the per-user listing sorted by
 * most recent update.
 */
module ChatStore {
  import opened Wrappers
  import opened Models

  /** The private-pair query: a private chat with two entries containing both ids. */
  predicate IsPairChat(c: Chat, a: UserId, b: UserId) {
    c.kind == Private && |c.participants| == 2 && a in c.participants && b in c.participants
  }

  /** `Chat.findOne(pair query)`: the first match in store order. */
  function FindPrivate(chats: seq<Chat>, a: UserId, b: UserId): (r: Option<nat>)
    ensures r.Some? ==>
      && r.value < |chats| && IsPairChat(chats[r.value], a, b)
      && forall j :: 0 <= j < r.value ==> !IsPairChat(chats[j], a, b)
    ensures r.None? <==> forall j :: 0 <= j < |chats| ==> !IsPairChat(chats[j], a, b)
    decreases |chats|
  {
    if |chats| == 0 then None
    else if IsPairChat(chats[0], a, b) then Some(0)
    else match FindPrivate(chats[1..], a, b)
      case None => None
      case Some(i) => Some(i + 1)
  }

  /** The pair query does not depend on the order of the two ids. */
  lemma {:induction false} FindPrivateSymmetric(chats: seq<Chat>, a: UserId, b: UserId)
    ensures FindPrivate(chats, a, b) == FindPrivate(chats, b, a)
    decreases |chats|
  {
    if |chats| > 0 {
      FindPrivateSymmetric(chats[1..], a, b);
    }
  }

  /** `Chat.find(pair query)`: every match, in store order. */
  function FindAllPrivate(chats: seq<Chat>, a: UserId, b: UserId): (r: seq<Chat>)
    ensures forall c :: c in r <==> c in chats && IsPairChat(c, a, b)
    ensures |r| == 0 <==> FindPrivate(chats, a, b).None?
    ensures |r| <= |chats|
    decreases |chats|
  {
    if |chats| == 0 then []
    else if IsPairChat(chats[0], a, b) then [chats[0]] + FindAllPrivate(chats[1..], a, b)
    else FindAllPrivate(chats[1..], a, b)
  }

  /** `Chat.findById(id)`: the first chat with that id, whatever its type. */
  function FindById(chats: seq<Chat>, id: ChatId): (r: Option<nat>)
    ensures r.Some? ==> r.value < |chats| && chats[r.value].id == id
    ensures r.None? <==> forall j :: 0 <= j < |chats| ==> chats[j].id != id
    decreases |chats|
  {
    if |chats| == 0 then None
    else if chats[0].id == id then Some(0)
    else match FindById(chats[1..], id)
      case None => None
      case Some(i) => Some(i + 1)
  }

  predicate FreshChatId(chats: seq<Chat>, id: ChatId) {
    forall j :: 0 <= j < |chats| ==> chats[j].id != id
  }

  predicate UniqueIds(chats: seq<Chat>) {
    forall i, j :: 0 <= i < j < |chats| ==> chats[i].id != chats[j].id
  }

  /** The document `Chat.create({ type: "private", participants: [a, b] })` stores. */
  function NewPrivateChat(a: UserId, b: UserId, id: ChatId, now: nat): Chat {
    Chat(id, Private, [a, b], None, None, None, now, now)
  }

  /** That document always passes the chat schema. */
  lemma NewPrivateChatIsSchemaValid(a: UserId, b: UserId, id: ChatId, now: nat)
    ensures CreateChatDoc(ChatInput(Some("private"), [Some(a), Some(b)], None, None), id, now) == Ok(NewPrivateChat(a, b, id, now))
  {
    var r := CreateChatDoc(ChatInput(Some("private"), [Some(a), Some(b)], None, None), id, now);
    assert r.value.participants == [a, b];
  }

  /**
   * Find-or-create of a private chat, as both socket layers do it: reuse the
   * first pair match, otherwise append one new chat `[a, b]`.
   */
  function FindOrCreatePrivate(chats: seq<Chat>, a: UserId, b: UserId, id: ChatId, now: nat): (r: (seq<Chat>, Chat))
    ensures IsPairChat(r.1, a, b) && r.1 in r.0
    ensures FindPrivate(chats, a, b).Some? ==> r.0 == chats && r.1 == chats[FindPrivate(chats, a, b).value]
    ensures FindPrivate(chats, a, b).None? ==>
      && r.0 == chats + [r.1]
      && r.1.kind == Private && r.1.participants == [a, b] && r.1.id == id
  {
    match FindPrivate(chats, a, b)
    case Some(i) => (chats, chats[i])
    case None =>
      var c := NewPrivateChat(a, b, id, now);
      (chats + [c], c)
  }

  /**
   * Sequentially, a second send for the same pair, in either order, resolves
   * to the chat the first one resolved to and creates nothing.
   */
  lemma ResolveTwiceSameChat(chats: seq<Chat>, a: UserId, b: UserId, id1: ChatId, id2: ChatId, t1: nat, t2: nat)
    ensures var (chats1, c1) := FindOrCreatePrivate(chats, a, b, id1, t1);
      var (chats2, c2) := FindOrCreatePrivate(chats1, b, a, id2, t2);
      chats2 == chats1 && c2 == c1 && |chats1| <= |chats| + 1
  {
    var (chats1, c1) := FindOrCreatePrivate(chats, a, b, id1, t1);
    FindPrivateSymmetric(chats1, a, b);
    match FindPrivate(chats, a, b)
    case Some(i) =>
    case None =>
      assert chats1[|chats|] == c1;
      assert FindPrivate(chats1, a, b) == Some(|chats|);
  }

  /** A private chat with exactly two entries. */
  predicate TwoPartyPrivate(c: Chat) {
    c.kind == Private && |c.participants| == 2
  }

  ghost predicate SameMembers(p: seq<UserId>, q: seq<UserId>) {
    forall x :: x in p <==> x in q
  }

  /** No two two-party private chats have the same members. */
  ghost predicate PairsUnique(chats: seq<Chat>) {
    forall i, j :: 0 <= i < j < |chats| && TwoPartyPrivate(chats[i]) && TwoPartyPrivate(chats[j]) ==>
      !SameMembers(chats[i].participants, chats[j].participants)
  }

  /** Sequential find-or-create never duplicates a pair (nothing is claimed for concurrent calls). */
  lemma FindOrCreateKeepsPairsUnique(chats: seq<Chat>, a: UserId, b: UserId, id: ChatId, now: nat)
    requires PairsUnique(chats)
    ensures PairsUnique(FindOrCreatePrivate(chats, a, b, id, now).0)
  {
    var (r, c) := FindOrCreatePrivate(chats, a, b, id, now);
    if FindPrivate(chats, a, b).None? {
      forall i | 0 <= i < |chats| && TwoPartyPrivate(chats[i])
        ensures !SameMembers(chats[i].participants, c.participants)
      {
        assert a in c.participants && b in c.participants;
        assert !IsPairChat(chats[i], a, b);
      }
      assert forall i :: 0 <= i < |chats| ==> r[i] == chats[i];
    }
  }

  /** Chats sorted by `updatedAt`, most recent first. */
  predicate NewestFirst(cs: seq<Chat>) {
    forall i, j :: 0 <= i < j < |cs| ==> cs[i].updatedAt >= cs[j].updatedAt
  }

  function InsertByRecency(c: Chat, cs: seq<Chat>): (r: seq<Chat>)
    requires NewestFirst(cs)
    ensures NewestFirst(r)
    ensures multiset(r) == multiset(cs) + multiset{c}
    ensures |r| == |cs| + 1 && (r[0] == c || (|cs| > 0 && r[0] == cs[0]))
    decreases |cs|
  {
    if |cs| == 0 || c.updatedAt >= cs[0].updatedAt then
      NewestFirstCons(c, cs);
      [c] + cs
    else
      assert cs == [cs[0]] + cs[1..];
      NewestFirstTail(cs);
      var rest := InsertByRecency(c, cs[1..]);
      NewestFirstCons(cs[0], rest);
      [cs[0]] + rest
  }

  /** A newest-first list stays newest-first without its head. */
  lemma NewestFirstTail(cs: seq<Chat>)
    requires NewestFirst(cs) && |cs| > 0
    ensures NewestFirst(cs[1..])
  {
    forall i, j | 0 <= i < j < |cs[1..]| ensures cs[1..][i].updatedAt >= cs[1..][j].updatedAt {
      assert cs[1..][i] == cs[i + 1] && cs[1..][j] == cs[j + 1];
    }
  }

  /** A chat no older than the head of a newest-first list can go in front of it. */
  lemma NewestFirstCons(x: Chat, cs: seq<Chat>)
    requires NewestFirst(cs)
    requires |cs| == 0 || x.updatedAt >= cs[0].updatedAt
    ensures NewestFirst([x] + cs)
  {
    var r := [x] + cs;
    forall i, j | 0 <= i < j < |r| ensures r[i].updatedAt >= r[j].updatedAt {
      if i == 0 {
        if j > 1 { assert cs[0].updatedAt >= cs[j - 1].updatedAt; }
      } else {
        assert r[i] == cs[i - 1] && r[j] == cs[j - 1];
      }
    }
  }

  /** `.sort({ updatedAt: -1 })`; ties keep store order here, which Mongo does not promise. */
  function SortByRecency(cs: seq<Chat>): (r: seq<Chat>)
    ensures NewestFirst(r)
    ensures multiset(r) == multiset(cs)
    decreases |cs|
  {
    if |cs| == 0 then []
    else
      assert cs == [cs[0]] + cs[1..];
      InsertByRecency(cs[0], SortByRecency(cs[1..]))
  }

  /** `Chat.find({ participants: userId })`, in store order. */
  function ChatsWith(chats: seq<Chat>, userId: UserId): (r: seq<Chat>)
    ensures forall c :: c in r <==> c in chats && userId in c.participants
    ensures forall c :: multiset(r)[c] == (if userId in c.participants then multiset(chats)[c] else 0)
    decreases |chats|
  {
    if |chats| == 0 then []
    else
      assert chats == [chats[0]] + chats[1..];
      if userId in chats[0].participants then [chats[0]] + ChatsWith(chats[1..], userId)
      else ChatsWith(chats[1..], userId)
  }

  /** The chats of a user, newest first: exactly those listing the user, each as often as stored. */
  function UserChats(chats: seq<Chat>, userId: UserId): (r: seq<Chat>)
    ensures NewestFirst(r)
    ensures forall c :: c in r <==> c in chats && userId in c.participants
    ensures multiset(r) == multiset(ChatsWith(chats, userId))
  {
    SortByRecency(ChatsWith(chats, userId))
  }
}

=== FILE: chat_window_hooks.dfy ===
/**
 * The socket reducers and the send routine of the chat-window hooks:
 * `useChatWindow2.js` (string-compared chat ids, seen/delivered/typing/online
 * listeners) and the earlier `useChatWindow.js` (strict comparison).
 */
module ChatWindowHooks {
  import opened Wrappers
  import opened Js
  import opened ClientTypes

  /** `{ ...msg, isMine: senderId === currentUser._id }`. */
  function WithIsMine(m: ClientMessage, me: Val): (r: ClientMessage)
    ensures r.isMine <==> SenderId(m.sender) == me
    ensures r.(isMine := m.isMine) == m
  {
    m.(isMine := SenderId(m.sender) == me)
  }

  /** Loading: every fetched message, in order, flagged as own or not. */
  function LoadMessages(res: seq<ClientMessage>, me: Val): (r: seq<ClientMessage>)
    ensures |r| == |res|
    ensures forall i :: 0 <= i < |res| ==> r[i].(isMine := res[i].isMine) == res[i]
    ensures forall i :: 0 <= i < |res| ==> (r[i].isMine <==> SenderId(res[i].sender) == me)
  {
    seq(|res|, i requires 0 <= i < |res| => WithIsMine(res[i], me))
  }

  /** `addMessage`: one message appended, earlier ones untouched. */
  function AddMessage(prev: seq<ClientMessage>, m: ClientMessage, me: Val): (r: seq<ClientMessage>)
    ensures |r| == |prev| + 1 && r[..|prev|] == prev
    ensures r[|prev|].(isMine := m.isMine) == m
    ensures r[|prev|].isMine <==> SenderId(m.sender) == me
  {
    prev + [WithIsMine(m, me)]
  }

  /** A listener that appends `m` when `accept` holds and otherwise keeps the list. */
  predicate AppendsIff(prev: seq<ClientMessage>, m: ClientMessage, me: Val, accept: bool, r: seq<ClientMessage>) {
    && (accept ==> r == AddMessage(prev, m, me))
    && (!accept ==> r == prev)
  }

  /** `handlePrivate` (second hook): `String(msg.chat) === String(chatId)`. */
  function OnPrivate(prev: seq<ClientMessage>, m: ClientMessage, chatId: Val, me: Val): (r: seq<ClientMessage>)
    ensures AppendsIff(prev, m, me, ToStr(m.chat) == ToStr(chatId), r)
  {
    if ToStr(m.chat) == ToStr(chatId) then AddMessage(prev, m, me) else prev
  }

  /** `handleGroup` (second hook): `String(data.groupId) === String(chatId)`. */
  function OnGroup(prev: seq<ClientMessage>, groupId: Val, m: ClientMessage, chatId: Val, me: Val): (r: seq<ClientMessage>)
    ensures AppendsIff(prev, m, me, ToStr(groupId) == ToStr(chatId), r)
  {
    if ToStr(groupId) == ToStr(chatId) then AddMessage(prev, m, me) else prev
  }

  /** `handlePrivate` (first hook): `msg.chat === chatId`. */
  function OnPrivateStrict(prev: seq<ClientMessage>, m: ClientMessage, chatId: Val, me: Val): (r: seq<ClientMessage>)
    ensures AppendsIff(prev, m, me, m.chat == chatId, r)
  {
    if m.chat == chatId then AddMessage(prev, m, me) else prev
  }

  /** The first hook's `newGroupMessage` listener: `data.groupId === chatId`. */
  function OnGroupStrict(prev: seq<ClientMessage>, groupId: Val, m: ClientMessage, chatId: Val, me: Val): (r: seq<ClientMessage>)
    ensures AppendsIff(prev, m, me, groupId == chatId, r)
  {
    if groupId == chatId then AddMessage(prev, m, me) else prev
  }

  /** Whatever the strict listener appends, the string-comparing one appends too. */
  lemma StrictAcceptanceImpliesLoose(prev: seq<ClientMessage>, m: ClientMessage, chatId: Val, me: Val)
    requires |OnPrivateStrict(prev, m, chatId, me)| > |prev|
    ensures OnPrivate(prev, m, chatId, me) == OnPrivateStrict(prev, m, chatId, me)
  {
  }

  /** A numeric chat id matches its decimal string only under the string comparison. */
  lemma LooseAcceptsRenderedId(prev: seq<ClientMessage>, m: ClientMessage, me: Val)
    requires m.chat == Num(5)
    ensures |OnPrivate(prev, m, Str("5"), me)| == |prev| + 1
    ensures OnPrivateStrict(prev, m, Str("5"), me) == prev
  {
    assert ToStr(Num(5)) == IntToDecimal(5) == NatToDecimal(5) == "5";
  }

  // ---------------------------------------------------------------- seen / delivered

  /** Position of the first occurrence of `x` in `s`. */
  function FirstIndex(s: seq<Val>, x: Val): (k: nat)
    requires x in s
    ensures k < |s| && s[k] == x && x !in s[..k]
    decreases |s|
  {
    if s[0] == x then 0
    else
      assert x in s[1..] by {
        var i :| 0 <= i < |s| && s[i] == x;
        assert s[1..][i - 1] == x;
      }
      var k := FirstIndex(s[1..], x);
      assert s[..k + 1] == [s[0]] + s[1..][..k];
      k + 1
  }

  /** A position holding `x` with no `x` before it is the first occurrence. */
  lemma FirstIndexUnique(s: seq<Val>, x: Val, k: nat)
    requires k < |s| && s[k] == x && x !in s[..k]
    ensures FirstIndex(s, x) == k
  {
  }

  /** Appending keeps the first occurrence of what was already there. */
  lemma FirstIndexSnoc(s: seq<Val>, y: Val, x: Val)
    requires x in s
    ensures FirstIndex(s + [y], x) == FirstIndex(s, x)
  {
    var k := FirstIndex(s, x);
    assert (s + [y])[..k] == s[..k];
    FirstIndexUnique(s + [y], x, k);
  }

  /** `[...new Set(s)]`: each value once, in the order of its first occurrence. */
  function Dedup(s: seq<Val>): (r: seq<Val>)
    ensures forall x :: x in r <==> x in s
    ensures Distinct(r)
    ensures forall i, j :: 0 <= i < j < |r| ==> FirstIndex(s, r[i]) < FirstIndex(s, r[j])
    ensures |r| <= |s|
    ensures Distinct(s) ==> r == s
    decreases |s|
  {
    if |s| == 0 then []
    else
      var init := s[..|s| - 1];
      var last := s[|s| - 1];
      var d := Dedup(init);
      assert s == init + [last];
      assert Distinct(s) ==> Distinct(init) && last !in init;
      forall x | x in init ensures FirstIndex(s, x) == FirstIndex(init, x) {
        FirstIndexSnoc(init, last, x);
      }
      if last in d then d
      else
        FirstIndexUnique(s, last, |s| - 1);
        d + [last]
  }

  /** `{ ...m, seenBy: [...new Set([...(m.seenBy || []), userId])] }`. */
  function AddSeen(m: ClientMessage, userId: Val): (r: ClientMessage)
    ensures r.(seenBy := m.seenBy) == m
    ensures r.seenBy.Some? && Distinct(r.seenBy.value)
    ensures forall x :: x in r.seenBy.value <==> x in m.seenBy.GetOr([]) || x == userId
  {
    m.(seenBy := Some(Dedup(m.seenBy.GetOr([]) + [userId])))
  }

  /** `handleSeen`: the messages with `_id === messageId` gain the viewer; the rest are kept. */
  function OnSeen(prev: seq<ClientMessage>, messageId: Val, userId: Val): (r: seq<ClientMessage>)
    ensures |r| == |prev|
    ensures forall i :: 0 <= i < |prev| && prev[i].id != messageId ==> r[i] == prev[i]
    ensures forall i :: 0 <= i < |prev| && prev[i].id == messageId ==>
      && r[i].(seenBy := prev[i].seenBy) == prev[i]
      && r[i].seenBy.Some? && Distinct(r[i].seenBy.value)
      && forall x :: x in r[i].seenBy.value <==> x in prev[i].seenBy.GetOr([]) || x == userId
  {
    seq(|prev|, i requires 0 <= i < |prev| => if prev[i].id == messageId then AddSeen(prev[i], userId) else prev[i])
  }

  /** A repeated seen update changes nothing further. */
  lemma OnSeenIdempotent(prev: seq<ClientMessage>, messageId: Val, userId: Val)
    ensures OnSeen(OnSeen(prev, messageId, userId), messageId, userId) == OnSeen(prev, messageId, userId)
  {
    var once := OnSeen(prev, messageId, userId);
    var twice := OnSeen(once, messageId, userId);
    forall i | 0 <= i < |prev| ensures twice[i] == once[i] {
      if prev[i].id == messageId {
        var s := once[i].seenBy.value;
        assert Dedup(s + [userId]) == s by {
          assert userId in s;
          assert s + [userId] == (s + [userId])[..|s|] + [userId];
          assert (s + [userId])[..|s|] == s;
          assert Dedup(s) == s;
        }
      }
    }
  }

  /** `handleDelivered`: the matching messages get `delivered: true`; the rest are kept. */
  function OnDelivered(prev: seq<ClientMessage>, messageId: Val): (r: seq<ClientMessage>)
    ensures |r| == |prev|
    ensures forall i :: 0 <= i < |prev| ==> r[i].(delivered := prev[i].delivered) == prev[i]
    ensures forall i :: 0 <= i < |prev| ==> (r[i].delivered <==> prev[i].delivered || prev[i].id == messageId)
  {
    seq(|prev|, i requires 0 <= i < |prev| => if prev[i].id == messageId then prev[i].(delivered := true) else prev[i])
  }

  // ---------------------------------------------------------------- typing

  /** `handleTyping`: ignore a missing or own id; add any other id once. */
  function OnTyping(prev: seq<Val>, userId: Val, me: Val): (r: seq<Val>)
    ensures !Truthy(userId) || userId == me ==> r == prev
    ensures |prev| <= |r| && r[..|prev|] == prev
    ensures forall x :: x in r <==> x in prev || (x == userId && Truthy(userId) && userId != me)
    ensures Distinct(prev) ==> Distinct(r)
  {
    if !Truthy(userId) || userId == me then prev
    else if userId in prev then prev
    else prev + [userId]
  }

  /** `prev.filter((id) => id !== userId)` (also `Set.prototype.delete` on a duplicate-free list). */
  function Without<T(==,!new)>(prev: seq<T>, userId: T): (r: seq<T>)
    ensures forall x :: x in r <==> x in prev && x != userId
    ensures |r| <= |prev|
    ensures Distinct(prev) ==> Distinct(r)
    decreases |prev|
  {
    if |prev| == 0 then []
    else
      var rest := Without(prev[1..], userId);
      assert forall x :: x in prev <==> x == prev[0] || x in prev[1..];
      assert Distinct(prev) ==> Distinct(prev[1..]) && prev[0] !in prev[1..];
      if prev[0] == userId then rest
      else
        var r := [prev[0]] + rest;
        assert Distinct(prev) ==> Distinct(r) by {
          if Distinct(prev) {
            forall i, j | 0 <= i < j < |r| ensures r[i] != r[j] {
              assert r[j] == rest[j - 1];
              if i > 0 { assert r[i] == rest[i - 1]; }
            }
          }
        }
        r
  }

  /** Filtering out an id that is not there gives the list back. */
  lemma {:induction false} WithoutAbsent<T(!new)>(prev: seq<T>, userId: T)
    requires userId !in prev
    ensures Without(prev, userId) == prev
    decreases |prev|
  {
    if |prev| > 0 {
      assert userId !in prev[1..];
      WithoutAbsent(prev[1..], userId);
    }
  }

  /** Filtering a list with one id appended drops exactly that appended id when it was new. */
  lemma {:induction false} WithoutAppended<T(!new)>(prev: seq<T>, userId: T)
    requires userId !in prev
    ensures Without(prev + [userId], userId) == prev
    decreases |prev|
  {
    if |prev| == 0 {
      assert [userId][1..] == [];
    } else {
      assert (prev + [userId])[1..] == prev[1..] + [userId];
      assert userId !in prev[1..];
      WithoutAppended(prev[1..], userId);
    }
  }

  /** Filtering a concatenation filters each part and keeps them in order. */
  lemma {:induction false} WithoutConcat<T(!new)>(a: seq<T>, b: seq<T>, userId: T)
    ensures Without(a + b, userId) == Without(a, userId) + Without(b, userId)
    decreases |a|
  {
    if |a| == 0 {
      assert a + b == b;
    } else {
      assert (a + b)[0] == a[0];
      assert (a + b)[1..] == a[1..] + b;
      WithoutConcat(a[1..], b, userId);
    }
  }

  /** Filtering one id keeps it exactly when it is not the removed one. */
  lemma WithoutSingleton<T(!new)>(x: T, userId: T)
    ensures Without([x], userId) == if x == userId then [] else [x]
  {
    assert [x][1..] == [];
  }

  /**
   * `handleStopTyping`: the typists other than `userId`, in their order. The
   * last clause peels the list from its end, so with `Without([], u) == []`
   * it fixes the result by the same rule `filter` follows.
   */
  function OnStopTyping(prev: seq<Val>, userId: Val): (r: seq<Val>)
    ensures userId !in r
    ensures forall x :: x != userId ==> (x in r <==> x in prev)
    ensures prev == [] ==> r == []
    ensures prev != [] ==>
      var last := prev[|prev| - 1];
      r == Without(prev[..|prev| - 1], userId) + (if last == userId then [] else [last])
  {
    if prev == [] then []
    else
      var init, last := prev[..|prev| - 1], prev[|prev| - 1];
      assert prev == init + [last];
      WithoutConcat(init, [last], userId);
      WithoutSingleton(last, userId);
      Without(prev, userId)
  }

  /** A typing signal followed by its stop restores the list. */
  lemma TypingThenStopRestores(prev: seq<Val>, userId: Val, me: Val)
    requires userId !in prev
    ensures OnStopTyping(OnTyping(prev, userId, me), userId) == prev
  {
    if !Truthy(userId) || userId == me {
      WithoutAbsent(prev, userId);
    } else {
      WithoutAppended(prev, userId);
    }
  }

  // ---------------------------------------------------------------- online list

  /** An `onlineUsersUpdate` payload: missing (or falsy), an array, or an object. */
  datatype OnlinePayload =
    | NoPayload
    | Arr(ids: seq<Val>)
    | Obj(kind: Val, users: Option<seq<Val>>, userId: Val)

  /** The hook's online state: a list of ids, or the payload object it was set to. */
  datatype OnlineList = Ids(ids: seq<Val>) | NotAList

  /**
   * `handleOnlineUsersUpdate`: `bulk` replaces the list (`[]` without
   * users), `remove` filters, anything else becomes `payload.users ||
   * payload`. Filtering a non-list throws inside the state updater, which
   * breaks the render; the model then returns the state unchanged, and no
   * contract below says anything about that case.
   */
  function OnOnline(prev: OnlineList, payload: OnlinePayload): (r: OnlineList)
    ensures payload.NoPayload? ==> r == prev
    ensures payload.Arr? ==> r == Ids(payload.ids)
    ensures payload.Obj? && payload.kind == Str("bulk") ==> r == Ids(payload.users.GetOr([]))
    ensures payload.Obj? && payload.kind == Str("remove") && prev.Ids? ==>
      r.Ids? && forall x :: x in r.ids <==> x in prev.ids && x != payload.userId
    ensures payload.Obj? && payload.kind != Str("bulk") && payload.kind != Str("remove") ==>
      r == if payload.users.Some? then Ids(payload.users.value) else NotAList
  {
    match payload
    case NoPayload => prev
    case Arr(ids) => Ids(ids)
    case Obj(kind, users, userId) =>
      if kind == Str("bulk") then Ids(users.GetOr([]))
      else if kind == Str("remove") then
        match prev
        case Ids(ids) => Ids(Without(ids, userId))
        case NotAList => prev
      else if users.Some? then Ids(users.value)
      else NotAList
  }

  /** After a bulk list and a removal, the list is the bulk list without the removed id. */
  lemma BulkThenRemove(prev: OnlineList, users: seq<Val>, u: Val, tag: Val)
    ensures var r := OnOnline(OnOnline(prev, Obj(Str("bulk"), Some(users), tag)), Obj(Str("remove"), None, u));
      r.Ids? && forall x :: x in r.ids <==> x in users && x != u
  {
  }

  // ---------------------------------------------------------------- sending

  /** What `handleSend` is called with; `files` is `None` when absent. */
  datatype SendInput = SendInput(text: Val, files: Option<seq<string>>)

  /** The media upload: its `files` (absent as `None`), or a failure. */
  datatype UploadOutcome = Uploaded(files: Option<seq<Val>>) | UploadFailed

  /** The emitted socket event. */
  datatype Outgoing =
    | GroupSend(senderId: Val, groupId: Val, groupText: Val, groupMedia: seq<Val>)
    | PrivateSend(from: Val, receiverId: Val, text: Val, mediaFiles: seq<Val>)

  /** The `mediaFiles` an outgoing event carries. */
  function SentMedia(o: Outgoing): seq<Val> {
    match o
    case GroupSend(_, _, _, media) => media
    case PrivateSend(_, _, _, media) => media
  }

  predicate HasFiles(input: SendInput) {
    input.files.Some? && |input.files.value| > 0
  }

  /** `!selectedChat || (!text && (!files || files.length === 0))`. */
  predicate SendGuardPasses(chat: Option<ClientChat>, input: SendInput) {
    chat.Some? && (Truthy(input.text) || HasFiles(input))
  }

  /** The receiver: the first participant whose `_id` differs from mine, or undefined. */
  function ReceiverOf(ps: seq<Participant>, me: Val): (r: Val)
    ensures r == Undefined || exists i :: 0 <= i < |ps| && ps[i].id == r && r != me
    ensures (exists i :: 0 <= i < |ps| && ps[i].id != me) ==> r != me
  {
    match FindParticipant(ps, (p: Participant) => p.id != me)
    case None => Undefined
    case Some(i) => ps[i].id
  }

  /**
   * `handleSend` (both hooks): nothing without a chat or without text and
   * files; upload files first and give up if the upload fails; a group chat
   * gets `groupMessage`, any other chat `privateMessage` to the first
   * participant that is not me, both carrying the uploaded files (`[]`
   * when nothing was attached). A chat without participants throws there.
   */
  function HandleSend(chat: Option<ClientChat>, me: Val, input: SendInput, upload: UploadOutcome): (r: Option<Outgoing>)
    ensures !SendGuardPasses(chat, input) ==> r.None?
    ensures SendGuardPasses(chat, input) && HasFiles(input) && upload.UploadFailed? ==> r.None?
    ensures r.Some? ==> (if r.value.GroupSend? then r.value.groupText else r.value.text) == input.text
    ensures r.Some? && r.value.GroupSend? <==>
      && SendGuardPasses(chat, input) && (!HasFiles(input) || upload.Uploaded?)
      && chat.value.kind == Str("group")
    ensures r.Some? && r.value.GroupSend? ==> r.value.senderId == me && r.value.groupId == chat.value.id
    ensures r.Some? && r.value.PrivateSend? <==>
      && SendGuardPasses(chat, input) && (!HasFiles(input) || upload.Uploaded?)
      && chat.value.kind != Str("group") && chat.value.participants.Some?
    ensures r.Some? && r.value.PrivateSend? ==>
      && r.value.from == me
      && r.value.receiverId == ReceiverOf(chat.value.participants.value, me)
    ensures r.Some? && !HasFiles(input) ==> SentMedia(r.value) == []
    ensures r.Some? && HasFiles(input) ==> upload.Uploaded? && SentMedia(r.value) == upload.files.GetOr([])
  {
    if !SendGuardPasses(chat, input) then None
    else
      var media :=
        if !HasFiles(input) then Some([])
        else match upload
          case UploadFailed => None
          case Uploaded(files) => Some(files.GetOr([]));
      if media.None? then None
      else if chat.value.kind == Str("group") then Some(GroupSend(me, chat.value.id, input.text, media.value))
      else match chat.value.participants
        case None => None
        case Some(ps) => Some(PrivateSend(me, ReceiverOf(ps, me), input.text, media.value))
  }
}

=== FILE: chat_window_view.dfy ===
/**
 * The open chat: `ChatWindow2.jsx` (media urls, header presence, typing
 * line, seen ticks, the `data-seenby` attribute) and the earlier
 * `ChatWindow.jsx`.
 */
module ChatWindowView {
  import opened Wrappers
  import opened Js
  import opened ClientTypes
  import ChatWindowHooks

  const ServerUrl := "http://localhost:8000"
  const UploadsPrefix := "/uploads"

  /** `url.replace(/^\/uploads/, "")`. */
  function StripUploads(url: string): (r: string)
    ensures StartsWith(url, UploadsPrefix) ==> UploadsPrefix + r == url
    ensures !StartsWith(url, UploadsPrefix) ==> r == url
  {
    if StartsWith(url, UploadsPrefix) then url[|UploadsPrefix|..] else url
  }

  /** `resolveUrl` (both windows): absolute "http" urls pass, others are served from the backend. */
  function ResolveUrl(url: string): (r: string)
    ensures StartsWith(r, "http")
    ensures StartsWith(url, "http") ==> r == url
    ensures !StartsWith(url, "http") ==> r == ServerUrl + StripUploads(url)
  {
    if StartsWith(url, "http") then url else ServerUrl + StripUploads(url)
  }

  /** Resolving twice is resolving once. */
  lemma ResolveUrlIdempotent(url: string)
    ensures ResolveUrl(ResolveUrl(url)) == ResolveUrl(url)
  {
  }

  /** A stored upload path is served from the backend root. */
  lemma UploadPathResolves(path: string)
    ensures ResolveUrl(UploadsPrefix + path) == ServerUrl + path
  {
    assert !StartsWith(UploadsPrefix + path, "http") by {
      assert (UploadsPrefix + path)[0] == '/';
    }
    assert (UploadsPrefix + path)[|UploadsPrefix|..] == path;
  }

  /** One attachment in a bubble: an image only for the exact type "image". */
  datatype MediaView = Image(src: string, alt: string) | FileLink(href: string, caption: string)

  function RenderMedia(file: MediaItem): (r: MediaView)
    ensures r.Image? <==> file.kind == Some("image")
    ensures r.Image? ==> r.src == ResolveUrl(file.url) && r.alt == file.name
    ensures r.FileLink? ==> r.href == ResolveUrl(file.url) && r.caption == "\U{1F4CE} " + file.name
  {
    if file.kind == Some("image") then Image(ResolveUrl(file.url), file.name)
    else FileLink(ResolveUrl(file.url), "\U{1F4CE} " + file.name)
  }

  /** What a hook hands the window: typing and online state, `None` where the hook returns no such field. */
  datatype HookView = HookView(typingUsers: Option<seq<Val>>, onlineUsers: Option<ChatWindowHooks.OnlineList>)

  /** The first hook returns only messages, the sender and the setter. */
  const FirstHook := HookView(None, None)

  /** The second hook returns its typing list and online state. */
  function SecondHook(typing: seq<Val>, online: ChatWindowHooks.OnlineList): (r: HookView)
    ensures r.typingUsers == Some(typing) && r.onlineUsers == Some(online)
  {
    HookView(Some(typing), Some(online))
  }

  /** `onlineUsers.includes(x)`: `None` where the call throws (no array to call it on). */
  function Includes(online: Option<ChatWindowHooks.OnlineList>, x: Val): (r: Option<bool>)
    ensures r.Some? <==> online.Some? && online.value.Ids?
    ensures r.Some? ==> (r.value <==> x in online.value.ids)
  {
    match online
    case Some(Ids(ids)) => Some(x in ids)
    case _ => None
  }

  predicate NotMe(p: Participant, me: Val) {
    ToStr(p.id) != ToStr(me)
  }

  /**
   * The header's presence (`None` where rendering throws): false with no
   * chat; for a private chat the first other participant's status; for any
   * other chat whether some participant besides me is online.
   */
  function IsOnline(chat: Option<ClientChat>, me: Val, online: Option<ChatWindowHooks.OnlineList>): (r: Option<bool>)
    ensures chat.None? ==> r == Some(false)
    ensures chat.Some? && chat.value.kind == Str("private") && online.Some? && online.value.Ids? ==>
      r.Some? && (r.value <==>
        chat.value.participants.Some? &&
        exists i :: 0 <= i < |chat.value.participants.value|
          && NotMe(chat.value.participants.value[i], me)
          && (forall j :: 0 <= j < i ==> !NotMe(chat.value.participants.value[j], me))
          && Str(ToStr(chat.value.participants.value[i].id)) in online.value.ids)
    ensures chat.Some? && chat.value.kind != Str("private") && online.Some? && online.value.Ids? ==>
      r.Some? && (r.value <==>
        chat.value.participants.Some? &&
        exists p :: p in chat.value.participants.value && NotMe(p, me) && Str(ToStr(p.id)) in online.value.ids)
    ensures chat.Some? && chat.value.kind != Str("private") && !(online.Some? && online.value.Ids?) ==>
      (r.None? <==> chat.value.participants.Some? && exists p :: p in chat.value.participants.value && NotMe(p, me))
    ensures chat.Some? && chat.value.kind == Str("private") && online.None? ==> r == Some(false)
    ensures chat.Some? && chat.value.kind == Str("private") && online == Some(ChatWindowHooks.NotAList) ==>
      (r.None? <==> chat.value.participants.Some? && exists p :: p in chat.value.participants.value && NotMe(p, me))
    ensures r.Some? || (online.Some? ==> online.value.NotAList?)
  {
    match chat
    case None => Some(false)
    case Some(c) =>
      if c.kind == Str("private") then
        match c.participants
        case None => Some(false)
        case Some(ps) =>
          match FindParticipant(ps, (p: Participant) => NotMe(p, me))
          case None => Some(false)
          // `onlineUsers?.includes(...)`: an absent list gives undefined, which is falsy
          case Some(i) => if online.None? then Some(false) else Includes(online, Str(ToStr(ps[i].id)))
      else
        match c.participants
        case None => Some(false)
        case Some(ps) =>
          if !exists p :: p in ps && NotMe(p, me) then Some(false)
          else match online
            case Some(Ids(ids)) => Some(exists p :: p in ps && NotMe(p, me) && Str(ToStr(p.id)) in ids)
            case _ => None
  }

  /** The header's status text. */
  function StatusText(online: bool): string {
    if online then "online" else "last seen recently"
  }

  /**
   * The typing line: none without a chat or typists, or when only I am
   * typing; otherwise the first other typist's name, or "Someone".
   */
  function DisplayTyping(chat: Option<ClientChat>, me: Val, typing: Option<seq<Val>>): (r: Option<string>)
    ensures chat.None? || typing.None? || typing.value == [] ==> r.None?
    ensures chat.Some? && typing.Some? && (forall u :: u in typing.value ==> ToStr(u) == ToStr(me)) ==> r.None?
    ensures r.Some? ==> exists u :: u in typing.value && Truthy(u) && ToStr(u) != ToStr(me)
    ensures r.Some? <==>
      chat.Some? && typing.Some? && FirstWhere(typing.value, me).Some? && Truthy(typing.value[FirstWhere(typing.value, me).value])
    ensures r.Some? ==>
      var u := typing.value[FirstWhere(typing.value, me).value];
      (chat.value.participants.None? || forall p :: p in chat.value.participants.value ==> ToStr(p.id) != ToStr(u)) ==>
        r.value == "Someone" + IsTypingDots
    ensures r.Some? && chat.value.participants.Some? ==>
      var u := typing.value[FirstWhere(typing.value, me).value];
      var ps := chat.value.participants.value;
      forall i :: 0 <= i < |ps| && ToStr(ps[i].id) == ToStr(u) && (forall j :: 0 <= j < i ==> ToStr(ps[j].id) != ToStr(u)) ==>
        r.value == NameOr(ps[i], "Someone") + IsTypingDots
  {
    if chat.None? || typing.None? || |typing.value| == 0 then None
    else
      var ts := typing.value;
      match FirstWhere(ts, me)
      case None => None
      case Some(i) =>
        if !Truthy(ts[i]) then None
        else Some(TypistLabel(chat.value.participants, ts[i]) + IsTypingDots)
  }

  /** The name shown for typist `u`: the first participant with that id string, or "Someone". */
  function TypistLabel(participants: Option<seq<Participant>>, u: Val): (r: string)
    ensures participants.None? || (forall p :: p in participants.value ==> ToStr(p.id) != ToStr(u)) ==> r == "Someone"
    ensures participants.Some? ==>
      var ps := participants.value;
      forall i :: 0 <= i < |ps| && ToStr(ps[i].id) == ToStr(u) && (forall j :: 0 <= j < i ==> ToStr(ps[j].id) != ToStr(u)) ==>
        r == NameOr(ps[i], "Someone")
  {
    match participants
    case None => "Someone"
    case Some(ps) =>
      match FindParticipant(ps, (p: Participant) => ToStr(p.id) == ToStr(u))
      case None => "Someone"
      case Some(j) => NameOr(ps[j], "Someone")
  }

  /** The window's typing suffix, three full stops. */
  const IsTypingDots := " is typing..."

  /** Position of the first typist whose id string is not mine. */
  function FirstWhere(ts: seq<Val>, me: Val): (r: Option<nat>)
    ensures r.Some? ==> r.value < |ts| && ToStr(ts[r.value]) != ToStr(me) && forall j :: 0 <= j < r.value ==> ToStr(ts[j]) == ToStr(me)
    ensures r.None? ==> forall u :: u in ts ==> ToStr(u) == ToStr(me)
    decreases |ts|
  {
    if |ts| == 0 then None
    else if ToStr(ts[0]) != ToStr(me) then Some(0)
    else match FirstWhere(ts[1..], me)
      case None => None
      case Some(i) => Some(i + 1)
  }

  /** A named participant typing in a chat is announced by name. */
  lemma TypingNamesParticipant(chat: ClientChat, me: Val, p: Participant)
    requires chat.participants == Some([p]) && Truthy(p.id) && NotMe(p, me) && p.fullName != ""
    ensures DisplayTyping(Some(chat), me, Some([me, p.id])) == Some(p.fullName + " is typing...")
  {
    assert FirstWhere([me, p.id], me) == Some(1) by {
      assert [me, p.id][1..] == [p.id];
    }
  }

  /**
   * The window's header: the status text and the typing line, `None` where
   * rendering throws.
   */
  datatype Header = Header(status: string, typingLine: Option<string>)

  function RenderHeader(chat: ClientChat, me: Val, hook: HookView): (r: Option<Header>)
    ensures r.None? <==>
      && chat.participants.Some? && (exists p :: p in chat.participants.value && NotMe(p, me))
      && (if chat.kind == Str("private") then hook.onlineUsers == Some(ChatWindowHooks.NotAList)
          else !(hook.onlineUsers.Some? && hook.onlineUsers.value.Ids?))
    ensures r.Some? ==> r.value.status == "online" || r.value.status == "last seen recently"
    ensures r.Some? ==> (r.value.status == "online" <==> IsOnline(Some(chat), me, hook.onlineUsers) == Some(true))
    ensures r.Some? && hook.typingUsers.None? ==> r.value.typingLine.None?
    ensures r.Some? ==> r.value.typingLine == DisplayTyping(Some(chat), me, hook.typingUsers)
  {
    match IsOnline(Some(chat), me, hook.onlineUsers)
    case None => None
    case Some(b) => Some(Header(StatusText(b), DisplayTyping(Some(chat), me, hook.typingUsers)))
  }

  /**
   * As wired, the second window takes its state from the first hook, which
   * has neither list: any group with another member throws while rendering,
   * and no typing line ever shows.
   */
  lemma HeaderAsWiredThrowsOnGroups(chat: ClientChat, me: Val, other: Participant)
    requires chat.kind == Str("group") && chat.participants.Some? && other in chat.participants.value && NotMe(other, me)
    ensures RenderHeader(chat, me, FirstHook).None?
  {
  }

  /** With the second hook the header always renders, and another member's typing is announced. */
  lemma HeaderWithSecondHook(chat: ClientChat, me: Val, typing: seq<Val>, ids: seq<Val>)
    ensures RenderHeader(chat, me, SecondHook(typing, ChatWindowHooks.Ids(ids))).Some?
    ensures (exists u :: u in typing && Truthy(u) && ToStr(u) != ToStr(me)) && (forall u :: u in typing ==> Truthy(u)) ==>
      RenderHeader(chat, me, SecondHook(typing, ChatWindowHooks.Ids(ids))).value.typingLine.Some?
  {
    if (exists u :: u in typing && Truthy(u) && ToStr(u) != ToStr(me)) && (forall u :: u in typing ==> Truthy(u)) {
      var i := FirstWhere(typing, me);
      assert i.Some?;
    }
  }

  // ---------------------------------------------------------------- seen ticks

  /**
   * The second window's seen test (`None` where it throws: a private chat
   * without participants). A private message counts as seen when its
   * `seenBy` holds the other participant's `_id`; any other chat needs some
   * viewer.
   */
  function HasOtherSeen2(chat: ClientChat, me: Val, m: ClientMessage): (r: Option<bool>)
    ensures m.seenBy.None? ==> r == Some(false)
    ensures r.None? <==> m.seenBy.Some? && chat.kind == Str("private") && chat.participants.None?
    ensures m.seenBy.Some? && chat.kind != Str("private") ==> r == Some(|m.seenBy.value| > 0)
    ensures m.seenBy.Some? && chat.kind == Str("private") && chat.participants.Some? ==>
      var o := FindParticipant(chat.participants.value, (p: Participant) => NotMe(p, me));
      r == Some(o.Some? && chat.participants.value[o.value].id in m.seenBy.value)
  {
    match m.seenBy
    case None => Some(false)
    case Some(seen) =>
      if chat.kind == Str("private") then
        match chat.participants
        case None => None
        case Some(ps) =>
          match FindParticipant(ps, (p: Participant) => NotMe(p, me))
          case None => Some(false)
          case Some(i) => Some(ps[i].id in seen)
      else Some(|seen| > 0)
  }

  /** The first window's seen test: strict partner lookup, `includes(other?._id)`. */
  function HasOtherSeen1(chat: ClientChat, me: Val, m: ClientMessage): (r: Option<bool>)
    ensures m.seenBy.None? ==> r == Some(false)
    ensures r.None? <==> m.seenBy.Some? && chat.kind == Str("private") && chat.participants.None?
    ensures m.seenBy.Some? && chat.kind != Str("private") ==> r == Some(|m.seenBy.value| > 0)
    ensures m.seenBy.Some? && chat.kind == Str("private") && chat.participants.Some? ==>
      var o := FindParticipant(chat.participants.value, (p: Participant) => p.id != me);
      r == Some(if o.Some? then chat.participants.value[o.value].id in m.seenBy.value else Undefined in m.seenBy.value)
  {
    match m.seenBy
    case None => Some(false)
    case Some(seen) =>
      if chat.kind == Str("private") then
        match chat.participants
        case None => None
        case Some(ps) =>
          match FindParticipant(ps, (p: Participant) => p.id != me)
          case None => Some(Undefined in seen)
          case Some(i) => Some(ps[i].id in seen)
      else Some(|seen| > 0)
  }

  /** In a chat where every participant is me, an `undefined` viewer ticks the first window's message. */
  lemma UndefinedViewerTicksSoloChat(chat: ClientChat, me: Val, m: ClientMessage)
    requires chat.kind == Str("private") && chat.participants == Some([Participant(me, Undefined, "", "")])
    requires m.seenBy == Some([Undefined])
    ensures HasOtherSeen1(chat, me, m) == Some(true)
    ensures HasOtherSeen2(chat, me, m) == Some(false)
  {
  }

  /** Where the two windows find the same partner, they agree on the tick. */
  lemma SeenTestsAgree(chat: ClientChat, me: Val, other: Participant, m: ClientMessage)
    requires chat.kind == Str("private") && chat.participants == Some([Participant(me, Undefined, "", ""), other])
    requires other.id != me && ToStr(other.id) != ToStr(me)
    ensures HasOtherSeen1(chat, me, m) == HasOtherSeen2(chat, me, m)
  {
    var ps := chat.participants.value;
    assert ps[0].id == me && ToStr(ps[0].id) == ToStr(me);
    assert ps[1] == other;
    assert ps[1..] == [other];
  }

  /** The tick on a bubble: only my own messages carry one. */
  function SeenMark(isMine: bool, seen: bool): (r: Option<string>)
    ensures r.Some? <==> isMine
    ensures r.Some? ==> (r.value == "\U{2713}\U{2713}" <==> seen)
    ensures r.Some? ==> r.value == "\U{2713}" || r.value == "\U{2713}\U{2713}"
  {
    if !isMine then None else if seen then Some("\U{2713}\U{2713}") else Some("\U{2713}")
  }

  /** `Array.prototype.join` renders `null` and `undefined` as "". */
  function Rendered(v: Val): string {
    if Nullish(v) then "" else ToStr(v)
  }

  /** `ids.join(",")`. */
  function Join(ids: seq<Val>): (r: string)
    ensures ids == [] ==> r == ""
    ensures |ids| == 1 ==> r == Rendered(ids[0])
    decreases |ids|
  {
    if |ids| == 0 then ""
    else if |ids| == 1 then Rendered(ids[0])
    else Join(ids[..|ids| - 1]) + "," + Rendered(ids[|ids| - 1])
  }

  /** `data-seenby`: the joined viewers, or "" when `seenBy` is absent. */
  function DataSeenBy(m: ClientMessage): (r: string)
    ensures m.seenBy.None? ==> r == ""
    ensures m.seenBy.Some? ==> r == Join(m.seenBy.value)
  {
    match m.seenBy
    case None => ""
    case Some(ids) => Join(ids)
  }

  /** The first window's header status follows the chat's own `isOnline` flag. */
  function StatusText1(chat: ClientChat): (r: string)
    ensures r == "online" <==> Truthy(chat.isOnline)
    ensures r == "online" || r == "last seen recently"
  {
    StatusText(Truthy(chat.isOnline))
  }
}

=== FILE: client_types.dfy ===
/**
 * The shapes the React client works with, as received from the REST API and
 * the socket. Fields that may be absent are `Val` (`Undefined` when absent)
 * or `Option`; display strings that are only ever checked for truthiness are
 * `string`, with "" standing for an absent value (both are falsy in JS).
 */
module ClientTypes {
  import opened Wrappers
  import opened Js

  /** `msg.sender`: a populated user object (its `_id`) or a bare id. */
  datatype SenderRef = Populated(userId: Val) | Bare(raw: Val)

  /** `typeof sender === "object" ? sender._id : sender`. */
  function SenderId(s: SenderRef): Val {
    match s
    case Populated(id) => id
    case Bare(v) => v
  }

  /** A media item: `url`, `type` (absent as `None`), `name`. */
  datatype MediaItem = MediaItem(url: string, kind: Option<string>, name: string)

  /** A message in the client's list; `seenBy` is `None` when it is not an array. */
  datatype ClientMessage = ClientMessage(
    id: Val,
    chat: Val,
    sender: SenderRef,
    text: string,
    media: seq<MediaItem>,
    seenBy: Option<seq<Val>>,
    delivered: bool,
    isMine: bool)

  /** A (populated) participant: `_id`, the `id` virtual, `fullName`, `name`. */
  datatype Participant = Participant(id: Val, altId: Val, fullName: string, name: string)

  /** `chat.lastMessage` when present: its text (`None` when absent) and media list. */
  datatype LastMessage = LastMessage(text: Option<string>, media: Option<seq<MediaItem>>)

  /** A chat as the client lists it. */
  datatype ClientChat = ClientChat(
    id: Val,
    kind: Val,
    name: string,
    participants: Option<seq<Participant>>,
    lastMessage: Option<LastMessage>,
    unreadCount: Option<int>,
    isOnline: Val)

  /** The logged-in user from the auth context: `_id` and `id`. */
  datatype User = User(id: Val, altId: Val)

  /** Position of the first participant satisfying `p`, as `Array.prototype.find` scans. */
  function FindParticipant(ps: seq<Participant>, p: Participant -> bool): (r: Option<nat>)
    ensures r.Some? ==> r.value < |ps| && p(ps[r.value]) && forall j :: 0 <= j < r.value ==> !p(ps[j])
    ensures r.None? ==> forall j :: 0 <= j < |ps| ==> !p(ps[j])
    decreases |ps|
  {
    if |ps| == 0 then None
    else if p(ps[0]) then Some(0)
    else match FindParticipant(ps[1..], p)
      case None => None
      case Some(i) => Some(i + 1)
  }

  /**
   * `chat.name || fallback`: the list uses "Unknown" and the chat window
   * "Chat" for an unnamed chat.
   */
  function ChatTitle(chat: ClientChat, fallback: string): (r: string)
    ensures r == chat.name || r == fallback
    ensures chat.name != "" ==> r == chat.name
    ensures fallback != "" ==> r != ""
  {
    if chat.name != "" then chat.name else fallback
  }

  /** `fullName || name || fallback`. */
  function NameOr(p: Participant, fallback: string): (r: string)
    ensures fallback != "" ==> r != ""
  {
    if p.fullName != "" then p.fullName else if p.name != "" then p.name else fallback
  }

  predicate Distinct<T(==)>(s: seq<T>) {
    forall i, j :: 0 <= i < j < |s| ==> s[i] != s[j]
  }

  /** Appending an element not yet present keeps a list duplicate-free. */
  lemma DistinctSnoc<T>(s: seq<T>, x: T)
    requires Distinct(s) && x !in s
    ensures Distinct(s + [x])
  {
    var t := s + [x];
    forall i, j | 0 <= i < j < |t| ensures t[i] != t[j] {
      if j == |s| { assert t[i] == s[i]; }
    }
  }
}

=== FILE: dispatcher.dfy ===
/**
 * The socket dispatcher of `controllers/socketHandler.js`, the one `server.js`
 * attaches to the HTTP server.
 * Its presence map is keyed by the raw registered value, messages are sent
 * to socket-id rooms looked up in that map, nothing is acknowledged, and
 * every failure is caught and logged (or, for `.toString()` outside the
 * `try`, thrown from the listener).
 */
module Dispatcher {
  import opened Wrappers
  import opened Js
  import opened Models
  import opened Sockets
  import opened Events
  import OrderedMap
  import MessageStore
  import ChatStore

  /** `onlineUsers`: a JS `Map` from whatever `registerUser` received to a socket id. */
  type Presence = seq<(Val, SocketId)>

  datatype State = State(presence: Presence, io: Io, chats: seq<Chat>, messages: seq<Message>)

  /** New state, emissions in order, and the error logged or thrown, if any. */
  datatype Step = Step(state: State, emits: seq<Emit>, error: Option<Failure>)

  /** `onlineUsers.get(id)` for a string id, when it names a (truthy) socket. */
  function SocketOf(presence: Presence, id: UserId): (r: Option<SocketId>)
    ensures r.Some? <==> OrderedMap.Get(presence, Str(id)).Some? && OrderedMap.Get(presence, Str(id)).value != ""
    ensures r.Some? ==> (Str(id), r.value) in presence && r.value != ""
  {
    var s := OrderedMap.Get(presence, Str(id));
    if s.Some? && s.value != "" then s else None
  }

  /** `registerUser`: `onlineUsers.set(userId, socket.id)`, with no guard and no conversion. */
  function RegisterUser(st: State, sid: SocketId, userId: Val): (r: Step)
    ensures OrderedMap.Get(r.state.presence, userId) == Some(sid)
    ensures forall k {:trigger OrderedMap.Get(r.state.presence, k)} ::
      k != userId ==> OrderedMap.Get(r.state.presence, k) == OrderedMap.Get(st.presence, k)
    ensures r.state.io == st.io && r.state.chats == st.chats && r.state.messages == st.messages
    ensures r.emits == [] && r.error.None?
  {
    Step(st.(presence := OrderedMap.Set(st.presence, userId, sid)), [], None)
  }

  /** `joinChat`: `socket.join(chatId.toString())`, which throws on null or undefined. */
  function JoinChat(st: State, sid: SocketId, chatId: Val): (r: Step)
    ensures Nullish(chatId) ==> r == Step(st, [], Some(NullToString))
    ensures !Nullish(chatId) ==>
      && r.error.None?
      && Members(r.state.io, ToStr(chatId)) == Members(st.io, ToStr(chatId)) + {sid}
      && forall room :: room != ToStr(chatId) ==> Members(r.state.io, room) == Members(st.io, room)
    ensures r.emits == [] && r.state.presence == st.presence && r.state.chats == st.chats && r.state.messages == st.messages
  {
    if Nullish(chatId) then Step(st, [], Some(NullToString))
    else Step(st.(io := Join(st.io, sid, ToStr(chatId))), [], None)
  }

  /** `leaveChat`: `socket.leave(chatId.toString())`, which throws on null or undefined. */
  function LeaveChat(st: State, sid: SocketId, chatId: Val): (r: Step)
    ensures Nullish(chatId) ==> r == Step(st, [], Some(NullToString))
    ensures !Nullish(chatId) ==>
      && r.error.None?
      && Members(r.state.io, ToStr(chatId)) == Members(st.io, ToStr(chatId)) - {sid}
      && forall room :: room != ToStr(chatId) ==> Members(r.state.io, room) == Members(st.io, room)
    ensures r.emits == [] && r.state.presence == st.presence && r.state.chats == st.chats && r.state.messages == st.messages
  {
    if Nullish(chatId) then Step(st, [], Some(NullToString))
    else Step(st.(io := Leave(st.io, sid, ToStr(chatId))), [], None)
  }

  /** `newPrivateMessage` to the socket-id room of `id`, if `onlineUsers` has one for it. */
  function ToSocketOf(presence: Presence, id: UserId, m: Message): (r: seq<Emit>)
    ensures SocketOf(presence, id).None? <==> r == []
    ensures SocketOf(presence, id).Some? ==> r == [Emit(ToRoom(SocketOf(presence, id).value), "newPrivateMessage", PrivateMsg(m))]
  {
    match SocketOf(presence, id)
    case None => []
    case Some(s) => [Emit(ToRoom(s), "newPrivateMessage", PrivateMsg(m))]
  }

  /** The two guarded emissions of a stored private message: receiver first, then sender. */
  function DeliverPrivate(presence: Presence, senderId: UserId, receiverId: UserId, m: Message): (r: seq<Emit>)
    ensures |r| == (if SocketOf(presence, receiverId).Some? then 1 else 0) + (if SocketOf(presence, senderId).Some? then 1 else 0)
    ensures forall e :: e in r ==> e.event == "newPrivateMessage" && e.payload == PrivateMsg(m) && e.target.ToRoom?
    ensures forall e :: e in r ==> Some(e.target.room) == SocketOf(presence, receiverId) || Some(e.target.room) == SocketOf(presence, senderId)
    ensures SocketOf(presence, receiverId).Some? ==> r[0].target == ToRoom(SocketOf(presence, receiverId).value)
    ensures SocketOf(presence, senderId).Some? ==> r[|r| - 1].target == ToRoom(SocketOf(presence, senderId).value)
  {
    ToSocketOf(presence, receiverId, m) + ToSocketOf(presence, senderId, m)
  }

  /**
   * `privateMessage`: find or create the pair chat, persist, then send the
   * message to the receiver's socket and to the sender's socket, each only
   * if that user is in `onlineUsers`. A store failure is logged; the chat
   * created before it stays.
   */
  function PrivateMessage(st: State, env: Env, senderId: UserId, receiverId: UserId, text: Option<string>, media: seq<MediaInput>): (r: Step)
    ensures r.state.presence == st.presence && r.state.io == st.io
    ensures r.state.chats == ChatStore.FindOrCreatePrivate(st.chats, senderId, receiverId, env.freshChatId, env.now).0
    ensures r.error.Some? <==> env.fault.Some? || exists i :: 0 <= i < |media| && !MediaValid(media[i])
    ensures r.error.Some? ==> r.emits == [] && r.state.messages == st.messages
    ensures r.error.None? ==>
      && |r.state.messages| == |st.messages| + 1
      && r.state.messages[..|st.messages|] == st.messages
      && r.state.messages[|st.messages|].sender == senderId
      && r.state.messages[|st.messages|].text == text.GetOr("")
      && CastMediaList(media) == Ok(r.state.messages[|st.messages|].media)
      && r.state.messages[|st.messages|].seenBy == []
      && IsPairChatId(r.state.chats, r.state.messages[|st.messages|].chat, senderId, receiverId)
      && r.emits == DeliverPrivate(st.presence, senderId, receiverId, r.state.messages[|st.messages|])
  {
    var (chats, chat) := ChatStore.FindOrCreatePrivate(st.chats, senderId, receiverId, env.freshChatId, env.now);
    var st1 := st.(chats := chats);
    if env.fault.Some? then Step(st1, [], Some(StoreFault(env.fault.value)))
    else match MessageStore.Persist(st.messages, chat.id, senderId, text, media, env.freshMessageId, env.now)
      case Err(e) => Step(st1, [], Some(Invalid(e)))
      case Ok((messages, m)) =>
        assert messages[..|st.messages|] == st.messages;
        Step(st1.(messages := messages), DeliverPrivate(st.presence, senderId, receiverId, m), None)
  }

  /** Some chat of the store with id `id` is a private chat of the pair. */
  predicate IsPairChatId(chats: seq<Chat>, id: ChatId, a: UserId, b: UserId) {
    exists i :: 0 <= i < |chats| && chats[i].id == id && ChatStore.IsPairChat(chats[i], a, b)
  }

  /** The emission of the loop body for one participant entry. */
  function FanOutOne(presence: Presence, u: UserId, groupId: ChatId, m: Message): seq<Emit> {
    match SocketOf(presence, u)
    case None => []
    case Some(s) => [Emit(ToRoom(s), "newGroupMessage", GroupMsg(groupId, m))]
  }

  /**
   * The loop over `chat.participants`: one `newGroupMessage` to the socket of
   * every participant entry that is online, in order, duplicates included.
   */
  function FanOut(presence: Presence, members: seq<UserId>, groupId: ChatId, m: Message): (r: seq<Emit>)
    ensures |r| <= |members|
    ensures forall e :: e in r ==> e.event == "newGroupMessage" && e.payload == GroupMsg(groupId, m) && e.target.ToRoom?
    decreases |members|
  {
    if |members| == 0 then []
    else FanOutOne(presence, members[0], groupId, m) + FanOut(presence, members[1..], groupId, m)
  }

  /** The fan-out reaches exactly the sockets of the online participants. */
  lemma {:induction false} FanOutReachesOnlineMembers(presence: Presence, members: seq<UserId>, groupId: ChatId, m: Message, s: SocketId)
    ensures Emit(ToRoom(s), "newGroupMessage", GroupMsg(groupId, m)) in FanOut(presence, members, groupId, m)
        <==> exists u :: u in members && SocketOf(presence, u) == Some(s)
    decreases |members|
  {
    if |members| > 0 {
      FanOutReachesOnlineMembers(presence, members[1..], groupId, m, s);
      if exists u :: u in members && SocketOf(presence, u) == Some(s) {
        var u :| u in members && SocketOf(presence, u) == Some(s);
        if u != members[0] {
          assert u in members[1..];
        }
      }
      if exists u :: u in members[1..] && SocketOf(presence, u) == Some(s) {
        var u :| u in members[1..] && SocketOf(presence, u) == Some(s);
        assert u in members;
      }
    }
  }

  /** Fanning out to a concatenated participant list is the concatenation of the fan-outs. */
  lemma {:induction false} FanOutAppend(presence: Presence, xs: seq<UserId>, ys: seq<UserId>, groupId: ChatId, m: Message)
    ensures FanOut(presence, xs + ys, groupId, m) == FanOut(presence, xs, groupId, m) + FanOut(presence, ys, groupId, m)
    decreases |xs|
  {
    if |xs| > 0 {
      assert (xs + ys)[0] == xs[0];
      assert (xs + ys)[1..] == xs[1..] + ys;
      FanOutAppend(presence, xs[1..], ys, groupId, m);
      calc {
        FanOut(presence, xs + ys, groupId, m);
        FanOutOne(presence, xs[0], groupId, m) + FanOut(presence, xs[1..] + ys, groupId, m);
        FanOutOne(presence, xs[0], groupId, m) + (FanOut(presence, xs[1..], groupId, m) + FanOut(presence, ys, groupId, m));
      }
    } else {
      assert xs + ys == ys;
    }
  }

  /** A participant listed twice is sent the message twice. */
  lemma DuplicateParticipantGetsTwo(presence: Presence, u: UserId, groupId: ChatId, m: Message)
    requires SocketOf(presence, u).Some?
    ensures var e := Emit(ToRoom(SocketOf(presence, u).value), "newGroupMessage", GroupMsg(groupId, m));
      FanOut(presence, [u, u], groupId, m) == [e, e]
  {
    FanOutAppend(presence, [u], [u], groupId, m);
  }

  /**
   * `groupMessage`: find the chat by id (a missing chat ends the handler
   * silently), persist, then fan out to the participants' sockets.
   */
  function GroupMessage(st: State, env: Env, senderId: UserId, groupId: ChatId, text: Option<string>, media: seq<MediaInput>): (r: Step)
    ensures r.state.presence == st.presence && r.state.io == st.io && r.state.chats == st.chats
    ensures ChatStore.FindById(st.chats, groupId).None? ==> r == Step(st, [], None)
    ensures r.error.Some? ==> r.state == st && r.emits == []
    ensures ChatStore.FindById(st.chats, groupId).Some? ==>
      (r.error.None? <==> env.fault.None? && forall i :: 0 <= i < |media| ==> MediaValid(media[i]))
    ensures ChatStore.FindById(st.chats, groupId).Some? && r.error.None? ==>
      && |r.state.messages| == |st.messages| + 1
      && r.state.messages[..|st.messages|] == st.messages
      && var m := r.state.messages[|st.messages|];
      && m.chat == groupId && m.sender == senderId
      && m.text == text.GetOr("") && CastMediaList(media) == Ok(m.media) && m.seenBy == []
      && r.emits == FanOut(st.presence, st.chats[ChatStore.FindById(st.chats, groupId).value].participants, groupId, m)
  {
    match ChatStore.FindById(st.chats, groupId)
    case None => Step(st, [], None)
    case Some(i) =>
      if env.fault.Some? then Step(st, [], Some(StoreFault(env.fault.value)))
      else match MessageStore.Persist(st.messages, groupId, senderId, text, media, env.freshMessageId, env.now)
        case Err(e) => Step(st, [], Some(Invalid(e)))
        case Ok((messages, m)) =>
          Step(st.(messages := messages), FanOut(st.presence, st.chats[i].participants, groupId, m), None)
  }

  /**
   * `markMessageSeen`: the `$addToSet` runs first; `chatId.toString()` is
   * evaluated afterwards, so a missing chat id is logged after `seenBy`
   * was already updated, and nothing is broadcast.
   */
  function MarkMessageSeen(st: State, env: Env, messageId: MessageId, chatId: Val, userId: UserId): (r: Step)
    ensures r.state.presence == st.presence && r.state.io == st.io && r.state.chats == st.chats
    ensures env.fault.Some? ==> r == Step(st, [], Some(StoreFault(env.fault.value)))
    ensures env.fault.None? ==>
      && |r.state.messages| == |st.messages|
      && (forall i :: 0 <= i < |st.messages| ==> r.state.messages[i].(seenBy := st.messages[i].seenBy) == st.messages[i])
      && (forall i :: 0 <= i < |st.messages| ==> MessageStore.Extends(st.messages[i].seenBy, r.state.messages[i].seenBy))
      && (forall i :: 0 <= i < |st.messages| && st.messages[i].id == messageId ==>
            userId in r.state.messages[i].seenBy || exists j :: 0 <= j < i && st.messages[j].id == messageId)
      && (forall i :: 0 <= i < |st.messages| && MessageStore.FindMessage(st.messages, messageId) == Some(i) ==>
            r.state.messages[i].seenBy == MessageStore.AddToSet(st.messages[i].seenBy, userId))
      && (forall i :: 0 <= i < |st.messages| && MessageStore.FindMessage(st.messages, messageId) != Some(i) ==>
            r.state.messages[i] == st.messages[i])
      && (Nullish(chatId) <==> r.error == Some(NullToString))
      && (Nullish(chatId) ==> r.emits == [])
      && (!Nullish(chatId) ==> r.emits == [Emit(ToRoom(ToStr(chatId)), "messageSeenUpdate", SeenInfo(messageId, userId))])
  {
    if env.fault.Some? then Step(st, [], Some(StoreFault(env.fault.value)))
    else
      var st1 := st.(messages := MessageStore.MarkSeen(st.messages, messageId, userId));
      if Nullish(chatId) then Step(st1, [], Some(NullToString))
      else Step(st1, [Emit(ToRoom(ToStr(chatId)), "messageSeenUpdate", SeenInfo(messageId, userId))], None)
  }

  /** Repeating a seen mark leaves the messages as they were and, with a chat id, broadcasts again. */
  lemma SeenRepeatKeepsMessages(st: State, env: Env, messageId: MessageId, chatId: Val, userId: UserId)
    requires env.fault.None?
    ensures var once := MarkMessageSeen(st, env, messageId, chatId, userId);
      var twice := MarkMessageSeen(once.state, env, messageId, chatId, userId);
      twice.state == once.state && twice.emits == once.emits
  {
    MessageStore.MarkSeenIdempotent(st.messages, messageId, userId);
  }

  /** `disconnect`: delete the first `onlineUsers` entry bound to this socket id. */
  function OnDisconnect(st: State, sid: SocketId): (r: Step)
    ensures sid !in r.state.io.connected
    ensures forall room :: Members(r.state.io, room) == Members(st.io, room) - {sid}
    ensures r.state.presence == OrderedMap.RemoveFirstByValue(st.presence, sid).0
    ensures OrderedMap.UniqueKeys(st.presence) ==>
      var removed := OrderedMap.RemoveFirstByValue(st.presence, sid).1;
      && OrderedMap.UniqueKeys(r.state.presence)
      && (removed.Some? ==> OrderedMap.Get(st.presence, removed.value) == Some(sid)
                            && OrderedMap.Get(r.state.presence, removed.value).None?)
      && forall k {:trigger OrderedMap.Get(r.state.presence, k)} ::
           (removed.None? || k != removed.value) ==> OrderedMap.Get(r.state.presence, k) == OrderedMap.Get(st.presence, k)
    ensures r.state.chats == st.chats && r.state.messages == st.messages && r.emits == [] && r.error.None?
  {
    var (presence, removed) := OrderedMap.RemoveFirstByValue(st.presence, sid);
    assert OrderedMap.UniqueKeys(st.presence) ==>
      && OrderedMap.UniqueKeys(presence)
      && (removed.Some? ==> OrderedMap.Get(st.presence, removed.value) == Some(sid) && OrderedMap.Get(presence, removed.value).None?)
      && forall k {:trigger OrderedMap.Get(presence, k)} ::
           (removed.None? || k != removed.value) ==> OrderedMap.Get(presence, k) == OrderedMap.Get(st.presence, k)
    by {
      if OrderedMap.UniqueKeys(st.presence) {
        OrderedMap.RemoveFirstByValueDropsOnlyThatKey(st.presence, sid);
      }
    }
    Step(st.(presence := presence, io := Disconnect(st.io, sid)), [], None)
  }

  /**
   * A socket that registered two user ids keeps the second binding after it
   * disconnects: only the first entry for the socket is deleted.
   */
  lemma DisconnectKeepsSecondRegistration(st: State, sid: SocketId, u1: Val, u2: Val)
    requires u1 != u2
    requires OrderedMap.UniqueKeys(st.presence)
    requires u1 !in OrderedMap.Keys(st.presence) && u2 !in OrderedMap.Keys(st.presence)
    requires forall j :: 0 <= j < |st.presence| ==> st.presence[j].1 != sid
    ensures var s1 := RegisterUser(st, sid, u1).state;
      var s2 := RegisterUser(s1, sid, u2).state;
      var s3 := OnDisconnect(s2, sid).state;
      OrderedMap.Get(s3.presence, u1).None? && OrderedMap.Get(s3.presence, u2) == Some(sid)
  {
    var p1 := OrderedMap.Set(st.presence, u1, sid);
    assert p1 == st.presence + [(u1, sid)];
    assert u2 !in OrderedMap.Keys(p1);
    var p2 := OrderedMap.Set(p1, u2, sid);
    assert p2 == st.presence + [(u1, sid), (u2, sid)];
    OrderedMap.RemoveFirstOfTwoAppended(st.presence, u1, u2, sid);
    assert OrderedMap.RemoveFirstByValue(p2, sid).0 == OrderedMap.Set(st.presence, u2, sid);
  }

  /** The events the dispatcher listens to. */
  datatype Event =
    | Registered(userId: Val)                                                                     // registerUser
    | Joined(chatId: Val)                                                                         // joinChat
    | Left(chatId: Val)                                                                           // leaveChat
    | SentPrivate(senderId: UserId, receiverId: UserId, text: Option<string>, media: seq<MediaInput>) // privateMessage
    | SentGroup(sender: UserId, groupId: ChatId, groupText: Option<string>, groupMedia: seq<MediaInput>) // groupMessage
    | SawMessage(messageId: MessageId, seenChatId: Val, viewer: UserId)                           // markMessageSeen
    | Closed                                                                                      // disconnect

  function Handle(st: State, env: Env, sid: SocketId, ev: Event): Step {
    match ev
    case Registered(u) => RegisterUser(st, sid, u)
    case Joined(c) => JoinChat(st, sid, c)
    case Left(c) => LeaveChat(st, sid, c)
    case SentPrivate(a, b, t, media) => PrivateMessage(st, env, a, b, t, media)
    case SentGroup(a, g, t, media) => GroupMessage(st, env, a, g, t, media)
    case SawMessage(mid, c, u) => MarkMessageSeen(st, env, mid, c, u)
    case Closed => OnDisconnect(st, sid)
  }

  ghost predicate Valid(st: State) {
    && OrderedMap.UniqueKeys(st.presence)
    && Sockets.Valid(st.io)
    && ChatStore.UniqueIds(st.chats)
    && ChatStore.PairsUnique(st.chats)
    && MessageStore.UniqueIds(st.messages)
  }

  predicate FreshFor(st: State, env: Env) {
    ChatStore.FreshChatId(st.chats, env.freshChatId) && MessageStore.FreshId(st.messages, env.freshMessageId)
  }

  lemma HandlePreservesValid(st: State, env: Env, sid: SocketId, ev: Event)
    requires Valid(st) && FreshFor(st, env)
    requires sid in st.io.connected
    ensures Valid(Handle(st, env, sid, ev).state)
  {
    match ev
    case SentPrivate(a, b, t, media) => PrivatePreservesValid(st, env, a, b, t, media);
    case SentGroup(a, g, t, media) => GroupPreservesValid(st, env, a, g, t, media);
    case SawMessage(mid, c, u) => SeenPreservesValid(st, env, mid, c, u);
    case _ =>
  }

  lemma PrivatePreservesValid(st: State, env: Env, a: UserId, b: UserId, t: Option<string>, media: seq<MediaInput>)
    requires Valid(st) && FreshFor(st, env)
    ensures Valid(PrivateMessage(st, env, a, b, t, media).state)
  {
    ChatStore.FindOrCreateKeepsPairsUnique(st.chats, a, b, env.freshChatId, env.now);
  }

  lemma GroupPreservesValid(st: State, env: Env, a: UserId, g: ChatId, t: Option<string>, media: seq<MediaInput>)
    requires Valid(st) && FreshFor(st, env)
    ensures Valid(GroupMessage(st, env, a, g, t, media).state)
  {
  }

  lemma SeenPreservesValid(st: State, env: Env, mid: MessageId, c: Val, u: UserId)
    requires Valid(st)
    ensures Valid(MarkMessageSeen(st, env, mid, c, u).state)
  {
    if env.fault.None? {
      var ms := MarkMessageSeen(st, env, mid, c, u).state.messages;
      assert forall i :: 0 <= i < |ms| ==> ms[i].id == st.messages[i].id;
    }
  }
}

=== FILE: errors.dfy ===
/**
 * Operational errors (`utils/AppError.js`) and the global Express error
 * handler (`controllers/errorController.js`).
 */
module Errors {
  import opened Wrappers
  import opened Js

  /** An `AppError`: message, status code, derived status, operational flag. */
  datatype AppError = AppError(message: string, statusCode: int, status: string, isOperational: bool)

  /** `new AppError(message, statusCode)`: "fail" when the code's decimal form starts with 4. */
  function NewAppError(message: string, statusCode: int): (e: AppError)
    ensures e.message == message && e.statusCode == statusCode && e.isOperational
    ensures e.status == "fail" || e.status == "error"
    ensures e.status == "fail" <==> StartsWith(IntToDecimal(statusCode), "4")
  {
    AppError(message, statusCode, if StartsWith(IntToDecimal(statusCode), "4") then "fail" else "error", true)
  }

  lemma {:induction false} LeadingDigitOfHundreds(n: nat)
    requires 100 <= n < 1000
    ensures LeadingDigit(n) == n / 100
  {
    assert LeadingDigit(n) == LeadingDigit(n / 10);
    assert LeadingDigit(n / 10) == LeadingDigit(n / 10 / 10);
    assert n / 10 / 10 == n / 100;
  }

  lemma StatusFromLeadingDigit(message: string, code: nat)
    ensures NewAppError(message, code).status == (if LeadingDigit(code) == 4 then "fail" else "error")
  {
    DecimalStartsWithLeadingDigit(code);
    var s := IntToDecimal(code);
    assert s == NatToDecimal(code);
    assert StartsWith(s, "4") <==> s[0] == '4';
  }

  /** Every 4xx code is a client failure. */
  lemma ClientErrorsFail(message: string, code: int)
    requires 400 <= code < 500
    ensures NewAppError(message, code).status == "fail"
  {
    LeadingDigitOfHundreds(code);
    StatusFromLeadingDigit(message, code);
  }

  /** Every 5xx code is a server error. */
  lemma ServerErrorsAreErrors(message: string, code: int)
    requires 500 <= code < 600
    ensures NewAppError(message, code).status == "error"
  {
    LeadingDigitOfHundreds(code);
    StatusFromLeadingDigit(message, code);
  }

  /** The test is textual: a code such as 4000 also counts as a failure. */
  lemma TextualStatusTest(message: string)
    ensures NewAppError(message, 4000).status == "fail"
    ensures NewAppError(message, 40).status == "fail"
    ensures NewAppError(message, -400).status == "error"
  {
    StatusFromLeadingDigit(message, 4000);
    StatusFromLeadingDigit(message, 40);
  }

  /** Whatever reaches the global handler: an `AppError` or any other thrown error. */
  datatype Thrown = Thrown(message: string, statusCode: Option<int>, status: Option<string>, isOperational: bool)

  function FromAppError(e: AppError): Thrown {
    Thrown(e.message, Some(e.statusCode), Some(e.status), e.isOperational)
  }

  /** The JSON body: the development form carries the error itself, the production form does not. */
  datatype ErrorBody =
    | DevBody(status: string, message: string, error: Thrown)
    | ProdBody(status: string, message: string)

  datatype ErrorResponse = ErrorResponse(code: int, body: ErrorBody)

  const Generic := "Something went very wrong!"

  /** `err.statusCode || 500`: a missing or zero code becomes 500. */
  function CodeOrDefault(c: Option<int>): (r: int)
    ensures c.Some? && c.value != 0 ==> r == c.value
    ensures c.None? || c.value == 0 ==> r == 500
  {
    if c.Some? && c.value != 0 then c.value else 500
  }

  /** `err.status || "error"`: a missing or empty status becomes "error". */
  function StatusOrDefault(s: Option<string>): (r: string)
    ensures r != ""
    ensures s.Some? && s.value != "" ==> r == s.value
    ensures s.None? || s.value == "" ==> r == "error"
  {
    if s.Some? && s.value != "" then s.value else "error"
  }

  /**
   * The global handler. `nodeEnv` is `process.env.NODE_ENV`; only the exact
   * string "development" selects the detailed body. The stack is not modelled.
   */
  function HandleError(err: Thrown, nodeEnv: string): (r: ErrorResponse)
    ensures r.code != 0
    ensures err.statusCode.Some? && err.statusCode.value != 0 ==> r.code == err.statusCode.value
    ensures err.statusCode.None? || err.statusCode.value == 0 ==> r.code == 500
    ensures r.code == CodeOrDefault(err.statusCode) && r.body.status == StatusOrDefault(err.status)
    ensures r.body.status != ""
    ensures err.status.Some? && err.status.value != "" ==> r.body.status == err.status.value
    ensures err.status.None? || err.status.value == "" ==> r.body.status == "error"
    ensures r.body.DevBody? <==> nodeEnv == "development"
    ensures r.body.DevBody? ==> r.body.message == err.message && r.body.error.statusCode == Some(r.code)
    ensures r.body.ProdBody? ==> r.body.message == (if err.isOperational then err.message else Generic)
  {
    var err' := err.(statusCode := Some(CodeOrDefault(err.statusCode)), status := Some(StatusOrDefault(err.status)));
    var code := CodeOrDefault(err.statusCode);
    var status := StatusOrDefault(err.status);
    if nodeEnv == "development" then ErrorResponse(code, DevBody(status, err.message, err'))
    else ErrorResponse(code, ProdBody(status, if err.isOperational then err.message else Generic))
  }

  /** An `AppError` with a non-zero code reaches the client with its own code, status and message. */
  lemma AppErrorReachesClient(message: string, code: int, nodeEnv: string)
    requires code != 0
    ensures var e := NewAppError(message, code);
      var r := HandleError(FromAppError(e), nodeEnv);
      r.code == code && r.body.status == e.status && r.body.message == message
  {
  }

  /** In production a non-operational error's message is never shown. */
  lemma ProductionHidesInternalErrors(err: Thrown, nodeEnv: string)
    requires !err.isOperational && nodeEnv != "development"
    ensures HandleError(err, nodeEnv).body == ProdBody(StatusOrDefault(err.status), Generic)
  {
  }
}

=== FILE: events.dfy ===
/**
 * What a socket handler produces besides a new state: emissions (target,
 * event name, payload) and the value handed to the client's acknowledgement
 * callback. Shared by the modular handlers and the live dispatcher.
 */
module Events {
  import opened Wrappers
  import opened Js
  import opened Models
  import opened Sockets

  /** Payloads of server-to-client events. */
  datatype Payload =
    | OnlineBulk(users: seq<string>)                  // onlineUsersUpdate { type: "bulk", users }
    | OnlineRemove(userId: Val)                       // onlineUsersUpdate { type: "remove", userId }
    | ChatRef(chatId: Val)                            // joinedChat / leftChat
    | TypingInfo(chatId: Val, userId: Val)            // userTyping / userStoppedTyping
    | PrivateMsg(message: Message)                    // newPrivateMessage
    | GroupMsg(groupId: ChatId, message: Message)     // newGroupMessage { groupId, message }
    | DeliveredInfo(messageId: MessageId)             // messageDelivered { messageId }
    | SeenInfo(messageId: MessageId, viewer: UserId)  // messageSeenUpdate { messageId, userId }

  datatype Emit = Emit(target: Target, event: string, payload: Payload)

  /** Why a handler gave up. */
  datatype Failure =
    | StoreFault(reason: string)      // a store call rejected
    | Invalid(error: SchemaError)     // the new document broke the schema
    | GroupNotFound                   // no chat with the given group id
    | NullToString                    // `.toString()` called on null or undefined

  /** The `error` string of a failed acknowledgement, where the source fixes it. */
  function ErrorMessage(f: Failure): string {
    match f
    case StoreFault(reason) => reason
    case Invalid(_) => "Message validation failed"
    case GroupNotFound => "Group not found"
    case NullToString => "Cannot read properties of null"
  }

  /** Acknowledgement values: `{ok: true}`, `{ok: true, message}`, `{ok: false, error}`. */
  datatype Ack = AckOk | AckMessage(message: Message) | AckFailed(failure: Failure)

  /** What the environment decides during one handler run: fresh ids, the clock, a store fault. */
  datatype Env = Env(freshChatId: ChatId, freshMessageId: MessageId, now: nat, fault: Option<string>)

  /** The emissions in `emits` that reach socket `s`. */
  function DeliveredTo(io: Io, emits: seq<Emit>, s: SocketId): (r: seq<Emit>)
    ensures |r| <= |emits|
    ensures forall e :: e in r <==> e in emits && s in Recipients(io, e.target)
    decreases |emits|
  {
    if |emits| == 0 then []
    else
      var rest := DeliveredTo(io, emits[1..], s);
      assert emits == [emits[0]] + emits[1..];
      if s in Recipients(io, emits[0].target) then [emits[0]] + rest else rest
  }
}

=== FILE: file_upload.dfy ===
/** `utils/handleFileUpload.js`: upload every file, one after the other. */
module FileUpload {
  import opened Wrappers

  /**
   * `handleFileUpload(mediaFiles)`. `upload` stands for `uploadFile`, which
   * is not part of this model; a rejected upload rejects the whole call and
   * no later file is tried. `calls` counts the uploads started.
   */
  method HandleFileUpload<F, M>(files: Option<seq<F>>, upload: F -> Result<M, string>) returns (r: Result<seq<M>, string>, calls: nat)
    ensures files.None? || |files.value| == 0 ==> r == Ok([]) && calls == 0
    ensures files.Some? ==> calls <= |files.value|
    ensures r.Ok? <==> files.None? || forall i :: 0 <= i < |files.value| ==> upload(files.value[i]).Ok?
    ensures r.Ok? && files.Some? ==>
      && calls == |files.value|
      && |r.value| == |files.value|
      && forall i :: 0 <= i < |files.value| ==> upload(files.value[i]) == Ok(r.value[i])
    ensures r.Err? ==>
      && files.Some? && 0 < calls
      && upload(files.value[calls - 1]) == Err(r.error)
      && forall i :: 0 <= i < calls - 1 ==> upload(files.value[i]).Ok?
  {
    if files.None? || |files.value| == 0 {
      return Ok([]), 0;
    }
    var fs := files.value;
    var media: seq<M> := [];
    var i := 0;
    while i < |fs|
      invariant 0 <= i <= |fs|
      invariant |media| == i
      invariant forall j :: 0 <= j < i ==> upload(fs[j]) == Ok(media[j])
    {
      var uploaded := upload(fs[i]);
      if uploaded.Err? {
        return Err(uploaded.error), i + 1;
      }
      media := media + [uploaded.value];
      i := i + 1;
    }
    return Ok(media), |fs|;
  }
}

=== FILE: handlers.dfy ===
/**
 * The modular socket handlers in `socket/handlers/`, wired together by
 * `socket/socketServer.js`: each event is one atomic step from a state to a
 * new state, the emissions it makes and the acknowledgement it sends.
 */
module Handlers {
  import opened Wrappers
  import opened Js
  import opened Models
  import opened Sockets
  import opened Events
  import OnlineUsers
  import MessageStore
  import ChatStore

  /** The presence map, the socket rooms, and the two collections. */
  datatype State = State(presence: OnlineUsers.Presence, io: Io, chats: seq<Chat>, messages: seq<Message>)

  /** One handler run: new state, emissions in order, acknowledgement (if the handler acks). */
  datatype Step = Step(state: State, emits: seq<Emit>, ack: Option<Ack>)

  datatype PrivatePayload = PrivatePayload(senderId: UserId, receiverId: UserId, text: Option<string>, mediaFiles: seq<MediaInput>)
  datatype GroupPayload = GroupPayload(senderId: UserId, groupId: ChatId, text: Option<string>, mediaFiles: seq<MediaInput>)
  datatype SeenPayload = SeenPayload(messageId: MessageId, chatId: Val, userId: UserId)

  function BulkUpdate(presence: OnlineUsers.Presence): Emit {
    Emit(Everyone, "onlineUsersUpdate", OnlineBulk(OnlineUsers.GetAllOnlineUserIds(presence)))
  }

  // ---------------------------------------------------------------- registerHandler.js

  /** `registerUser`: bind the user to this socket, join the personal room, broadcast the list. */
  function RegisterUser(st: State, sid: SocketId, userId: Val): (r: Step)
    ensures !Truthy(userId) ==> r == Step(st, [], None)
    ensures Truthy(userId) ==>
      && OnlineUsers.GetSocketId(r.state.presence, userId) == Some(sid)
      && Members(r.state.io, ToStr(userId)) == Members(st.io, ToStr(userId)) + {sid}
      && r.emits == [Emit(Everyone, "onlineUsersUpdate", OnlineBulk(OnlineUsers.GetAllOnlineUserIds(r.state.presence)))]
      && (forall u :: u in r.emits[0].payload.users <==> OnlineUsers.GetSocketId(r.state.presence, Str(u)).Some?)
      && (forall room :: room != ToStr(userId) ==> Members(r.state.io, room) == Members(st.io, room))
    ensures forall u {:trigger OnlineUsers.GetSocketId(r.state.presence, u)} ::
      ToStr(u) != ToStr(userId) ==> OnlineUsers.GetSocketId(r.state.presence, u) == OnlineUsers.GetSocketId(st.presence, u)
    ensures r.state.chats == st.chats && r.state.messages == st.messages && r.ack.None?
  {
    if !Truthy(userId) then Step(st, [], None)
    else
      var presence := OnlineUsers.AddOnlineUser(st.presence, userId, sid);
      var io := Join(st.io, sid, ToStr(userId));
      Step(st.(presence := presence, io := io), [BulkUpdate(presence)], None)
  }

  // ---------------------------------------------------------------- statusHandler.js

  /** `userOnline`: join the personal room and broadcast the list; presence is untouched. */
  function UserOnline(st: State, sid: SocketId, userId: Val): (r: Step)
    ensures r.state.presence == st.presence && r.state.chats == st.chats && r.state.messages == st.messages
    ensures Members(r.state.io, ToStr(userId)) == Members(st.io, ToStr(userId)) + {sid}
    ensures forall room :: room != ToStr(userId) ==> Members(r.state.io, room) == Members(st.io, room)
    ensures r.emits == [Emit(Everyone, "onlineUsersUpdate", OnlineBulk(OnlineUsers.GetAllOnlineUserIds(st.presence)))]
    ensures forall u :: u in r.emits[0].payload.users <==> OnlineUsers.GetSocketId(st.presence, Str(u)).Some?
  {
    Step(st.(io := Join(st.io, sid, ToStr(userId))), [BulkUpdate(st.presence)], None)
  }

  /** `userOffline`: announce the removal; presence is untouched. */
  function UserOffline(st: State, userId: Val): (r: Step)
    ensures r.state == st
    ensures r.emits == [Emit(Everyone, "onlineUsersUpdate", OnlineRemove(userId))]
  {
    Step(st, [Emit(Everyone, "onlineUsersUpdate", OnlineRemove(userId))], None)
  }

  /**
   * `disconnect`: the socket has left every room; unbind the user bound to
   * it and announce that user's removal, if there was one.
   */
  function OnDisconnect(st: State, sid: SocketId): (r: Step)
    ensures sid !in r.state.io.connected
    ensures forall room :: Members(r.state.io, room) == Members(st.io, room) - {sid}
    ensures r.state.presence == OnlineUsers.RemoveOnlineUserBySocket(st.presence, sid).0
    ensures r.state.chats == st.chats && r.state.messages == st.messages
    ensures |r.emits| <= 1
    ensures OnlineUsers.Valid(st.presence) ==>
      (|r.emits| == 1 <==> exists i :: 0 <= i < |st.presence| && st.presence[i].1 == sid)
    ensures |r.emits| == 1 ==>
      var removed := OnlineUsers.RemoveOnlineUserBySocket(st.presence, sid).1;
      removed.Some? && r.emits[0] == Emit(Everyone, "onlineUsersUpdate", OnlineRemove(Str(removed.value)))
  {
    var io := Disconnect(st.io, sid);
    var (presence, removed) := OnlineUsers.RemoveOnlineUserBySocket(st.presence, sid);
    var emits := if removed.Some? && Truthy(Str(removed.value))
      then [Emit(Everyone, "onlineUsersUpdate", OnlineRemove(Str(removed.value)))]
      else [];
    assert OnlineUsers.Valid(st.presence) && removed.Some? ==> removed.value != "" by {
      if OnlineUsers.Valid(st.presence) && removed.Some? {
        OnlineUsers.RemoveUnbindsOnlyThatUser(st.presence, sid);
      }
    }
    Step(st.(presence := presence, io := io), emits, None)
  }

  // ---------------------------------------------------------------- joinHandler.js

  /** `joinChat`: join room `String(chatId)` and confirm to this socket only. */
  function JoinChat(st: State, sid: SocketId, chatId: Val): (r: Step)
    ensures !Truthy(chatId) ==> r == Step(st, [], None)
    ensures Truthy(chatId) ==>
      && Members(r.state.io, ToStr(chatId)) == Members(st.io, ToStr(chatId)) + {sid}
      && r.emits == [Emit(ToCaller(sid), "joinedChat", ChatRef(chatId))]
    ensures forall room :: room != ToStr(chatId) ==> Members(r.state.io, room) == Members(st.io, room)
    ensures r.state.presence == st.presence && r.state.chats == st.chats && r.state.messages == st.messages
  {
    if !Truthy(chatId) then Step(st, [], None)
    else Step(st.(io := Join(st.io, sid, ToStr(chatId))), [Emit(ToCaller(sid), "joinedChat", ChatRef(chatId))], None)
  }

  /** `leaveChat`: leave room `String(chatId)` and confirm to this socket only. */
  function LeaveChat(st: State, sid: SocketId, chatId: Val): (r: Step)
    ensures !Truthy(chatId) ==> r == Step(st, [], None)
    ensures Truthy(chatId) ==>
      && Members(r.state.io, ToStr(chatId)) == Members(st.io, ToStr(chatId)) - {sid}
      && r.emits == [Emit(ToCaller(sid), "leftChat", ChatRef(chatId))]
    ensures forall room :: room != ToStr(chatId) ==> Members(r.state.io, room) == Members(st.io, room)
    ensures r.state.presence == st.presence && r.state.chats == st.chats && r.state.messages == st.messages
  {
    if !Truthy(chatId) then Step(st, [], None)
    else Step(st.(io := Leave(st.io, sid, ToStr(chatId))), [Emit(ToCaller(sid), "leftChat", ChatRef(chatId))], None)
  }

  // ---------------------------------------------------------------- typingHandler.js

  /** Relay a typing signal to room `String(chatId)`, sender excluded; nothing is stored. */
  function RelayTyping(st: State, sid: SocketId, chatId: Val, userId: Val, event: string): (r: Step)
    ensures r.state == st && r.ack.None?
    ensures !Truthy(chatId) ==> r.emits == []
    ensures Truthy(chatId) ==>
      && |r.emits| == 1 && r.emits[0].event == event && r.emits[0].payload == TypingInfo(chatId, userId)
      && forall s :: s in Recipients(st.io, r.emits[0].target) <==> s in Members(st.io, ToStr(chatId)) && s != sid
  {
    if !Truthy(chatId) then Step(st, [], None)
    else Step(st, [Emit(ToRoomExcept(ToStr(chatId), sid), event, TypingInfo(chatId, userId))], None)
  }

  function Typing(st: State, sid: SocketId, chatId: Val, userId: Val): Step {
    RelayTyping(st, sid, chatId, userId, "userTyping")
  }

  function StopTyping(st: State, sid: SocketId, chatId: Val, userId: Val): Step {
    RelayTyping(st, sid, chatId, userId, "userStoppedTyping")
  }

  // ---------------------------------------------------------------- privateMessageHandler.js

  /** `getSocketId(receiverId)` is a (truthy) socket id. */
  predicate HasSocket(presence: OnlineUsers.Presence, userId: UserId) {
    var s := OnlineUsers.GetSocketId(presence, Str(userId));
    s.Some? && s.value != ""
  }

  /**
   * `privateMessage`: find or create the pair's private chat, persist the
   * message against it, send it to both personal rooms whatever the
   * presence, tell the sender it was delivered when the receiver has a
   * presence entry, and acknowledge. Any failure acks `{ok: false}` and
   * emits nothing; a chat created before the failure stays.
   */
  function PrivateMessage(st: State, env: Env, p: PrivatePayload): (r: Step)
    ensures r.state.presence == st.presence && r.state.io == st.io
    ensures ChatStore.FindPrivate(st.chats, p.senderId, p.receiverId).Some? ==> r.state.chats == st.chats
    ensures ChatStore.FindPrivate(st.chats, p.senderId, p.receiverId).None? ==>
      |r.state.chats| == |st.chats| + 1 && r.state.chats[..|st.chats|] == st.chats
      && r.state.chats[|st.chats|].kind == Private && r.state.chats[|st.chats|].participants == [p.senderId, p.receiverId]
    ensures r.ack.Some?
    ensures r.ack.value.AckFailed? ==> r.emits == [] && r.state.messages == st.messages
    ensures r.ack.value.AckFailed? <==> env.fault.Some? || exists i :: 0 <= i < |p.mediaFiles| && !MediaValid(p.mediaFiles[i])
    ensures r.ack.value.AckMessage? ==>
      var m := r.ack.value.message;
      && r.state.messages == st.messages + [m]
      && m.sender == p.senderId && m.id == env.freshMessageId
      && m.text == p.text.GetOr("") && CastMediaList(p.mediaFiles) == Ok(m.media) && m.seenBy == []
      && (exists i :: ChatStore.FindPrivate(r.state.chats, p.senderId, p.receiverId) == Some(i) && r.state.chats[i].id == m.chat)
      && |r.emits| >= 2
      && r.emits[0] == Emit(ToRoom(p.receiverId), "newPrivateMessage", PrivateMsg(m))
      && r.emits[1] == Emit(ToRoom(p.senderId), "newPrivateMessage", PrivateMsg(m))
      && r.emits[2..] == (if HasSocket(st.presence, p.receiverId)
                          then [Emit(ToRoom(p.senderId), "messageDelivered", DeliveredInfo(m.id))] else [])
    ensures !r.ack.value.AckOk?
  {
    var (chats, chat) := ChatStore.FindOrCreatePrivate(st.chats, p.senderId, p.receiverId, env.freshChatId, env.now);
    var st1 := st.(chats := chats);
    ResolvedChatIsFirstMatch(st.chats, p.senderId, p.receiverId, env.freshChatId, env.now);
    if env.fault.Some? then Step(st1, [], Some(AckFailed(StoreFault(env.fault.value))))
    else match MessageStore.Persist(st.messages, chat.id, p.senderId, p.text, p.mediaFiles, env.freshMessageId, env.now)
      case Err(e) => Step(st1, [], Some(AckFailed(Invalid(e))))
      case Ok((messages, m)) =>
        var delivered := if HasSocket(st.presence, p.receiverId)
          then [Emit(ToRoom(p.senderId), "messageDelivered", DeliveredInfo(m.id))] else [];
        var emits := [Emit(ToRoom(p.receiverId), "newPrivateMessage", PrivateMsg(m)),
                      Emit(ToRoom(p.senderId), "newPrivateMessage", PrivateMsg(m))] + delivered;
        Step(st1.(messages := messages), emits, Some(AckMessage(m)))
  }

  /** The chat find-or-create returns is the first pair match of the store it returns. */
  lemma ResolvedChatIsFirstMatch(chats: seq<Chat>, a: UserId, b: UserId, id: ChatId, now: nat)
    ensures var (chats1, c) := ChatStore.FindOrCreatePrivate(chats, a, b, id, now);
      exists i :: ChatStore.FindPrivate(chats1, a, b) == Some(i) && chats1[i] == c
  {
    var (chats1, c) := ChatStore.FindOrCreatePrivate(chats, a, b, id, now);
    if ChatStore.FindPrivate(chats, a, b).None? {
      assert chats1[|chats|] == c;
      assert ChatStore.FindPrivate(chats1, a, b) == Some(|chats|);
    }
  }

  // ---------------------------------------------------------------- groupMessageHandler.js

  /**
   * `groupMessage`: look the chat up by id (any type, and without checking
   * that the sender belongs to it), persist, send to room `String(groupId)`,
   * tell the sender it was delivered, and acknowledge.
   */
  function GroupMessage(st: State, env: Env, p: GroupPayload): (r: Step)
    ensures r.state.presence == st.presence && r.state.io == st.io && r.state.chats == st.chats
    ensures r.ack.Some? && !r.ack.value.AckOk?
    ensures ChatStore.FindById(st.chats, p.groupId).None? ==> r == Step(st, [], Some(AckFailed(GroupNotFound)))
    ensures r.ack.value.AckFailed? ==> r.emits == [] && r.state == st
    ensures r.ack.value.AckMessage? <==>
      && ChatStore.FindById(st.chats, p.groupId).Some? && env.fault.None?
      && forall i :: 0 <= i < |p.mediaFiles| ==> MediaValid(p.mediaFiles[i])
    ensures r.ack.value.AckMessage? ==>
      var m := r.ack.value.message;
      && r.state.messages == st.messages + [m]
      && m.chat == p.groupId && m.sender == p.senderId && m.id == env.freshMessageId
      && m.text == p.text.GetOr("") && CastMediaList(p.mediaFiles) == Ok(m.media) && m.seenBy == []
      && r.emits == [Emit(ToRoom(p.groupId), "newGroupMessage", GroupMsg(p.groupId, m)),
                     Emit(ToRoom(p.senderId), "messageDelivered", DeliveredInfo(m.id))]
  {
    if ChatStore.FindById(st.chats, p.groupId).None? then Step(st, [], Some(AckFailed(GroupNotFound)))
    else if env.fault.Some? then Step(st, [], Some(AckFailed(StoreFault(env.fault.value))))
    else match MessageStore.Persist(st.messages, p.groupId, p.senderId, p.text, p.mediaFiles, env.freshMessageId, env.now)
      case Err(e) => Step(st, [], Some(AckFailed(Invalid(e))))
      case Ok((messages, m)) =>
        Step(st.(messages := messages),
             [Emit(ToRoom(p.groupId), "newGroupMessage", GroupMsg(p.groupId, m)),
              Emit(ToRoom(p.senderId), "messageDelivered", DeliveredInfo(m.id))],
             Some(AckMessage(m)))
  }

  // ---------------------------------------------------------------- seenHandler.js

  /**
   * `markMessageSeen`: `$addToSet` the user on the message's `seenBy`, then
   * broadcast to room `String(chatId)`: on every successful call, repeated
   * or for an unknown message alike.
   */
  function MarkMessageSeen(st: State, env: Env, p: SeenPayload): (r: Step)
    ensures r.state.presence == st.presence && r.state.io == st.io && r.state.chats == st.chats
    ensures env.fault.Some? ==> r == Step(st, [], Some(AckFailed(StoreFault(env.fault.value))))
    ensures env.fault.None? ==>
      && r.ack == Some(AckOk)
      && r.emits == [Emit(ToRoom(ToStr(p.chatId)), "messageSeenUpdate", SeenInfo(p.messageId, p.userId))]
      && |r.state.messages| == |st.messages|
      && (forall i :: 0 <= i < |st.messages| ==> r.state.messages[i].(seenBy := st.messages[i].seenBy) == st.messages[i])
      && (forall i :: 0 <= i < |st.messages| ==> MessageStore.Extends(st.messages[i].seenBy, r.state.messages[i].seenBy))
      && (forall i :: 0 <= i < |st.messages| && st.messages[i].id == p.messageId ==>
            p.userId in r.state.messages[i].seenBy || exists j :: 0 <= j < i && st.messages[j].id == p.messageId)
      && (forall i :: 0 <= i < |st.messages| && MessageStore.FindMessage(st.messages, p.messageId) == Some(i) ==>
            r.state.messages[i].seenBy == MessageStore.AddToSet(st.messages[i].seenBy, p.userId))
      && (forall i :: 0 <= i < |st.messages| && MessageStore.FindMessage(st.messages, p.messageId) != Some(i) ==>
            r.state.messages[i] == st.messages[i])
  {
    if env.fault.Some? then Step(st, [], Some(AckFailed(StoreFault(env.fault.value))))
    else
      var messages := MessageStore.MarkSeen(st.messages, p.messageId, p.userId);
      Step(st.(messages := messages),
           [Emit(ToRoom(ToStr(p.chatId)), "messageSeenUpdate", SeenInfo(p.messageId, p.userId))],
           Some(AckOk))
  }

  /** Repeating a seen mark leaves `seenBy` as it was but broadcasts again. */
  lemma SeenRepeatBroadcastsAgain(st: State, env: Env, p: SeenPayload)
    requires env.fault.None?
    ensures var once := MarkMessageSeen(st, env, p);
      var twice := MarkMessageSeen(once.state, env, p);
      twice.state == once.state && twice.emits == once.emits && |twice.emits| == 1
  {
    MessageStore.MarkSeenIdempotent(st.messages, p.messageId, p.userId);
  }

  // ---------------------------------------------------------------- dispatch

  /** The events a client can send, and the implicit `disconnect`. */
  datatype Event =
    | Registered(userId: Val)                      // registerUser
    | WentOnline(userId: Val)                      // userOnline
    | WentOffline(userId: Val)                     // userOffline
    | Closed                                       // disconnect
    | Joined(chatId: Val)                          // joinChat
    | Left(chatId: Val)                            // leaveChat
    | StartedTyping(chatId: Val, typist: Val)      // typing
    | StoppedTyping(chatId: Val, typist: Val)      // stopTyping
    | SentPrivate(privatePayload: PrivatePayload)  // privateMessage
    | SentGroup(groupPayload: GroupPayload)        // groupMessage
    | SawMessage(seenPayload: SeenPayload)         // markMessageSeen

  /** The listener `socketServer.js` registers for the event, run on socket `sid`. */
  function Handle(st: State, env: Env, sid: SocketId, ev: Event): Step {
    match ev
    case Registered(u) => RegisterUser(st, sid, u)
    case WentOnline(u) => UserOnline(st, sid, u)
    case WentOffline(u) => UserOffline(st, u)
    case Closed => OnDisconnect(st, sid)
    case Joined(c) => JoinChat(st, sid, c)
    case Left(c) => LeaveChat(st, sid, c)
    case StartedTyping(c, u) => Typing(st, sid, c, u)
    case StoppedTyping(c, u) => StopTyping(st, sid, c, u)
    case SentPrivate(p) => PrivateMessage(st, env, p)
    case SentGroup(p) => GroupMessage(st, env, p)
    case SawMessage(p) => MarkMessageSeen(st, env, p)
  }

  /** The invariant every handler keeps (private pairs only under sequential handling). */
  ghost predicate Valid(st: State) {
    && OnlineUsers.Valid(st.presence)
    && Sockets.Valid(st.io)
    && ChatStore.UniqueIds(st.chats)
    && ChatStore.PairsUnique(st.chats)
    && MessageStore.UniqueIds(st.messages)
  }

  /** The environment hands out ids not yet used, as Mongo's ObjectIds are. */
  predicate FreshFor(st: State, env: Env) {
    ChatStore.FreshChatId(st.chats, env.freshChatId) && MessageStore.FreshId(st.messages, env.freshMessageId)
  }

  lemma HandlePreservesValid(st: State, env: Env, sid: SocketId, ev: Event)
    requires Valid(st) && FreshFor(st, env)
    requires sid in st.io.connected
    ensures Valid(Handle(st, env, sid, ev).state)
  {
    var r := Handle(st, env, sid, ev);
    match ev
    case Closed =>
      OnlineUsers.RemoveUnbindsOnlyThatUser(st.presence, sid);
    case SentPrivate(p) =>
      ChatStore.FindOrCreateKeepsPairsUnique(st.chats, p.senderId, p.receiverId, env.freshChatId, env.now);
      var (chats, _) := ChatStore.FindOrCreatePrivate(st.chats, p.senderId, p.receiverId, env.freshChatId, env.now);
      assert chats == r.state.chats;
    case SawMessage(p) =>
      if env.fault.None? {
        var ms := r.state.messages;
        assert forall i :: 0 <= i < |ms| ==> ms[i].id == st.messages[i].id;
      }
    case _ =>
  }

  /** No handler removes a message or an entry of its `seenBy`. */
  lemma HandleNeverForgetsSeen(st: State, env: Env, sid: SocketId, ev: Event)
    ensures var after := Handle(st, env, sid, ev).state.messages;
      && |st.messages| <= |after|
      && forall i :: 0 <= i < |st.messages| ==>
           after[i].id == st.messages[i].id && MessageStore.Extends(st.messages[i].seenBy, after[i].seenBy)
  {
    var after := Handle(st, env, sid, ev).state.messages;
    match ev
    case SentPrivate(p) =>
      assert after[..|st.messages|] == st.messages;
    case SentGroup(p) =>
      assert after[..|st.messages|] == st.messages;
    case SawMessage(p) =>
    case _ =>
  }

  /**
   * Two successive private sends between the same two users, in either
   * direction, land in the same chat; at most one chat is created.
   */
  lemma PrivateSendsShareChat(st: State, env1: Env, env2: Env, a: UserId, b: UserId, t1: Option<string>, t2: Option<string>)
    ensures var s1 := PrivateMessage(st, env1, PrivatePayload(a, b, t1, []));
      var s2 := PrivateMessage(s1.state, env2, PrivatePayload(b, a, t2, []));
      && s2.state.chats == s1.state.chats
      && |s1.state.chats| <= |st.chats| + 1
      && (s1.ack.value.AckMessage? && s2.ack.value.AckMessage? ==> s1.ack.value.message.chat == s2.ack.value.message.chat)
  {
    var s1 := PrivateMessage(st, env1, PrivatePayload(a, b, t1, []));
    ChatStore.ResolveTwiceSameChat(st.chats, a, b, env1.freshChatId, env2.freshChatId, env1.now, env2.now);
    ChatStore.FindPrivateSymmetric(s1.state.chats, a, b);
  }
}

=== FILE: js.dfy ===
/**
 * The few JavaScript value semantics the source relies on: truthiness,
 * `String(v)` conversion, `startsWith`, and decimal rendering of numbers.
 */
module Js {

  /** A JavaScript value as it arrives in an event payload or request body.
      Numbers are integers here; NaN, fractions and objects are not modelled. */
  datatype Val = Undefined | Null | Bool(b: bool) | Num(n: int) | Str(s: string)

  /** JavaScript truthiness (`if (v)`, `!v`, `v || d`). */
  predicate Truthy(v: Val) {
    match v
    case Undefined => false
    case Null => false
    case Bool(b) => b
    case Num(n) => n != 0
    case Str(s) => s != ""
  }

  /** `null` or `undefined`: the values on which `.toString()` throws. */
  predicate Nullish(v: Val) {
    v.Undefined? || v.Null?
  }

  function DigitChar(d: nat): (c: char)
    requires d < 10
    ensures '0' <= c <= '9'
  {
    "0123456789"[d]
  }

  predicate IsDigits(s: string) {
    forall i :: 0 <= i < |s| ==> '0' <= s[i] <= '9'
  }

  /** Decimal rendering of a natural number, most significant digit first. */
  function NatToDecimal(n: nat): (r: string)
    ensures |r| >= 1
    ensures IsDigits(r)
    ensures n >= 10 ==> |r| >= 2
    decreases n
  {
    if n < 10 then [DigitChar(n)] else NatToDecimal(n / 10) + [DigitChar(n % 10)]
  }

  /** `${n}` / `String(n)` for an integer. */
  function IntToDecimal(i: int): (r: string)
    ensures |r| >= 1
    ensures i >= 0 ==> IsDigits(r)
    ensures i < 0 ==> r[0] == '-'
  {
    if i < 0 then "-" + NatToDecimal(-i) else NatToDecimal(i)
  }

  /** The most significant decimal digit of `n`. */
  function LeadingDigit(n: nat): (d: nat)
    ensures d < 10
    ensures n > 0 ==> d > 0
    decreases n
  {
    if n < 10 then n else LeadingDigit(n / 10)
  }

  /** The first character of the rendering is the leading digit. */
  lemma {:induction false} DecimalStartsWithLeadingDigit(n: nat)
    ensures NatToDecimal(n)[0] == DigitChar(LeadingDigit(n))
    decreases n
  {
    if n >= 10 {
      DecimalStartsWithLeadingDigit(n / 10);
      assert NatToDecimal(n) == NatToDecimal(n / 10) + [DigitChar(n % 10)];
    }
  }

  /** JavaScript `String(v)`. */
  function ToStr(v: Val): (r: string)
    ensures v.Str? ==> r == v.s
    ensures v.Num? ==> r == IntToDecimal(v.n)
  {
    match v
    case Undefined => "undefined"
    case Null => "null"
    case Bool(b) => if b then "true" else "false"
    case Num(n) => IntToDecimal(n)
    case Str(s) => s
  }

  /** A truthy value never renders as the empty string. */
  lemma TruthyRendersNonEmpty(v: Val)
    requires Truthy(v)
    ensures ToStr(v) != ""
  {
  }

  /** `s.startsWith(prefix)`. */
  predicate StartsWith(s: string, prefix: string) {
    |prefix| <= |s| && s[..|prefix|] == prefix
  }
}

=== FILE: message_input.dfy ===
/**
 * `MessageInput.jsx`: the composer's text and attached files, the submit
 * guard shared by the form and its send button, and what `onSend` receives.
 */
module MessageInputForm {
  import opened Wrappers
  import opened Js
  import opened ClientTypes
  import ChatWindowHooks

  /** The characters `String.prototype.trim` removes: white space and line terminators. */
  predicate IsSpace(c: char) {
    || c == ' ' || c == '\t' || c == '\n' || c == '\r'
    || c == '\U{000B}' || c == '\U{000C}'
    || c == '\U{00A0}' || c == '\U{1680}'
    || ('\U{2000}' <= c <= '\U{200A}')
    || c == '\U{2028}' || c == '\U{2029}' || c == '\U{202F}' || c == '\U{205F}' || c == '\U{3000}'
    || c == '\U{FEFF}'
  }

  function TrimStart(s: string): (r: string)
    ensures |r| <= |s| && r == s[|s| - |r|..]
    ensures r == "" || !IsSpace(r[0])
    ensures forall i :: 0 <= i < |s| - |r| ==> IsSpace(s[i])
    decreases |s|
  {
    if |s| > 0 && IsSpace(s[0]) then TrimStart(s[1..]) else s
  }

  function TrimEnd(s: string): (r: string)
    ensures |r| <= |s| && r == s[..|r|]
    ensures r == "" || !IsSpace(r[|r| - 1])
    ensures forall i :: |r| <= i < |s| ==> IsSpace(s[i])
    decreases |s|
  {
    if |s| > 0 && IsSpace(s[|s| - 1]) then TrimEnd(s[..|s| - 1]) else s
  }

  /** Every character of `s` is white space. */
  predicate AllSpace(s: string) {
    forall k :: 0 <= k < |s| ==> IsSpace(s[k])
  }

  /** `s.trim()`: the slice of `s` left once the white space at both ends is gone. */
  function Trim(s: string): (r: string)
    ensures r == "" || (!IsSpace(r[0]) && !IsSpace(r[|r| - 1]))
    ensures exists i, j :: 0 <= i <= j <= |s| && r == s[i..j] && AllSpace(s[..i]) && AllSpace(s[j..])
  {
    var t := TrimStart(s);
    var r := TrimEnd(t);
    TrimSlice(s, t, r);
    r
  }

  /** The witnesses for `Trim`: the leading spaces end where `t` starts, and `r` is `t` less its trailing spaces. */
  lemma {:induction false} TrimSlice(s: string, t: string, r: string)
    requires t == TrimStart(s) && r == TrimEnd(t)
    ensures var i := |s| - |t|; r == s[i..i + |r|] && AllSpace(s[..i]) && AllSpace(s[i + |r|..])
  {
    var i := |s| - |t|;
    assert t == s[i..];
    assert r == t[..|r|];
    LeadingSpace(s);
    TrailingSpace(t);
    assert s[i + |r|..] == t[|r|..];
  }

  /** The characters `TrimStart` drops are all white space. */
  lemma LeadingSpace(s: string)
    ensures AllSpace(s[..|s| - |TrimStart(s)|])
  {
    var pre := s[..|s| - |TrimStart(s)|];
    forall k | 0 <= k < |pre| ensures IsSpace(pre[k]) {
      assert pre[k] == s[k];
    }
  }

  /** The characters `TrimEnd` drops are all white space. */
  lemma TrailingSpace(t: string)
    ensures AllSpace(t[|TrimEnd(t)|..])
  {
    var n := |TrimEnd(t)|;
    var suf := t[n..];
    forall k | 0 <= k < |suf| ensures IsSpace(suf[k]) {
      assert suf[k] == t[n + k];
    }
  }

  /** Trimming only removes white space: the result is empty exactly for all-space text. */
  lemma TrimEmptyIffAllSpace(s: string)
    ensures Trim(s) == "" <==> forall i :: 0 <= i < |s| ==> IsSpace(s[i])
  {
  }

  /** Trimming twice is trimming once. */
  lemma TrimIdempotent(s: string)
    ensures Trim(Trim(s)) == Trim(s)
  {
    var r := Trim(s);
    if r != "" {
      assert TrimStart(r) == r;
      assert TrimEnd(r) == r;
    }
  }

  /** The composer: its text field and the attached files. */
  datatype FormState<F> = FormState(text: string, files: seq<F>)

  /** `!text.trim() && files.length === 0`: the guard of the submit handler and the disabled send button. */
  predicate NothingToSend<F>(st: FormState<F>) {
    Trim(st.text) == "" && |st.files| == 0
  }

  /** What `onSend` is called with. */
  datatype Submission<F> = Submission(text: string, files: seq<F>)

  /**
   * `handleSubmit`: with nothing to send the form is untouched; otherwise
   * `onSend` gets the trimmed text and the files and the form is cleared.
   */
  function HandleSubmit<F>(st: FormState<F>): (r: (FormState<F>, Option<Submission<F>>))
    ensures NothingToSend(st) ==> r == (st, None)
    ensures !NothingToSend(st) ==>
      && r.0 == FormState("", [])
      && r.1 == Some(Submission(Trim(st.text), st.files))
      && (r.1.value.text != "" || |r.1.value.files| > 0)
  {
    if NothingToSend(st) then (st, None)
    else (FormState("", []), Some(Submission(Trim(st.text), st.files)))
  }

  /** The send button is disabled exactly when submitting would do nothing. */
  lemma SendDisabledIffSubmitIsNoOp<F>(st: FormState<F>)
    ensures NothingToSend(st) <==> HandleSubmit(st).1.None?
    ensures NothingToSend(st) ==> HandleSubmit(st).0 == st
  {
  }

  /** A second submit right after a send does nothing. */
  lemma SubmitTwiceSendsOnce<F>(st: FormState<F>)
    ensures HandleSubmit(HandleSubmit(st).0).1.None?
  {
  }

  /** `onKeyDown`: Enter without Shift submits; any other key leaves the form alone. */
  function KeyDown<F>(st: FormState<F>, key: string, shift: bool): (r: (FormState<F>, Option<Submission<F>>))
    ensures key == "Enter" && !shift ==> r == HandleSubmit(st)
    ensures !(key == "Enter" && !shift) ==> r == (st, None)
  {
    if key == "Enter" && !shift then HandleSubmit(st) else (st, None)
  }

  /** `handleFileChange`: a non-empty selection replaces the attachments; an empty one keeps them. */
  function HandleFileChange<F>(st: FormState<F>, selected: seq<F>): (r: FormState<F>)
    ensures r.text == st.text
    ensures |selected| > 0 ==> r.files == selected
    ensures |selected| == 0 ==> r == st
  {
    if |selected| > 0 then st.(files := selected) else st
  }

  /** The Cancel button drops the attachments and keeps the text. */
  function Cancel<F>(st: FormState<F>): (r: FormState<F>)
    ensures r.text == st.text && r.files == []
  {
    st.(files := [])
  }

  /** Attaching files always makes the form sendable; cancelling them leaves it sendable only with text. */
  lemma AttachThenCancel<F>(st: FormState<F>, selected: seq<F>)
    requires |selected| > 0
    ensures !NothingToSend(HandleFileChange(st, selected))
    ensures NothingToSend(Cancel(HandleFileChange(st, selected))) <==> Trim(st.text) == ""
  {
  }

  /** Whatever the form submits gets past the send routine's own guard. */
  lemma SubmissionPassesSendGuard(st: FormState<string>, chat: ClientChat)
    requires HandleSubmit(st).1.Some?
    ensures
      var s := HandleSubmit(st).1.value;
      ChatWindowHooks.SendGuardPasses(Some(chat), ChatWindowHooks.SendInput(Str(s.text), Some(s.files)))
  {
  }
}

=== FILE: message_store.dfy ===
/**
 * The message collection as the socket handlers use it: persisting a new
 * message (the step the handlers delegate to `sendMessageSocket`), looking
 * a message up by id, and `$addToSet` on its `seenBy` list.
 */
module MessageStore {
  import opened Wrappers
  import opened Models

  predicate UniqueIds(ms: seq<Message>) {
    forall i, j :: 0 <= i < j < |ms| ==> ms[i].id != ms[j].id
  }

  predicate FreshId(ms: seq<Message>, id: MessageId) {
    forall i :: 0 <= i < |ms| ==> ms[i].id != id
  }

  /** `Message.findById(id)`: the first message with that id. */
  function FindMessage(ms: seq<Message>, id: MessageId): (r: Option<nat>)
    ensures r.Some? ==> r.value < |ms| && ms[r.value].id == id && forall j :: 0 <= j < r.value ==> ms[j].id != id
    ensures r.None? <==> FreshId(ms, id)
    decreases |ms|
  {
    if |ms| == 0 then None
    else if ms[0].id == id then Some(0)
    else match FindMessage(ms[1..], id)
      case None => None
      case Some(i) => Some(i + 1)
  }

  /** Lookup depends on the ids only. */
  lemma FindMessageDependsOnIds(a: seq<Message>, b: seq<Message>, id: MessageId)
    requires |a| == |b|
    requires forall i :: 0 <= i < |a| ==> a[i].id == b[i].id
    ensures FindMessage(a, id) == FindMessage(b, id)
  {
    match FindMessage(a, id)
    case None =>
    case Some(i) =>
      assert !FreshId(b, id) by { assert b[i].id == id; }
      var j := FindMessage(b, id).value;
      assert !(j < i) && !(i < j);
  }

  /** Mongo's `$addToSet`: append the value unless it is already present. */
  function AddToSet(s: seq<UserId>, u: UserId): (r: seq<UserId>)
    ensures u in r
    ensures forall x :: x in r <==> x in s || x == u
    ensures |s| <= |r| && r[..|s|] == s
    ensures u in s ==> r == s
  {
    if u in s then s else s + [u]
  }

  /** `$addToSet` never introduces a duplicate. */
  lemma AddToSetKeepsDistinct(s: seq<UserId>, u: UserId)
    requires forall i, j :: 0 <= i < j < |s| ==> s[i] != s[j]
    ensures var r := AddToSet(s, u); forall i, j :: 0 <= i < j < |r| ==> r[i] != r[j]
  {
  }

  /** `s` is an initial segment of `t`: entries are kept in place, never removed. */
  predicate Extends(s: seq<UserId>, t: seq<UserId>) {
    |s| <= |t| && t[..|s|] == s
  }

  /**
   * `Message.findByIdAndUpdate(messageId, { $addToSet: { seenBy: userId } })`:
   * an unknown id updates nothing and is not an error.
   */
  function MarkSeen(ms: seq<Message>, messageId: MessageId, userId: UserId): (r: seq<Message>)
    ensures |r| == |ms|
    ensures FreshId(ms, messageId) ==> r == ms
    ensures forall i :: 0 <= i < |ms| ==> r[i].(seenBy := ms[i].seenBy) == ms[i]
    ensures forall i :: 0 <= i < |ms| ==> Extends(ms[i].seenBy, r[i].seenBy)
    ensures forall i :: 0 <= i < |ms| ==> (userId in r[i].seenBy <==> userId in ms[i].seenBy || FindMessage(ms, messageId) == Some(i))
    ensures forall i, x :: 0 <= i < |ms| && x != userId ==> (x in r[i].seenBy <==> x in ms[i].seenBy)
  {
    match FindMessage(ms, messageId)
    case None => ms
    case Some(k) => ms[k := ms[k].(seenBy := AddToSet(ms[k].seenBy, userId))]
  }

  /** Marking the same message seen by the same user twice changes nothing more. */
  lemma MarkSeenIdempotent(ms: seq<Message>, messageId: MessageId, userId: UserId)
    ensures MarkSeen(MarkSeen(ms, messageId, userId), messageId, userId) == MarkSeen(ms, messageId, userId)
  {
    var once := MarkSeen(ms, messageId, userId);
    FindMessageDependsOnIds(ms, once, messageId);
  }

  /**
   * The persistence step behind `sendMessageSocket({chatId, senderId, text,
   * mediaFiles})`: a schema-checked insert of a new message for that chat and
   * sender, appended to the collection.
   */
  function Persist(ms: seq<Message>, chat: ChatId, sender: UserId, text: Option<string>, media: seq<MediaInput>, id: MessageId, now: nat): (r: Result<(seq<Message>, Message), SchemaError>)
    ensures r.Ok? <==> forall i :: 0 <= i < |media| ==> MediaValid(media[i])
    ensures r.Ok? ==>
      && r.value.0 == ms + [r.value.1]
      && r.value.1.id == id && r.value.1.chat == chat && r.value.1.sender == sender
      && r.value.1.text == text.GetOr("") && CastMediaList(media) == Ok(r.value.1.media)
      && r.value.1.deliveredTo == [] && r.value.1.seenBy == []
    ensures r.Ok? && UniqueIds(ms) && FreshId(ms, id) ==> UniqueIds(r.value.0)
  {
    match CreateMessageDoc(Some(chat), Some(sender), text, media, id, now)
    case Err(e) => Err(e)
    case Ok(m) => Ok((ms + [m], m))
  }
}

=== FILE: models.dfy ===
/**
 * The persisted entities of `models/chatModel.js` and
 * `models/messageModel.js`, and what `Model.create` does with a raw
 * document: apply defaults, check required paths and enum values.
 */
module Models {
  import opened Wrappers

  type UserId = string
  type ChatId = string
  type MessageId = string

  datatype ChatKind = Private | Group

  /** A chat document. The schema declares no uniqueness of private pairs. */
  datatype Chat = Chat(
    id: ChatId,
    kind: ChatKind,
    participants: seq<UserId>,
    name: Option<string>,
    admin: Option<UserId>,
    lastMessage: Option<MessageId>,
    createdAt: nat,
    updatedAt: nat)

  datatype MediaKind = Image | Video | Audio | Document

  datatype Media = Media(url: string, kind: MediaKind, name: Option<string>, size: Option<int>)

  /** A message document; `deliveredTo` and `seenBy` are lists of user ids. */
  datatype Message = Message(
    id: MessageId,
    chat: ChatId,
    sender: UserId,
    text: string,
    media: seq<Media>,
    deliveredTo: seq<UserId>,
    seenBy: seq<UserId>,
    createdAt: nat)

  /** A chat document before validation; `None` entries are `undefined` references. */
  datatype ChatInput = ChatInput(kind: Option<string>, participants: seq<Option<UserId>>, name: Option<string>, admin: Option<UserId>)

  /** One media item before validation. */
  datatype MediaInput = MediaInput(url: Option<string>, kind: Option<string>, name: Option<string>, size: Option<int>)

  /** The first schema rule a document breaks. */
  datatype SchemaError = Required(path: string) | NotInEnum(path: string, value: string)

  function ChatKindName(k: ChatKind): string {
    match k
    case Private => "private"
    case Group => "group"
  }

  /** The `enum: ["private", "group"]` check. */
  function ParseChatKind(s: string): (r: Option<ChatKind>)
    ensures forall k :: r == Some(k) <==> s == ChatKindName(k)
  {
    if s == "private" then Some(Private) else if s == "group" then Some(Group) else None
  }

  function MediaKindName(k: MediaKind): string {
    match k
    case Image => "image"
    case Video => "video"
    case Audio => "audio"
    case Document => "document"
  }

  /** The `enum: ["image", "video", "audio", "document"]` check. */
  function ParseMediaKind(s: string): (r: Option<MediaKind>)
    ensures forall k :: r == Some(k) <==> s == MediaKindName(k)
  {
    if s == "image" then Some(Image)
    else if s == "video" then Some(Video)
    else if s == "audio" then Some(Audio)
    else if s == "document" then Some(Document)
    else None
  }

  /** Every participant reference is present (`required: true` on each entry). */
  predicate AllPresent(ps: seq<Option<UserId>>) {
    forall i :: 0 <= i < |ps| ==> ps[i].Some?
  }

  /** `Chat.create(doc)`: the type is required and must be one of the enum. */
  function CreateChatDoc(input: ChatInput, id: ChatId, now: nat): (r: Result<Chat, SchemaError>)
    ensures r.Ok? <==> input.kind.Some? && ParseChatKind(input.kind.value).Some? && AllPresent(input.participants)
    ensures r.Ok? ==>
      && r.value.id == id
      && ChatKindName(r.value.kind) == input.kind.value
      && |r.value.participants| == |input.participants|
      && (forall i :: 0 <= i < |input.participants| ==> input.participants[i] == Some(r.value.participants[i]))
      && r.value.name == input.name && r.value.admin == input.admin
      && r.value.lastMessage.None?
      && r.value.createdAt == now && r.value.updatedAt == now
  {
    if input.kind.None? then Err(Required("type"))
    else match ParseChatKind(input.kind.value)
      case None => Err(NotInEnum("type", input.kind.value))
      case Some(k) =>
        if !AllPresent(input.participants) then Err(Required("participants"))
        else
          var ps := seq(|input.participants|, i requires 0 <= i < |input.participants| => input.participants[i].value);
          Ok(Chat(id, k, ps, input.name, input.admin, None, now, now))
  }

  predicate MediaValid(m: MediaInput) {
    m.url.Some? && m.url.value != "" && m.kind.Some? && ParseMediaKind(m.kind.value).Some?
  }

  /**
   * Cast one media item: `url` and `type` are required (a required string
   * rejects ""), and `type` is an enum.
   */
  function CastMedia(m: MediaInput): (r: Result<Media, SchemaError>)
    ensures r.Ok? <==> MediaValid(m)
    ensures r.Ok? ==>
      && Some(r.value.url) == m.url && Some(MediaKindName(r.value.kind)) == m.kind
      && r.value.name == m.name && r.value.size == m.size
  {
    if m.url.None? || m.url.value == "" then Err(Required("media.url"))
    else if m.kind.None? then Err(Required("media.type"))
    else match ParseMediaKind(m.kind.value)
      case None => Err(NotInEnum("media.type", m.kind.value))
      case Some(k) => Ok(Media(m.url.value, k, m.name, m.size))
  }

  /** An empty url fails `required`, as a missing one does. */
  lemma EmptyUrlIsRequired(kind: string)
    ensures CastMedia(MediaInput(Some(""), Some(kind), None, None)) == Err(Required("media.url"))
  {
  }

  /** Cast a media list item by item; the first invalid item rejects the document. */
  function CastMediaList(ms: seq<MediaInput>): (r: Result<seq<Media>, SchemaError>)
    ensures r.Ok? <==> forall i :: 0 <= i < |ms| ==> MediaValid(ms[i])
    ensures r.Ok? ==> |r.value| == |ms| && forall i :: 0 <= i < |ms| ==> CastMedia(ms[i]) == Ok(r.value[i])
    decreases |ms|
  {
    if |ms| == 0 then Ok([])
    else match CastMedia(ms[0])
      case Err(e) => Err(e)
      case Ok(m) =>
        match CastMediaList(ms[1..])
        case Err(e) => Err(e)
        case Ok(rest) => Ok([m] + rest)
  }

  /**
   * `Message.create(doc)`: `chat` and `sender` are required, `text`
   * defaults to "", each media item is cast, and the delivery and seen
   * lists start empty. Nothing requires a non-empty text or any media.
   */
  function CreateMessageDoc(chat: Option<ChatId>, sender: Option<UserId>, text: Option<string>, media: seq<MediaInput>, id: MessageId, now: nat): (r: Result<Message, SchemaError>)
    ensures r.Ok? <==> chat.Some? && sender.Some? && forall i :: 0 <= i < |media| ==> MediaValid(media[i])
    ensures r.Ok? ==>
      && r.value.id == id && Some(r.value.chat) == chat && Some(r.value.sender) == sender
      && r.value.text == text.GetOr("")
      && CastMediaList(media) == Ok(r.value.media)
      && r.value.deliveredTo == [] && r.value.seenBy == []
      && r.value.createdAt == now
  {
    if chat.None? then Err(Required("chat"))
    else if sender.None? then Err(Required("sender"))
    else match CastMediaList(media)
      case Err(e) => Err(e)
      case Ok(ms) => Ok(Message(id, chat.value, sender.value, text.GetOr(""), ms, [], [], now))
  }

  /** A message with no text and no media passes the schema. */
  lemma EmptyMessageIsSchemaValid(chat: ChatId, sender: UserId, id: MessageId, now: nat)
    ensures CreateMessageDoc(Some(chat), Some(sender), None, [], id, now) == Ok(Message(id, chat, sender, "", [], [], [], now))
  {
  }
}

=== FILE: online_users.dfy ===
/**
 * The presence directory of `socket/utils/onlineUsers.js`: one socket per
 * user, keyed by `String(userId)`, in insertion order.
 */
module OnlineUsers {
  import opened Wrappers
  import opened Js
  import OrderedMap

  type SocketId = string

  /** `String(userId) -> socket id`, in the order the keys were first set. */
  type Presence = seq<(string, SocketId)>

  /** Keys are unique (it is a `Map`) and never empty (falsy ids are refused). */
  predicate Valid(p: Presence) {
    && OrderedMap.UniqueKeys(p)
    && forall i :: 0 <= i < |p| ==> p[i].0 != ""
  }

  /** `getSocketId(userId)`: `None` plays `undefined`, which is not an error. */
  function GetSocketId(p: Presence, userId: Val): (r: Option<SocketId>)
    ensures r.None? <==> ToStr(userId) !in OrderedMap.Keys(p)
  {
    OrderedMap.Get(p, ToStr(userId))
  }

  /** `addOnlineUser(userId, socketId)`. */
  function AddOnlineUser(p: Presence, userId: Val, socketId: SocketId): (r: Presence)
    ensures !Truthy(userId) ==> r == p
    ensures Truthy(userId) ==> GetSocketId(r, userId) == Some(socketId)
    ensures forall u {:trigger GetSocketId(r, u)} :: ToStr(u) != ToStr(userId) ==> GetSocketId(r, u) == GetSocketId(p, u)
    ensures Valid(p) ==> Valid(r)
  {
    if !Truthy(userId) then p
    else
      var r := OrderedMap.Set(p, ToStr(userId), socketId);
      assert Valid(p) ==> Valid(r) by {
        if Valid(p) {
          forall i | 0 <= i < |r| ensures r[i].0 != "" {
            assert OrderedMap.Keys(r)[i] == r[i].0;
            if ToStr(userId) !in OrderedMap.Keys(p) {
              assert i < |p| ==> OrderedMap.Keys(p)[i] == p[i].0;
            } else {
              assert OrderedMap.Keys(p)[i] == p[i].0;
            }
          }
        }
      }
      r
  }

  /**
   * `removeOnlineUserBySocket(socketId)`: deletes the first entry, in
   * insertion order, bound to `socketId` and returns its key; returns
   * `None` (`null`) and leaves the map alone when no entry is bound to it.
   */
  function RemoveOnlineUserBySocket(p: Presence, socketId: SocketId): (r: (Presence, Option<string>))
    ensures r.1.None? <==> forall i :: 0 <= i < |p| ==> p[i].1 != socketId
    ensures r.1.None? ==> r.0 == p
    ensures r.1.Some? ==> exists i: nat :: OrderedMap.FirstWithValue(p, socketId, i) && r.1.value == p[i].0 && r.0 == p[..i] + p[i + 1..]
  {
    OrderedMap.RemoveFirstByValue(p, socketId)
  }

  /** `getAllOnlineUserIds()`: the keys, in insertion order. */
  function GetAllOnlineUserIds(p: Presence): (r: seq<string>)
    ensures |r| == |p|
    ensures forall u :: u in r <==> GetSocketId(p, Str(u)).Some?
  {
    OrderedMap.Keys(p)
  }

  /** Each online user is listed exactly once. */
  lemma OnlineIdsDistinct(p: Presence)
    requires Valid(p)
    ensures forall i, j :: 0 <= i < j < |GetAllOnlineUserIds(p)| ==> GetAllOnlineUserIds(p)[i] != GetAllOnlineUserIds(p)[j]
  {
    OrderedMap.KeysDistinct(p);
  }

  /**
   * Removal by socket unbinds exactly the reported user: its lookup becomes
   * `undefined`, every other user keeps its socket, and the directory stays valid.
   */
  lemma RemoveUnbindsOnlyThatUser(p: Presence, socketId: SocketId)
    requires Valid(p)
    ensures var (r, removed) := RemoveOnlineUserBySocket(p, socketId);
      && Valid(r)
      && (removed.Some? ==> removed.value != "" && GetSocketId(p, Str(removed.value)) == Some(socketId) && GetSocketId(r, Str(removed.value)).None?)
      && forall u {:trigger GetSocketId(r, u)} :: (removed.None? || ToStr(u) != removed.value) ==> GetSocketId(r, u) == GetSocketId(p, u)
  {
    OrderedMap.RemoveFirstByValueDropsOnlyThatKey(p, socketId);
    RemoveKeepsKeysNonEmpty(p, socketId);
  }

  /** Removal keeps every remaining key non-empty, and the removed key was one of them. */
  lemma RemoveKeepsKeysNonEmpty(p: Presence, socketId: SocketId)
    requires Valid(p)
    ensures var (r, removed) := RemoveOnlineUserBySocket(p, socketId);
      && (forall j :: 0 <= j < |r| ==> r[j].0 != "")
      && (removed.Some? ==> removed.value != "")
  {
    var (r, removed) := RemoveOnlineUserBySocket(p, socketId);
    if removed.Some? {
      var i: nat :| OrderedMap.FirstWithValue(p, socketId, i) && removed.value == p[i].0 && r == p[..i] + p[i + 1..];
      forall j | 0 <= j < |r| ensures r[j].0 != "" {
        if j < i { assert r[j] == p[j]; } else { assert r[j] == p[j + 1]; }
      }
    }
  }

  /** Registering a user and then dropping its socket makes it unknown again. */
  lemma AddThenRemoveUnbinds(p: Presence, userId: Val, socketId: SocketId)
    requires Valid(p)
    requires Truthy(userId)
    requires forall i :: 0 <= i < |p| ==> p[i].1 != socketId
    ensures var (r, removed) := RemoveOnlineUserBySocket(AddOnlineUser(p, userId, socketId), socketId);
      removed == Some(ToStr(userId)) && GetSocketId(r, userId).None?
  {
    var q := AddOnlineUser(p, userId, socketId);
    RemoveUnbindsOnlyThatUser(q, socketId);
    var (r, removed) := RemoveOnlineUserBySocket(q, socketId);
    var i: nat :| OrderedMap.FirstWithValue(q, socketId, i) && removed.value == q[i].0;
    OrderedMap.GetFindsEntry(q, q[i].0, socketId);
  }
}

=== FILE: ordered_map.dfy ===
/**
 * An insertion-ordered dictionary: the entries of a JavaScript `Map` or of a
 * plain object, in the order `Map.prototype.entries()` / `Object.keys` visit
 * them. Setting an existing key overwrites its value in place; setting a new
 * key appends it.
 */
module OrderedMap {
  import opened Wrappers

  /** The keys in iteration order (`[...m.keys()]`, `Object.keys(o)`). */
  function Keys<K, V>(e: seq<(K, V)>): (r: seq<K>)
    ensures |r| == |e|
    ensures forall i :: 0 <= i < |e| ==> r[i] == e[i].0
  {
    seq(|e|, i requires 0 <= i < |e| => e[i].0)
  }

  /** No key occurs twice: what a `Map` or an object always satisfies. */
  predicate UniqueKeys<K(==), V>(e: seq<(K, V)>) {
    forall i, j :: 0 <= i < j < |e| ==> e[i].0 != e[j].0
  }

  /** Entry `i` is the first one with key `k`. */
  predicate FirstWithKey<K(==), V>(e: seq<(K, V)>, k: K, i: nat) {
    i < |e| && e[i].0 == k && forall j :: 0 <= j < i ==> e[j].0 != k
  }

  /** Entry `i` is the first one with value `v`. */
  predicate FirstWithValue<K, V(==)>(e: seq<(K, V)>, v: V, i: nat) {
    i < |e| && e[i].1 == v && forall j :: 0 <= j < i ==> e[j].1 != v
  }

  /** Position of the entry with key `k`, if any. */
  function IndexOf<K(==), V>(e: seq<(K, V)>, k: K): (r: Option<nat>)
    ensures r.Some? ==> FirstWithKey(e, k, r.value)
    ensures r.None? <==> k !in Keys(e)
    decreases |e|
  {
    if |e| == 0 then None
    else if e[0].0 == k then Some(0)
    else match IndexOf(e[1..], k)
      case None => None
      case Some(i) => Some(i + 1)
  }

  /** Position of the first entry whose value is `v`, if any. */
  function IndexOfValue<K, V(==)>(e: seq<(K, V)>, v: V): (r: Option<nat>)
    ensures r.Some? ==> FirstWithValue(e, v, r.value)
    ensures r.None? <==> forall j :: 0 <= j < |e| ==> e[j].1 != v
    decreases |e|
  {
    if |e| == 0 then None
    else if e[0].1 == v then Some(0)
    else match IndexOfValue(e[1..], v)
      case None => None
      case Some(i) => Some(i + 1)
  }

  /** The first occurrence of a key is unique, so `IndexOf` is determined by it. */
  lemma FirstWithKeyIsIndexOf<K, V>(e: seq<(K, V)>, k: K, i: nat)
    requires FirstWithKey(e, k, i)
    ensures IndexOf(e, k) == Some(i)
  {
    assert Keys(e)[i] == k;
  }

  /** Likewise the first occurrence of a value determines `IndexOfValue`. */
  lemma FirstWithValueIsIndexOfValue<K, V>(e: seq<(K, V)>, v: V, i: nat)
    requires FirstWithValue(e, v, i)
    ensures IndexOfValue(e, v) == Some(i)
  {
  }

  /** Two entries appended under the same fresh value: the first of them is the one removed. */
  lemma RemoveFirstOfTwoAppended<K, V>(e: seq<(K, V)>, a: K, b: K, v: V)
    requires forall j :: 0 <= j < |e| ==> e[j].1 != v
    ensures RemoveFirstByValue(e + [(a, v), (b, v)], v).0 == e + [(b, v)]
  {
    var f := e + [(a, v), (b, v)];
    var n := |e|;
    assert FirstWithValue(f, v, n) by {
      forall j | 0 <= j < n ensures f[j].1 != v {
        assert f[j] == e[j];
      }
    }
    FirstWithValueIsIndexOfValue(f, v, n);
    assert f[..n] == e;
    assert f[n + 1..] == [(b, v)];
  }

  /** `m.get(k)`: `None` plays `undefined`. */
  function Get<K(==), V>(e: seq<(K, V)>, k: K): (r: Option<V>)
    ensures r.Some? <==> k in Keys(e)
    ensures r.Some? ==> (k, r.value) in e
  {
    match IndexOf(e, k)
    case None => None
    case Some(i) => Some(e[i].1)
  }

  /** With unique keys, `Get` finds exactly the stored pair. */
  lemma GetFindsEntry<K, V>(e: seq<(K, V)>, k: K, v: V)
    requires UniqueKeys(e)
    ensures Get(e, k) == Some(v) <==> (k, v) in e
  {
    if (k, v) in e {
      var i :| 0 <= i < |e| && e[i] == (k, v);
      FirstWithKeyIsIndexOf(e, k, i);
    }
  }

  /** `m.set(k, v)` / `o[k] = v`. */
  function Set<K(==,!new), V>(e: seq<(K, V)>, k: K, v: V): (r: seq<(K, V)>)
    ensures Get(r, k) == Some(v)
    ensures forall k' {:trigger Get(r, k')} :: k' != k ==> Get(r, k') == Get(e, k')
    ensures Keys(r) == if k in Keys(e) then Keys(e) else Keys(e) + [k]
    ensures k !in Keys(e) ==> r == e + [(k, v)]
    ensures UniqueKeys(e) ==> UniqueKeys(r)
  {
    match IndexOf(e, k)
    case Some(i) =>
      OverwriteFacts(e, k, v, i);
      e[i := (k, v)]
    case None =>
      AppendFacts(e, k, v);
      e + [(k, v)]
  }

  lemma OverwriteFacts<K, V>(e: seq<(K, V)>, k: K, v: V, i: nat)
    requires FirstWithKey(e, k, i)
    ensures var r := e[i := (k, v)];
      && Keys(r) == Keys(e)
      && IndexOf(r, k) == Some(i)
      && forall k' {:trigger Get(r, k')} :: k' != k ==> Get(r, k') == Get(e, k')
  {
    var r := e[i := (k, v)];
    FirstWithKeyIsIndexOf(r, k, i);
    assert Keys(r) == Keys(e);
    forall k' | k' != k ensures Get(r, k') == Get(e, k') {
      SameKeysSameIndex(e, r, k');
    }
  }

  lemma AppendFacts<K, V>(e: seq<(K, V)>, k: K, v: V)
    requires k !in Keys(e)
    ensures var r := e + [(k, v)];
      && Keys(r) == Keys(e) + [k]
      && IndexOf(r, k) == Some(|e|)
      && forall k' {:trigger Get(r, k')} :: k' != k ==> Get(r, k') == Get(e, k')
  {
    var r := e + [(k, v)];
    FirstWithKeyIsIndexOf(r, k, |e|);
    assert Keys(r) == Keys(e) + [k];
    forall k' | k' != k ensures Get(r, k') == Get(e, k') {
      match IndexOf(e, k')
      case Some(j) => FirstWithKeyIsIndexOf(r, k', j);
      case None => assert k' !in Keys(r);
    }
  }

  /** `IndexOf` depends on the keys only. */
  lemma SameKeysSameIndex<K, V>(a: seq<(K, V)>, b: seq<(K, V)>, k: K)
    requires Keys(a) == Keys(b)
    ensures IndexOf(a, k) == IndexOf(b, k)
  {
    match IndexOf(a, k)
    case Some(i) =>
      assert forall j :: 0 <= j < |a| ==> a[j].0 == Keys(a)[j] == Keys(b)[j] == b[j].0;
      FirstWithKeyIsIndexOf(b, k, i);
    case None =>
  }

  /**
   * The loop of `removeOnlineUserBySocket` and of the dispatcher's
   * `disconnect` handler: delete the first entry whose value is `v` and
   * report its key; nothing is deleted when no entry has that value.
   */
  function RemoveFirstByValue<K, V(==)>(e: seq<(K, V)>, v: V): (r: (seq<(K, V)>, Option<K>))
    ensures r.1.None? <==> forall j :: 0 <= j < |e| ==> e[j].1 != v
    ensures r.1.None? ==> r.0 == e
    ensures r.1.Some? ==> exists i: nat :: FirstWithValue(e, v, i) && r.1.value == e[i].0 && r.0 == e[..i] + e[i + 1..]
    ensures |r.0| == if r.1.Some? then |e| - 1 else |e|
  {
    match IndexOfValue(e, v)
    case None => (e, None)
    case Some(i) => (e[..i] + e[i + 1..], Some(e[i].0))
  }

  /** Deleting one entry of a map with unique keys removes exactly its key. */
  lemma RemoveFirstByValueDropsOnlyThatKey<K, V>(e: seq<(K, V)>, v: V)
    requires UniqueKeys(e)
    ensures var (r, removed) := RemoveFirstByValue(e, v);
      && UniqueKeys(r)
      && (removed.Some? ==> Get(e, removed.value) == Some(v) && Get(r, removed.value).None?)
      && forall k {:trigger Get(r, k)} :: (removed.None? || k != removed.value) ==> Get(r, k) == Get(e, k)
  {
    var (r, removed) := RemoveFirstByValue(e, v);
    if removed.Some? {
      var i: nat :| FirstWithValue(e, v, i) && removed.value == e[i].0 && r == e[..i] + e[i + 1..];
      GetFindsEntry(e, e[i].0, v);
      DeleteAtFacts(e, i);
    }
  }

  /** Deleting entry `i` of a map with unique keys leaves every other key's value. */
  lemma DeleteAtFacts<K, V>(e: seq<(K, V)>, i: nat)
    requires UniqueKeys(e)
    requires i < |e|
    ensures var r := e[..i] + e[i + 1..];
      && UniqueKeys(r)
      && Get(r, e[i].0).None?
      && forall k {:trigger Get(r, k)} :: k != e[i].0 ==> Get(r, k) == Get(e, k)
  {
    var r := e[..i] + e[i + 1..];
    DeleteAtShifts(e, i);
    assert e[i].0 !in Keys(r);
    forall k | k != e[i].0 ensures Get(r, k) == Get(e, k) {
      DeleteAtKeeps(e, i, k);
    }
  }

  /** After deleting entry `i`, the entries before it stay put and the later ones move down by one. */
  lemma DeleteAtShifts<K, V>(e: seq<(K, V)>, i: nat)
    requires i < |e|
    ensures var r := e[..i] + e[i + 1..];
      |r| == |e| - 1 && forall j :: 0 <= j < |r| ==> r[j] == (if j < i then e[j] else e[j + 1])
  {
  }

  /** Deleting entry `i` leaves the value of any other key. */
  lemma DeleteAtKeeps<K, V>(e: seq<(K, V)>, i: nat, k: K)
    requires UniqueKeys(e)
    requires i < |e| && k != e[i].0
    ensures Get(e[..i] + e[i + 1..], k) == Get(e, k)
  {
    var r := e[..i] + e[i + 1..];
    DeleteAtShifts(e, i);
    match IndexOf(e, k)
    case Some(j) =>
      var j' := if j < i then j else j - 1;
      assert r[j'] == e[j];
      FirstWithKeyIsIndexOf(r, k, j');
    case None =>
      assert k !in Keys(r);
  }

  /** The key list of a map with unique keys has no repetition. */
  lemma KeysDistinct<K, V>(e: seq<(K, V)>)
    requires UniqueKeys(e)
    ensures forall i, j :: 0 <= i < j < |Keys(e)| ==> Keys(e)[i] != Keys(e)[j]
  {
  }
}

=== FILE: seen_observer.dfy ===
/**
 * `useMessageSeenObserver.js`: which message bubbles are watched, and the
 * `markMessageSeen` events emitted as they scroll into view. The DOM
 * attributes a bubble carries are those `ChatWindow2.jsx` renders.
 */
module SeenObserver {
  import opened Wrappers
  import opened Js
  import opened ClientTypes
  import ChatWindowView

  /** Position of the last ',' in `s`. */
  function LastComma(s: string): (k: nat)
    requires ',' in s
    ensures k < |s| && s[k] == ',' && ',' !in s[k + 1..]
    decreases |s|
  {
    if s[|s| - 1] == ',' then |s| - 1
    else
      assert ',' in s[..|s| - 1] by {
        var i :| 0 <= i < |s| && s[i] == ',';
        assert s[..|s| - 1][i] == ',';
      }
      var k := LastComma(s[..|s| - 1]);
      assert s[k + 1..] == s[..|s| - 1][k + 1..] + [s[|s| - 1]];
      k
  }

  /** `pieces.join(",")` over one or more pieces. */
  function JoinPieces(pieces: seq<string>): string
    requires |pieces| >= 1
    decreases |pieces|
  {
    if |pieces| == 1 then pieces[0]
    else JoinPieces(pieces[..|pieces| - 1]) + "," + pieces[|pieces| - 1]
  }

  /** `s.split(",")`: "" gives [""]; the pieces hold no comma and joining them with "," gives `s` back. */
  function Split(s: string): (r: seq<string>)
    ensures |r| >= 1
    ensures ',' !in s ==> r == [s]
    ensures forall piece :: piece in r ==> ',' !in piece
    ensures JoinPieces(r) == s
    decreases |s|
  {
    if ',' !in s then [s]
    else
      var k := LastComma(s);
      var init := Split(s[..k]);
      var r := init + [s[k + 1..]];
      assert r[..|r| - 1] == init;
      assert s == s[..k] + "," + s[k + 1..];
      r
  }

  /** The last comma of `a + "," + b` is the joining one when `b` has none. */
  lemma LastCommaOfJoin(a: string, b: string)
    requires ',' !in b
    ensures LastComma(a + "," + b) == |a|
  {
    var s := a + "," + b;
    var k := LastComma(s);
    assert s[|a|] == ',';
  }

  /** Splitting `a + "," + b` splits `a` and keeps `b` whole when `b` has no comma. */
  lemma SplitAppend(a: string, b: string)
    requires ',' !in b
    ensures Split(a + "," + b) == Split(a) + [b]
  {
    var s := a + "," + b;
    assert s[|a|] == ',';
    LastCommaOfJoin(a, b);
    assert s[..|a|] == a && s[|a| + 1..] == b;
  }

  /** Plain string ids with no comma and no empty entry. */
  predicate PlainIds(vs: seq<Val>) {
    forall v :: v in vs ==> v.Str? && ',' !in v.s
  }

  function Strs(vs: seq<Val>): (r: seq<string>)
    requires PlainIds(vs)
    ensures |r| == |vs| && forall i :: 0 <= i < |vs| ==> r[i] == vs[i].s
  {
    seq(|vs|, i requires 0 <= i < |vs| => vs[i].s)
  }

  /** Dropping the last id keeps the ids plain, and peels one piece off the joined string and the id list. */
  lemma PlainIdsSnoc(vs: seq<Val>)
    requires |vs| > 1 && PlainIds(vs)
    ensures PlainIds(vs[..|vs| - 1])
    ensures ChatWindowView.Join(vs) == ChatWindowView.Join(vs[..|vs| - 1]) + "," + vs[|vs| - 1].s
    ensures ',' !in vs[|vs| - 1].s
    ensures Strs(vs) == Strs(vs[..|vs| - 1]) + [vs[|vs| - 1].s]
  {
    var init := vs[..|vs| - 1];
    assert vs[|vs| - 1] in vs;
    forall v | v in init ensures v.Str? && ',' !in v.s {
      assert v in vs;
    }
    var lhs := Strs(vs);
    var rhs := Strs(init) + [vs[|vs| - 1].s];
    forall k | 0 <= k < |vs| ensures lhs[k] == rhs[k] {
      if k < |init| { assert init[k] == vs[k]; }
    }
  }

  /** Splitting the joined `data-seenby` gives the viewer ids back. */
  lemma {:induction false} SplitJoin(vs: seq<Val>)
    requires |vs| > 0 && PlainIds(vs)
    ensures Split(ChatWindowView.Join(vs)) == Strs(vs)
    decreases |vs|
  {
    if |vs| == 1 {
      assert vs[0] in vs;
      assert ChatWindowView.Join(vs) == vs[0].s;
    } else {
      var init := vs[..|vs| - 1];
      PlainIdsSnoc(vs);
      SplitAppend(ChatWindowView.Join(init), vs[|vs| - 1].s);
      SplitJoin(init);
    }
  }

  /** A message bubble's `data-id`, `data-seenby` and `data-issender` attributes. */
  datatype Bubble = Bubble(id: string, seenBy: string, isSender: string)

  /** The bubble the second window renders for a message. */
  function BubbleOf(m: ClientMessage): (r: Bubble)
    ensures r.seenBy == ChatWindowView.DataSeenBy(m)
    ensures r.isSender == "true" <==> m.isMine
  {
    Bubble(ToStr(m.id), ChatWindowView.DataSeenBy(m), if m.isMine then "true" else "false")
  }

  /** `seenBy.includes(currentUser._id)` over the split attribute. */
  predicate AlreadySeen(b: Bubble, me: Val) {
    me.Str? && me.s in Split(b.seenBy)
  }

  /** Not my own bubble and not yet seen by me. */
  predicate ShouldObserve(b: Bubble, me: Val) {
    b.isSender != "true" && !AlreadySeen(b, me)
  }

  /** A string id is among plain ids exactly when its text is among their texts. */
  lemma InStrsIff(vs: seq<Val>, me: Val)
    requires PlainIds(vs) && me.Str?
    ensures me in vs <==> me.s in Strs(vs)
  {
    if me in vs {
      var i :| 0 <= i < |vs| && vs[i] == me;
      assert Strs(vs)[i] == me.s;
    }
    if me.s in Strs(vs) {
      var i :| 0 <= i < |vs| && Strs(vs)[i] == me.s;
      assert vs[i] in vs;
    }
  }

  /** A rendered bubble is watched exactly when the message is someone else's and I am not among its viewers. */
  lemma ObservedIffUnseenIncoming(m: ClientMessage, me: Val)
    requires me.Str? && ',' !in me.s && me.s != ""
    requires m.seenBy.Some? ==> PlainIds(m.seenBy.value)
    ensures ShouldObserve(BubbleOf(m), me) <==> !m.isMine && !(m.seenBy.Some? && me in m.seenBy.value)
  {
    if m.seenBy.Some? && |m.seenBy.value| > 0 {
      SplitJoin(m.seenBy.value);
      InStrsIff(m.seenBy.value, me);
    }
  }

  /** One intersection record: which bubble, and whether it is in view. */
  datatype Entry = Entry(target: nat, isIntersecting: bool)

  /** A `markMessageSeen` payload, tagged with the bubble it came from. */
  datatype SeenEmit = SeenEmit(target: nat, messageId: string, chatId: Val, userId: Val)

  /** The bubbles watched when the effect runs; none without a chat, a user or messages. */
  function Setup(chat: Option<ClientChat>, user: Option<User>, messageCount: nat, bubbles: seq<Bubble>): (r: set<nat>)
    ensures chat.None? || user.None? || messageCount == 0 ==> r == {}
    ensures chat.Some? && user.Some? && messageCount > 0 ==>
      forall i :: i in r <==> 0 <= i < |bubbles| && ShouldObserve(bubbles[i], user.value.id)
  {
    if chat.None? || user.None? || messageCount == 0 then {}
    else set i | 0 <= i < |bubbles| && ShouldObserve(bubbles[i], user.value.id)
  }

  /** The entries of a batch whose bubbles are still watched when the browser delivers it. */
  function Delivered(observed: set<nat>, batch: seq<Entry>): (r: seq<Entry>)
    ensures forall e :: e in r <==> e in batch && e.target in observed
    ensures |r| <= |batch|
    ensures DistinctTargets(batch) ==> DistinctTargets(r)
    decreases |batch|
  {
    if |batch| == 0 then []
    else
      var rest := Delivered(observed, batch[1..]);
      assert forall e :: e in batch <==> e == batch[0] || e in batch[1..];
      if batch[0].target in observed then
        var r := [batch[0]] + rest;
        assert DistinctTargets(batch) ==> DistinctTargets(r) by {
          if DistinctTargets(batch) {
            assert DistinctTargets(batch[1..]);
            forall i, j | 0 <= i < j < |r| ensures r[i].target != r[j].target {
              if i == 0 {
                assert r[j] in batch[1..];
                var k :| 0 <= k < |batch[1..]| && batch[1..][k] == r[j];
                assert batch[k + 1] == r[j];
              }
            }
          }
        }
        r
      else rest
  }

  predicate DistinctTargets(es: seq<Entry>) {
    forall i, j :: 0 <= i < j < |es| ==> es[i].target != es[j].target
  }

  function EmitTargets(emits: seq<SeenEmit>): (r: seq<nat>)
    ensures |r| == |emits| && forall i :: 0 <= i < |emits| ==> r[i] == emits[i].target
  {
    seq(|emits|, i requires 0 <= i < |emits| => emits[i].target)
  }

  /**
   * The observer callback over one batch: each intersecting entry for a
   * bubble that is not mine and not yet seen emits the payload and stops
   * watching that bubble.
   */
  function OnEntries(bubbles: seq<Bubble>, observed: set<nat>, chatId: Val, me: Val, entries: seq<Entry>): (r: (set<nat>, seq<SeenEmit>))
    requires forall e :: e in entries ==> e.target < |bubbles|
    ensures r.0 <= observed
    ensures forall em :: em in r.1 ==>
      && em.target < |bubbles| && em.target !in r.0
      && Entry(em.target, true) in entries
      && ShouldObserve(bubbles[em.target], me)
      && em.messageId == bubbles[em.target].id && em.chatId == chatId && em.userId == me
    decreases |entries|
  {
    if |entries| == 0 then (observed, [])
    else
      var e := entries[0];
      assert forall x :: x in entries[1..] ==> x in entries;
      var b := bubbles[e.target];
      var fires := e.isIntersecting && ShouldObserve(b, me);
      var now := if fires then observed - {e.target} else observed;
      var out := if fires then [SeenEmit(e.target, b.id, chatId, me)] else [];
      var rest := OnEntries(bubbles, now, chatId, me, entries[1..]);
      (rest.0, out + rest.1)
  }

  /** The watched set and the emitted bubbles after a batch, given its first entry and the rest. */
  lemma OnEntriesUnfold(bubbles: seq<Bubble>, observed: set<nat>, chatId: Val, me: Val, entries: seq<Entry>)
    requires forall e :: e in entries ==> e.target < |bubbles|
    requires |entries| > 0
    ensures forall x :: x in entries <==> x == entries[0] || x in entries[1..]
    ensures var e := entries[0];
      var fires := e.isIntersecting && ShouldObserve(bubbles[e.target], me);
      var now := if fires then observed - {e.target} else observed;
      var rest := OnEntries(bubbles, now, chatId, me, entries[1..]);
      var r := OnEntries(bubbles, observed, chatId, me, entries);
      && r.0 == rest.0
      && EmitTargets(r.1) == (if fires then [e.target] else []) + EmitTargets(rest.1)
  {
    HeadOrTail(entries);
    var e := entries[0];
    var b := bubbles[e.target];
    var fires := e.isIntersecting && ShouldObserve(b, me);
    var now := if fires then observed - {e.target} else observed;
    var out := if fires then [SeenEmit(e.target, b.id, chatId, me)] else [];
    var rest := OnEntries(bubbles, now, chatId, me, entries[1..]);
    assert OnEntries(bubbles, observed, chatId, me, entries).1 == out + rest.1;
    assert EmitTargets(out) == if fires then [e.target] else [];
    EmitTargetsConcat(out, rest.1);
  }

  /** A non-empty batch holds its first entry and the entries of its tail, and nothing else. */
  lemma HeadOrTail(entries: seq<Entry>)
    requires |entries| > 0
    ensures forall x :: x in entries <==> x == entries[0] || x in entries[1..]
  {
    assert entries == [entries[0]] + entries[1..];
  }

  lemma EmitTargetsConcat(a: seq<SeenEmit>, b: seq<SeenEmit>)
    ensures EmitTargets(a + b) == EmitTargets(a) + EmitTargets(b)
  {
    var l := EmitTargets(a + b);
    var r := EmitTargets(a) + EmitTargets(b);
    forall i | 0 <= i < |l| ensures l[i] == r[i] {
      if i < |a| { assert (a + b)[i] == a[i]; } else { assert (a + b)[i] == b[i - |a|]; }
    }
  }

  /** The callback stops watching only the bubbles it emitted for. */
  lemma {:induction false} OnEntriesStopsOnlyEmitted(bubbles: seq<Bubble>, observed: set<nat>, chatId: Val, me: Val, entries: seq<Entry>)
    requires forall e :: e in entries ==> e.target < |bubbles|
    ensures var r := OnEntries(bubbles, observed, chatId, me, entries);
      forall x :: x in observed && x !in r.0 ==> x in EmitTargets(r.1)
    decreases |entries|
  {
    if |entries| > 0 {
      var e := entries[0];
      var fires := e.isIntersecting && ShouldObserve(bubbles[e.target], me);
      var now := if fires then observed - {e.target} else observed;
      OnEntriesUnfold(bubbles, observed, chatId, me, entries);
      OnEntriesStopsOnlyEmitted(bubbles, now, chatId, me, entries[1..]);
    }
  }

  /** The callback emits for every intersecting entry whose bubble is someone else's and unseen. */
  lemma {:induction false} OnEntriesComplete(bubbles: seq<Bubble>, observed: set<nat>, chatId: Val, me: Val, entries: seq<Entry>)
    requires forall e :: e in entries ==> e.target < |bubbles|
    ensures var r := OnEntries(bubbles, observed, chatId, me, entries);
      forall e :: e in entries && e.isIntersecting && ShouldObserve(bubbles[e.target], me) ==> e.target in EmitTargets(r.1)
    decreases |entries|
  {
    if |entries| > 0 {
      var e := entries[0];
      var fires := e.isIntersecting && ShouldObserve(bubbles[e.target], me);
      var now := if fires then observed - {e.target} else observed;
      OnEntriesUnfold(bubbles, observed, chatId, me, entries);
      OnEntriesComplete(bubbles, now, chatId, me, entries[1..]);
    }
  }

  /** In a batch that names each bubble once, later entries name other bubbles than the first. */
  lemma TailTargetsDiffer(entries: seq<Entry>)
    requires |entries| > 0 && DistinctTargets(entries)
    ensures forall x :: x in entries[1..] ==> x.target != entries[0].target
  {
    forall x | x in entries[1..] ensures x.target != entries[0].target {
      var j :| 0 <= j < |entries[1..]| && entries[1..][j] == x;
      assert entries[j + 1] == x;
    }
  }

  /** Within one batch that names each bubble once, each bubble is marked seen at most once. */
  lemma {:induction false} OnEntriesEmitsDistinct(bubbles: seq<Bubble>, observed: set<nat>, chatId: Val, me: Val, entries: seq<Entry>)
    requires forall e :: e in entries ==> e.target < |bubbles|
    requires DistinctTargets(entries)
    ensures Distinct(EmitTargets(OnEntries(bubbles, observed, chatId, me, entries).1))
    decreases |entries|
  {
    if |entries| > 0 {
      var e := entries[0];
      var fires := e.isIntersecting && ShouldObserve(bubbles[e.target], me);
      var now := if fires then observed - {e.target} else observed;
      OnEntriesUnfold(bubbles, observed, chatId, me, entries);
      var rest := OnEntries(bubbles, now, chatId, me, entries[1..]);
      assert DistinctTargets(entries[1..]);
      OnEntriesEmitsDistinct(bubbles, now, chatId, me, entries[1..]);
      TailTargetsDiffer(entries);
      forall k | 0 <= k < |rest.1| ensures EmitTargets(rest.1)[k] != e.target {
        assert rest.1[k] in rest.1;
      }
      DistinctConcat(if fires then [e.target] else [], EmitTargets(rest.1));
    }
  }

  /** A run of the observer over successive batches, starting from the watched set. */
  function Run(bubbles: seq<Bubble>, observed: set<nat>, chatId: Val, me: Val, batches: seq<seq<Entry>>): (r: seq<SeenEmit>)
    requires forall k, e :: 0 <= k < |batches| && e in batches[k] ==> e.target < |bubbles|
    ensures forall em :: em in r ==> em.target < |bubbles| && em.target in observed && ShouldObserve(bubbles[em.target], me) && em.userId == me && em.chatId == chatId
    decreases |batches|
  {
    if |batches| == 0 then []
    else
      var batch := Delivered(observed, batches[0]);
      var step := OnEntries(bubbles, observed, chatId, me, batch);
      var rest := Run(bubbles, step.0, chatId, me, batches[1..]);
      assert forall em :: em in step.1 ==> em.target in observed by {
        forall em | em in step.1 ensures em.target in observed {
          assert Entry(em.target, true) in batch;
        }
      }
      step.1 + rest
  }

  /** Two duplicate-free lists with no common element concatenate to a duplicate-free list. */
  lemma DistinctConcat(a: seq<nat>, b: seq<nat>)
    requires Distinct(a) && Distinct(b)
    requires forall x :: x in a ==> x !in b
    ensures Distinct(a + b)
  {
    var c := a + b;
    forall i, j | 0 <= i < j < |c| ensures c[i] != c[j] {
      if i < |a| && j >= |a| {
        assert c[i] in a && c[j] == b[j - |a|];
      } else if i >= |a| {
        assert c[i] == b[i - |a|] && c[j] == b[j - |a|];
      }
    }
  }

  /** When the browser reports each bubble at most once per batch, no bubble is marked seen twice. */
  lemma {:induction false} RunEmitsEachBubbleOnce(bubbles: seq<Bubble>, observed: set<nat>, chatId: Val, me: Val, batches: seq<seq<Entry>>)
    requires forall k, e :: 0 <= k < |batches| && e in batches[k] ==> e.target < |bubbles|
    requires forall k :: 0 <= k < |batches| ==> DistinctTargets(batches[k])
    ensures Distinct(EmitTargets(Run(bubbles, observed, chatId, me, batches)))
    decreases |batches|
  {
    if |batches| > 0 {
      var batch := Delivered(observed, batches[0]);
      var step := OnEntries(bubbles, observed, chatId, me, batch);
      var rest := Run(bubbles, step.0, chatId, me, batches[1..]);
      var r := step.1 + rest;
      assert r == Run(bubbles, observed, chatId, me, batches);
      assert DistinctTargets(batches[0]);
      OnEntriesEmitsDistinct(bubbles, observed, chatId, me, batch);
      RunEmitsEachBubbleOnce(bubbles, step.0, chatId, me, batches[1..]);
      DisjointRunsDistinct(step.0, step.1, rest);
    }
  }

  /** Emits that left the watched set, followed by emits from what remained, name distinct bubbles. */
  lemma DisjointRunsDistinct(remaining: set<nat>, first: seq<SeenEmit>, rest: seq<SeenEmit>)
    requires Distinct(EmitTargets(first)) && Distinct(EmitTargets(rest))
    requires forall em :: em in first ==> em.target !in remaining
    requires forall em :: em in rest ==> em.target in remaining
    ensures Distinct(EmitTargets(first + rest))
  {
    EmitTargetsConcat(first, rest);
    forall j | 0 <= j < |rest| ensures EmitTargets(rest)[j] in remaining {
      assert rest[j] in rest;
    }
    forall i | 0 <= i < |first| ensures EmitTargets(first)[i] !in remaining {
      assert first[i] in first;
    }
    DistinctConcat(EmitTargets(first), EmitTargets(rest));
  }

  /** A bubble that is watched and scrolls into view emits once and is then left alone. */
  lemma VisibleBubbleEmitsOnce(bubbles: seq<Bubble>, observed: set<nat>, chatId: Val, me: Val, i: nat)
    requires i < |bubbles| && i in observed && ShouldObserve(bubbles[i], me)
    ensures Run(bubbles, observed, chatId, me, [[Entry(i, true)], [Entry(i, true)]]) == [SeenEmit(i, bubbles[i].id, chatId, me)]
  {
    var e := Entry(i, true);
    assert Delivered(observed, [e]) == [e];
    assert [e][1..] == [];
    assert OnEntries(bubbles, observed - {i}, chatId, me, []) == (observed - {i}, []);
    var emit := SeenEmit(i, bubbles[i].id, chatId, me);
    assert [emit] + [] == [emit];
    var first := OnEntries(bubbles, observed, chatId, me, [e]);
    assert first == (observed - {i}, [emit]);
    assert Delivered(first.0, [e]) == [];
    assert [[e], [e]][1..] == [[e]];
    assert Run(bubbles, first.0, chatId, me, [[e]]) == [];
  }

  /** Without the one-record-per-bubble guarantee, a batch naming a bubble twice emits twice. */
  lemma RepeatedEntryEmitsTwice(b: Bubble, chatId: Val, me: Val)
    requires ShouldObserve(b, me)
    ensures |OnEntries([b], {0}, chatId, me, [Entry(0, true), Entry(0, true)]).1| == 2
  {
    var e := Entry(0, true);
    assert [e, e][1..] == [e];
  }
}

=== FILE: sockets.dfy ===
/**
 * The part of socket.io the handlers rely on: connected sockets, named
 * rooms, and the recipients of `io.emit`, `io.to(room).emit`,
 * `socket.to(room).emit` and `socket.emit`. Every socket is placed in a
 * room named by its own id when it connects, which is what makes
 * `io.to(socketId)` reach a single socket. Empty rooms are deleted.
 */
module Sockets {

  type SocketId = string
  type Room = string

  datatype Io = Io(connected: set<SocketId>, rooms: map<Room, set<SocketId>>)

  /** Where an emission goes. */
  datatype Target =
    | Everyone                                    // io.emit
    | ToRoom(room: Room)                          // io.to(room).emit
    | ToRoomExcept(room: Room, except: SocketId)  // socket.to(room).emit: the room minus the sender
    | ToCaller(socket: SocketId)                  // socket.emit

  /** Rooms only hold connected sockets and are never empty. */
  predicate Valid(io: Io) {
    forall r :: r in io.rooms ==> io.rooms[r] != {} && io.rooms[r] <= io.connected
  }

  function Members(io: Io, room: Room): set<SocketId> {
    if room in io.rooms then io.rooms[room] else {}
  }

  /** The sockets an emission to `t` reaches. */
  function Recipients(io: Io, t: Target): (r: set<SocketId>)
    ensures Valid(io) && !t.ToCaller? ==> r <= io.connected
    ensures t.ToRoomExcept? ==> t.except !in r
  {
    match t
    case Everyone => io.connected
    case ToRoom(room) => Members(io, room)
    case ToRoomExcept(room, except) => Members(io, room) - {except}
    case ToCaller(s) => {s}
  }

  /** A new connection: the socket joins the room named by its id. */
  function Connect(io: Io, s: SocketId): (r: Io)
    ensures r.connected == io.connected + {s}
    ensures Members(r, s) == Members(io, s) + {s}
    ensures Valid(io) ==> Valid(r)
  {
    Io(io.connected + {s}, io.rooms[s := Members(io, s) + {s}])
  }

  /** `socket.join(room)`. */
  function Join(io: Io, s: SocketId, room: Room): (r: Io)
    ensures r.connected == io.connected
    ensures Members(r, room) == Members(io, room) + {s}
    ensures forall other :: other != room ==> Members(r, other) == Members(io, other)
    ensures Valid(io) && s in io.connected ==> Valid(r)
  {
    io.(rooms := io.rooms[room := Members(io, room) + {s}])
  }

  /** `socket.leave(room)`; the room disappears once empty. */
  function Leave(io: Io, s: SocketId, room: Room): (r: Io)
    ensures r.connected == io.connected
    ensures Members(r, room) == Members(io, room) - {s}
    ensures forall other :: other != room ==> Members(r, other) == Members(io, other)
    ensures Valid(io) ==> Valid(r)
  {
    var rest := Members(io, room) - {s};
    if rest == {} then io.(rooms := io.rooms - {room}) else io.(rooms := io.rooms[room := rest])
  }

  /** A closed connection leaves every room before its `disconnect` listeners run. */
  function Disconnect(io: Io, s: SocketId): (r: Io)
    ensures r.connected == io.connected - {s}
    ensures forall room :: Members(r, room) == Members(io, room) - {s}
    ensures Valid(io) ==> Valid(r)
  {
    Io(io.connected - {s}, map room | room in io.rooms && io.rooms[room] - {s} != {} :: io.rooms[room] - {s})
  }
}

=== FILE: user_controller.dfy ===
/** The profile handlers of `controllers/userController.js`. */
module UserController {
  import opened Wrappers
  import opened Js
  import opened Errors
  import opened OrderedMap

  /** A request body or parameter object: string keys in insertion order. */
  type Obj = seq<(string, Val)>

  /**
   * `filterObj(obj, ...allowedFields)`: a new object with the allowed keys
   * of `obj`, visited in `Object.keys` order.
   */
  function FilterObj(obj: Obj, allowed: seq<string>): (r: Obj)
    ensures forall k {:trigger Get(r, k)} :: Get(r, k) == if k in allowed then Get(obj, k) else None
    ensures forall e :: e in r ==> e in obj && e.0 in allowed
    ensures |r| <= |obj|
    ensures UniqueKeys(obj) ==> UniqueKeys(r)
    decreases |obj|
  {
    if |obj| == 0 then []
    else
      var rest := FilterObj(obj[1..], allowed);
      FilterStep(obj, allowed, rest);
      if obj[0].0 in allowed then [obj[0]] + rest else rest
  }

  /** One step of the filter: keeping or dropping the head keeps the lookup property. */
  lemma FilterStep(obj: Obj, allowed: seq<string>, rest: Obj)
    requires |obj| > 0
    requires forall k {:trigger Get(rest, k)} :: Get(rest, k) == if k in allowed then Get(obj[1..], k) else None
    requires forall e :: e in rest ==> e in obj[1..] && e.0 in allowed
    ensures var r := if obj[0].0 in allowed then [obj[0]] + rest else rest;
      && (forall k {:trigger Get(r, k)} :: Get(r, k) == if k in allowed then Get(obj, k) else None)
      && (UniqueKeys(obj[1..]) && UniqueKeys(rest) ==> UniqueKeys(obj) ==> UniqueKeys(r))
  {
    var r := if obj[0].0 in allowed then [obj[0]] + rest else rest;
    forall k ensures Get(r, k) == if k in allowed then Get(obj, k) else None {
      GetCons(obj, k);
      if obj[0].0 in allowed { GetCons(r, k); }
    }
    if UniqueKeys(obj) && obj[0].0 in allowed {
      assert obj[0].0 !in Keys(obj[1..]);
      assert obj[0].0 !in Keys(rest);
    }
  }

  /** Lookup in a non-empty object: the head entry, or a lookup in the tail. */
  lemma GetCons(e: Obj, k: string)
    requires |e| > 0
    ensures Get(e, k) == if e[0].0 == k then Some(e[0].1) else Get(e[1..], k)
  {
    if e[0].0 != k {
      match IndexOf(e[1..], k)
      case None =>
        assert k !in Keys(e[1..]);
        assert k !in Keys(e);
      case Some(j) =>
        assert FirstWithKey(e, k, j + 1);
        FirstWithKeyIsIndexOf(e, k, j + 1);
    } else {
      assert FirstWithKey(e, k, 0);
      FirstWithKeyIsIndexOf(e, k, 0);
    }
  }

  const Allowed: seq<string> := ["fullName", "email"]

  const PasswordMessage := "Use /updateMyPassword to update password."

  /**
   * `updateMe`: a truthy `password` is refused with a 400 before any update;
   * otherwise the update body is `fullName` and `email` from the request,
   * plus `profilePic` set to the stored file name when a photo was uploaded.
   */
  function UpdateMe(body: Obj, fileName: Option<string>): (r: Result<Obj, AppError>)
    ensures r.Err? <==> Get(body, "password").Some? && Truthy(Get(body, "password").value)
    ensures r.Err? ==> r.error.statusCode == 400 && r.error.status == "fail" && r.error.message == PasswordMessage
    ensures r.Ok? ==> forall k {:trigger Get(r.value, k)} ::
      k != "fullName" && k != "email" && k != "profilePic" ==> Get(r.value, k).None?
    ensures r.Ok? ==> Get(r.value, "fullName") == Get(body, "fullName") && Get(r.value, "email") == Get(body, "email")
    ensures r.Ok? ==> Get(r.value, "profilePic") == if fileName.Some? then Some(Str(fileName.value)) else None
  {
    var password := Get(body, "password");
    if password.Some? && Truthy(password.value) then
      ClientErrorsFail(PasswordMessage, 400);
      Err(NewAppError(PasswordMessage, 400))
    else
      var filtered := FilterObj(body, Allowed);
      assert forall k :: k in Allowed <==> k == "fullName" || k == "email";
      Ok(WithPhoto(filtered, fileName))
  }

  /** `if (req.file) filteredBody.profilePic = req.file.filename`. */
  function WithPhoto(filtered: Obj, fileName: Option<string>): (r: Obj)
    ensures Get(r, "profilePic") == if fileName.Some? then Some(Str(fileName.value)) else Get(filtered, "profilePic")
    ensures forall k {:trigger Get(r, k)} :: k != "profilePic" ==> Get(r, k) == Get(filtered, k)
  {
    if fileName.Some? then Set(filtered, "profilePic", Str(fileName.value)) else filtered
  }

  /** `getMe`: `req.params.id = req.user.id`, leaving the other parameters. */
  function GetMe(params: Obj, me: string): (r: Obj)
    ensures Get(r, "id") == Some(Str(me))
    ensures forall k {:trigger Get(r, k)} :: k != "id" ==> Get(r, k) == Get(params, k)
  {
    Set(params, "id", Str(me))
  }
}

=== FILE: wrappers.dfy ===
/** Failure-compatible wrappers shared by every module of the model. */
module Wrappers {

  /** An optional value: JavaScript's `undefined` / `null` on the absent side. */
  datatype Option<+T> = None | Some(value: T) {
    function GetOr(default: T): T {
      match this
      case Some(v) => v
      case None => default
    }
  }

  /** The outcome of an operation that can fail with an error of type `E`. */
  datatype Result<+T, +E> = Ok(value: T) | Err(error: E)
}
